=== FILE: README.md ===
# YumYum order front end — a Dafny model

This project models the business logic of the YumYum pickup-order point of
sale, an Electron front end for a restaurant. It covers:

- the order-management screen: the validation rules, the status guard and
  the commands (status request, the two-step "ready" flow, accept,
  auto-accept, reject, select), the per-second timer tick, the
  preparation-time stepper, the history upsert, the statistics, the hourly
  load and the sort of the in-progress section;
- the in-memory order store `YumYumApp`;
- the receipt data derived for printing, and the guard chain of automatic
  printing;
- the time and holiday predicates of the shared utilities;
- the sales aggregation of the mock data layer: period totals, weekday and
  hour buckets, and the top-five best-menu ranking;
- the small editors: the order-history search and statistics, the
  operation-info holiday lists and the save-time validation, the sold-out
  screen with its catalog, and the counters and clamps of the settings page.

Everything is modelled as immutable datatypes and pure functions over
sequences. Two loops of the source are methods: the half-hour time grid and the "sell out the whole tab" loop. A command takes the
screen state and returns the new state together with an outcome. Clock
readings are parameters: milliseconds since the epoch for instants, and
minutes of the day for clock times. Turning an instant into a local date
or weekday is also a parameter, or a fixed zone offset. Randomness is a
parameter. Storage contents are `Option` parameters and results.

Modules, one per source file, plus shared ones:

- `Wrappers`: `Option`.
- `Text`: digits, fixed-width numbers, string order, trimming and splitting.
- `Seqs`: filter, count and sum with their algebra, and the first-match search behind `find` and `findIndex`.
- `Sorting`: a stable insertion sort by a total preorder.
- `Calendar`: civil dates, `YYYY-MM-DD` and `HH:MM` strings, month lengths
  and the next day under the Gregorian leap rule, the weekday and the week
  of the month.
- `Utils`: `renderer/utils.js`.
- `Orders`: the rules, validation and guard of `renderer/order-management.js`.
- `Lifecycle`: the commands of `renderer/order-management.js`.
- `OrderBoard`: the queries of `renderer/order-management.js`.
- `App`: `src/app.js`.
- `PrintHelper`: `renderer/print-helper.js`.
- `Sales`: the sales functions of `renderer/mock-data.js`.
- `MenuCatalog`: `MOCK_MENUS` and `updateMenuStatus` of
  `renderer/mock-data.js`, together with `renderer/menu-soldout.js`.
- `OperationInfo`: `renderer/operation-info.js`.
- `OrderHistory`: `renderer/order-history.js`.
- `Settings`: `renderer/settings.js`.

Behaviour as written that one might not expect:

- `acceptOrder` and `autoAcceptOrder` have no status, business-hours or
  validation gate.
- `confirmReady` has no guard.
- In `addOrder`, the generated `id` comes before the spread of the input
  data. An `id` in the data therefore replaces the generated one, while
  `createdAt` and `status` always override the data.
- The overdue rule reads `timer`, which the tick never advances. The tick
  advances `timerSeconds`. Accepting resets both to 0.

## Model

| member | source | states |
|---|---|---|
| App.New | src/app.js:6-9 | a new store holds no orders and is not running |
| App.Initialize | src/app.js:12-16 | initializing starts the store and keeps its orders |
| App.Shutdown | src/app.js:63-66 | shutting down stops the store and keeps its orders |
| App.FreshApp | test/app.test.js:19-23 | an initialized new store is running with no orders, and shutting it down gives back the constructed store |
| App.UpperChar | src/app.js:59 | upper-casing turns every base-36 digit into an upper-case letter or digit and leaves digits, `_` and capitals alone |
| App.GenerateOrderIdShape | src/app.js:56-60 | an id is `ORDER_`, the decimal timestamp, `_` and the upper-cased random part. Parsing it gives both parts back, and with a non-empty random part it matches `^ORDER_\d+_[A-Z0-9]+$` |
| App.GenerateOrderIdInjective | src/app.js:56-60 | two ids are equal exactly when their timestamps and random parts are equal, so different clock or random readings give different ids |
| App.UpperInjective | src/app.js:58-59 | upper-casing loses nothing on lower-case base-36 random parts |
| App.NewOrder | src/app.js:20-25 | the new record holds the data's fields plus `id`, `createdAt` and `status`. `status` is `pending` and `createdAt` is now, whatever the data says; an `id` in the data wins over the generated one |
| App.AddOrder | src/app.js:19-31 | adding appends exactly the new record and leaves the running flag alone |
| Seqs.FindFirst | renderer/order-management.js:1292 | `findIndex` (and the position behind `find`): the first position whose element passes the test, or the end when none does |
| App.FindRecord | src/app.js:35 | the position found is the first record with the id, or the end when none has it |
| App.GetOrder | src/app.js:34-36 | the answer is the first stored record with that id (no record in front of it has the id), and there is none exactly when no stored record has the id |
| App.GetAllOrders | src/app.js:39-41 | the listing is the stored orders, element by element, in insertion order |
| App.UpdateOrderStatus | src/app.js:44-53 | an unknown id answers nothing and changes nothing. Otherwise, with no guard on the status string, only the first record with the id changes: it gets the new status and `updatedAt` |
| App.AddThenGet | test/app.test.js:43-56 | an added order is found by its id and is pending |
| App.ListInInsertionOrder | test/app.test.js:63-71 | two additions to an empty store are listed in the order they were made |
| App.UpdateTouchesOnlyStatus | src/app.js:44-50 | a status update keeps every field of the order except `status` and `updatedAt` |
| Calendar.FormatDateOrder | renderer/order-history.js:29-35 | for four-digit years, `YYYY-MM-DD` strings compare as strings exactly as the dates compare in time, and equal strings mean equal dates |
| Calendar.FormatHHMM | renderer/utils.js:142 | an `HH:MM` string is five characters with a colon in the middle |
| Calendar.HHMMOrder | renderer/utils.js:142-153 | `HH:MM` strings compare as strings exactly as their minutes of the day compare, and equal strings mean equal minutes |
| Calendar.ParseFormatHHMM | renderer/utils.js:132-136 | splitting a formatted time at the colon gives its minute of the day back |
| Calendar.Weekday | renderer/utils.js:168 | `getDay()` is between 0 and 6 |
| Calendar.WeekdayNextDay | renderer/utils.js:168 | the next day of the month has the next weekday, Saturday wrapping to Sunday |
| Calendar.WeekdayAnchor | renderer/utils.js:168 | 24 October 2025 is a Friday (5) |
| Calendar.NextDay | renderer/mock-data.js:277-278 | the day after a real date is a real date; it is the first of a month exactly when the date was the last day of its month (30 or 31 days, February 28 or 29 by the Gregorian leap rule), and otherwise the next day of the same month |
| Calendar.WeekdaySuccessor | renderer/utils.js:168 | the day after any real date, across month ends, year ends and leap days, has the next weekday; with the anchor this fixes the weekday of every date |
| Calendar.WeekOfMonth | renderer/utils.js:169 | `ceil(date / 7)` is between 1 and 5, and the date lies in that week's seven days |
| Utils.DayName | renderer/utils.js:44-47 | a name exists exactly for weekdays 0 to 6, and it is the one at that position of 일 월 화 수 목 금 토, Sunday first |
| Utils.DayNameInjective | renderer/utils.js:44-47 | different weekdays have different names |
| Utils.ZeroBaseGrowthRate | renderer/utils.js:104-107 | against a zero previous value the growth rate is 100 exactly when the current value is positive, and 0 otherwise |
| Utils.IsTimeAfterIrreflexive | renderer/utils.js:132-136 | no time is after itself |
| Utils.IsTimeAfterTransitive | renderer/utils.js:132-136 | "after" is transitive |
| Utils.IsTimeAfterFormatted | renderer/utils.js:132-136 | on formatted times, "after" is the later minute of the day, and agrees with reversed string order |
| Utils.CanonicalOrder | renderer/utils.js:151-157 | well-formed `HH:MM` strings compare as strings exactly as their minutes compare |
| Utils.GenerateTimeOptions | renderer/utils.js:119-129 | the grid has 48 entries, entry i is minute 30·i, it runs from `00:00` to `23:30`, and it strictly increases |
| Utils.IsOpenNow | renderer/utils.js:139-163 | a weekday without a schedule is closed, and an open store has an enabled schedule |
| Utils.IsOpenNowMinutes | renderer/utils.js:139-163 | open exactly when the weekday's schedule is enabled, now lies in the inclusive opening window, and now is not in the half-open window of an enabled break |
| Utils.AnyRegular | renderer/utils.js:172-183 | some regular holiday matches the date exactly when the loop reports one |
| Utils.AnyTemporary | renderer/utils.js:186-195 | some closure covers the date exactly when the loop reports one |
| Utils.IsHoliday | renderer/utils.js:166-198 | a date is a holiday exactly when a regular holiday matches it or a temporary closure covers it |
| Utils.WeeklyHolidayEveryWeek | renderer/utils.js:173-177 | a weekly holiday, or one without a week, closes every date on its weekday |
| Utils.SpecificWeekHoliday | renderer/utils.js:169-181 | a holiday for week w matches exactly the dates on its weekday whose day of the month lies in 7w−6..7w |
| Utils.TempHolidayInclusive | renderer/utils.js:186-195 | a closure covers its first and last days and no date outside them |
| Orders.IsOperating | renderer/order-management.js:482-487 | the store is operating exactly from minute 9·60 to minute 22·60, both included |
| Orders.OperatingBounds | renderer/order-management.js:30-33 | the window's bounds are the strings `09:00` and `22:00` |
| Orders.ValidPhoneIsFormatted | renderer/order-management.js:560-563 | a phone passes exactly when it is `010-` followed by two four-digit groups joined by `-` |
| Orders.MessagesDistinct | renderer/order-management.js:524-551 | the six error messages are pairwise different |
| Orders.FailsMeansViolates | renderer/order-management.js:524-551 | each rule's test as written, truthiness included, objects exactly to what the rule states |
| Orders.Collect | renderer/order-management.js:521-557 | collecting keeps exactly the failing rules, in checking order |
| Orders.Validate | renderer/order-management.js:521-557 | the errors are exactly the violated rules, each once, in the order amount, item count, takeout reservation, overdue timer, name, phone; an order is valid exactly when no rule is violated |
| Orders.RuleOrderComplete | renderer/order-management.js:524-551 | the rules are checked in a fixed order that names every rule |
| Orders.ErrorMessages | renderer/order-management.js:553-556 | the messages are the errors' messages, one for one, in order |
| Orders.ValidationOfContact | renderer/order-management.js:545-551 | a blank or whitespace-only name is always an error, and an empty or well-formed phone never is |
| Orders.CanChangeStatus | renderer/order-management.js:566-608 | a cancel is allowed exactly within five minutes of creation for orders that are neither ready nor completed. `ready` is allowed exactly from preparing and `completed` exactly from ready; any other target is allowed |
| Orders.CancelWindowBoundary | renderer/order-management.js:572-586 | a cancel at exactly five minutes is allowed, and one millisecond later it is refused for the time |
| Orders.GuardedForwardPath | renderer/order-management.js:588-604 | the guard lets an order forward only one step at a time, and never cancels a ready or completed order |
| OrderBoard.GetOrderStatistics | renderer/order-management.js:690-702 | the total is the list length; each status count is the number of orders with that status, and together with the rejected orders they make up the total; the error count is the number of orders with at least one validation error, at most the total |
| OrderBoard.StatusCountsPartition | renderer/order-management.js:690-702 | every order is counted under exactly one of the six statuses |
| OrderBoard.StatisticsOfAppend | renderer/order-management.js:690-702 | one more order raises the total by one, each status count by one exactly when the order has that status, and the error count by one exactly when it has errors |
| OrderBoard.StatisticsOfEmpty | renderer/order-management.js:690-702 | no orders give all-zero statistics |
| OrderBoard.CheckHourlyOrderLimit | renderer/order-management.js:611-625 | the limit is 50; the count is the number of orders created strictly after one hour before now, at most the list length; "exceeded" means at least 50, and an order created an hour or more ago is not counted |
| OrderBoard.HourlyCountOfAppend | renderer/order-management.js:611-625 | no orders count zero, and one more order raises the count by one exactly when it was created within the last hour |
| OrderBoard.HourlyCountFallsOverTime | renderer/order-management.js:611-625 | with the same orders, a later check never counts more |
| OrderBoard.HourlyWindowBoundary | renderer/order-management.js:613-618 | an order leaves the window exactly one hour after creation |
| OrderBoard.SectionLeIsComparator | renderer/order-management.js:1331-1345 | on in-progress orders, the order used is exactly "the comparator does not put a after b" |
| OrderBoard.SectionLeTotalPreorder | renderer/order-management.js:1331-1345 | that order is total and transitive, so the sort is well defined |
| OrderBoard.PreparingSection | renderer/order-management.js:1328-1345 | the section is a permutation of exactly the preparing and ready orders |
| OrderBoard.PreparingSectionOrder | renderer/order-management.js:1331-1345 | every preparing order comes before every ready order, and within a status newer orders come first |
| Lifecycle.SaveToHistory | renderer/order-management.js:1423-1439 | the first entry with the same id is replaced in place, or the order is appended; the order is then in the history, and unique ids stay unique |
| Lifecycle.SaveToHistoryIdempotent | renderer/order-management.js:1428-1433 | saving twice is saving once, and a lookup by id then finds the saved order |
| Lifecycle.UpdateOrderStatus | renderer/order-management.js:375-431 | every refused request changes nothing. A change needs a selection, a found order, operating hours and the guard's consent, and validity for every target but cancel. `ready` leaves the orders and history alone. Cancel and complete set the status, `updatedAt` and their own timestamp on that order only, and save it to history. Conversely, once every gate passes, cancel and complete always take effect, `ready` always opens the ready dialog and nothing else, and any other status does nothing; a request that fails a gate always ends in one of the refusals |
| Lifecycle.UpdateOrderStatusGates | renderer/order-management.js:375-401 | each gate alone stops the request: no selection, order not found, closed, guard refusal, or failed validation on a target other than cancel |
| Lifecycle.ConfirmReady | renderer/order-management.js:456-477 | the dialog always closes. The order becomes ready, with `readyCompletedAt` now, exactly when the selection names a present order; nothing else changes |
| Lifecycle.TwoStepReady | renderer/order-management.js:404-416 | for a valid preparing order in hours, a ready request only opens the dialog and leaves the order as it is; confirming then makes it ready |
| Lifecycle.Accepted | renderer/order-management.js:1216-1221 | an accepted order is preparing with the given time and acceptance instant, both timers at 0, and its identity, creation time and items kept |
| Lifecycle.AcceptOrder | renderer/order-management.js:1204-1255 | accepting succeeds exactly when the selection names a present order, whatever its status, the hour or its validity; only that order changes |
| Lifecycle.AutoAcceptTime | renderer/order-management.js:1485 | the configured time is used, or 15 minutes when it is unset |
| Lifecycle.AutoAcceptOrder | renderer/order-management.js:1481-1526 | with auto-accept off nothing happens; otherwise the order is accepted with the auto-accept time |
| Lifecycle.SelectOrder | renderer/order-management.js:222-278 | the id is always selected, no order's id changes, and only the selected order can change. It changes only when it is pending and auto-accept is on; a pending order otherwise puts its preparation time, or 10, in the panel |
| Lifecycle.RejectOrder | renderer/order-management.js:1258-1311 | rejecting happens exactly for a confirmed, selected, present order; otherwise nothing changes. That order is saved to history as rejected and leaves the list. The others keep their ids and order, and all but the first are unchanged, since the first is selected next and auto-accept may accept it. An empty list clears the selection |
| Lifecycle.RejectRemovesOnlyThatOrder | renderer/order-management.js:1276-1295 | with auto-accept off, the remaining list is the old list without exactly the rejected order |
| Lifecycle.TickOrder | renderer/order-management.js:733-738 | a pending or preparing order counts one more second and nothing else changes; any other order is untouched |
| Lifecycle.Tick | renderer/order-management.js:729-747 | one tick applies the per-order step to every order and keeps the list's length |
| Lifecycle.TickNCounts | renderer/order-management.js:729-747 | after n ticks, each pending or preparing order has counted exactly n more seconds with every other field unchanged, and every other order is untouched |
| Lifecycle.TicksNeverMakeOverdue | renderer/order-management.js:540-542 | ticking never changes an order's validation, so an order accepted with `timer` 0 never becomes overdue |
| Lifecycle.DecreasePreparationTime | renderer/order-management.js:1186-1192 | above 5 the time goes down by 5; otherwise it stays |
| Lifecycle.IncreasePreparationTime | renderer/order-management.js:1195-1201 | below 60 the time goes up by 5; otherwise it stays |
| Lifecycle.PressStaysOnGrid | renderer/order-management.js:1186-1201 | from any multiple of 5 in 5..60, the default 10 included, every sequence of presses stays a multiple of 5 in 5..60 |
| Lifecycle.OffGridPreparationTime | renderer/order-management.js:1195-1201 | from an off-grid stored time of 58, one press gives 63, above the maximum |
| Lifecycle.ValidateAll | renderer/order-management.js:508-518 | every order carries exactly its violated rules as errors, in the rule order of `validateOrder`, none when valid, and nothing else about it changes |
| PrintHelper.MaskPhoneNumber | renderer/print-helper.js:20-35 | without hyphens, 11 digits keep the first 3 and last 4, and 10 keep the first 2 and last 4, around `-****-`. Any other length, or no phone, gives `***-****-****` |
| PrintHelper.MaskHidesMiddle | renderer/print-helper.js:26-31 | two phones with the same kept digits mask alike, whatever their middle digits |
| PrintHelper.MaskFormattedPhone | renderer/print-helper.js:26-28 | a valid mobile number `010-aaaa-bbbb` masks to `010-****-bbbb` |
| PrintHelper.MaskThreeGroups | renderer/print-helper.js:24-28 | a 3-4-4 hyphenated number keeps its first and last groups |
| PrintHelper.CreatedNoLaterTotalPreorder | renderer/print-helper.js:50-54 | ordering by creation time is total and transitive, so the sort is well defined |
| PrintHelper.TodayOrderNumber | renderer/print-helper.js:38-58 | the number is between 1 and the day's order count plus 1, and it is count plus 1 exactly when the order is not among the day's orders |
| PrintHelper.PositionCountsEarlier | renderer/print-helper.js:50-57 | in the sorted day, an order's position is the number of the day's orders created before it |
| PrintHelper.TodayNumberCountsEarlier | renderer/print-helper.js:38-58 | when the day's stored orders have distinct ids and distinct creation times, an order of the day gets one plus the number of the day's orders created before it |
| PrintHelper.TodayNumberWithTies | renderer/print-helper.js:38-58 | with distinct ids but creation times that may coincide, an order of the day gets a number above the count of the day's orders created before it and at most the count created no later than it |
| Sorting.InsertKeepsTies | renderer/print-helper.js:50-54 | inserting an element never passes an element tied with it, so it lands in front of its tie class and the class keeps its order |
| Sorting.SortByStable | renderer/print-helper.js:50-54 | the sort is stable: the elements tied with any given element come out in the order they went in |
| PrintHelper.ExpectedTime | renderer/print-helper.js:61-67 | the expected time is creation plus whole minutes: the preparation time, or 15 when it is 0 |
| PrintHelper.ExpectedAfterAccept | renderer/print-helper.js:61-67 | after an accept with m minutes the expected time is creation plus m minutes; the default 15 agrees with an unset preparation time |
| PrintHelper.RequestParts | renderer/print-helper.js:95-99 | the parts are the non-empty request fields, and there are none exactly when all three are empty |
| PrintHelper.MergeRequests | renderer/print-helper.js:90-101 | a text request is kept as is, none gives the empty text, and merged fields are empty exactly when all three are |
| PrintHelper.MergeRequestsSplits | renderer/print-helper.js:94-99 | splitting the merged text at newlines gives back the non-empty fields in order store, delivery, extras |
| PrintHelper.ConvertOrderToReceiptData | renderer/print-helper.js:88-132 | the receipt keeps the order's own name, type, items, total and time, with `고객` for an empty name and `포장` for an empty type. The requests line is the merged requests, or `없음` when they merge to nothing. The thank-you line names the customer. The number is the order's daily number, the phone is the order's masked phone, and the expected time is the order's expected completion |
| PrintHelper.ReceiptDefaults | renderer/print-helper.js:117-130 | each empty field gets its own default, whatever the other fields hold: customer `고객` with the default thank-you line, type `포장`, a hidden phone, requests `없음`, no items, total 0 |
| PrintHelper.DefaultThankYou | renderer/print-helper.js:130 | the default thank-you line reads `고객님 냠냠픽업을 주문해주셔서 감사합니다` |
| PrintHelper.AutoPrintReceipt | renderer/print-helper.js:135-178 | a receipt prints exactly when auto-print is on, a printer is chosen, the device API exists and the device succeeds. A refusal before printing names one of the three guard reasons, a device error is passed on, and a thrown device error gives the reason `exception` |
| PrintHelper.AutoPrintPrecedence | renderer/print-helper.js:138-154 | refusals come in the order disabled, no printer, no API, before the device is asked |
| Sales.RoundDiv | renderer/mock-data.js:109 | the rounded mean is the integer nearest to total / count, with halves rounded up |
| Sales.RoundDivUnique | renderer/mock-data.js:109 | only one integer is nearest in that sense |
| Sales.CalculateSalesByPeriod | renderer/mock-data.js:101-117 | the kept orders are exactly those with start ≤ order time ≤ end, each kept as many times as it occurs. The total is their sum, the count their number, and the average the rounded mean, or 0 with no orders |
| Sales.PeriodSalesOfAppend | renderer/mock-data.js:101-117 | no orders give an empty period; one more order raises the count by one and the total by its amount exactly when it was placed within the period |
| Sales.AverageWithinBounds | renderer/mock-data.js:107-109 | when every order total lies in lo..hi, so does the average of any period with orders |
| Sales.PeriodsAdd | renderer/mock-data.js:101-109 | splitting a period in two adds up both totals and both counts |
| Sales.Tally | renderer/mock-data.js:124-127 | each bucket keeps its label and counts exactly the orders with its key, with their total. The counts sum to the number of orders and the totals to the grand total |
| Sales.CalculateSalesByDay | renderer/mock-data.js:120-130 | seven buckets named by the Korean weekday names, each counting and summing exactly its weekday's orders, with counts and sales conserved |
| Sales.HourLabel | renderer/mock-data.js:135 | an hour label has five characters |
| Sales.HourLabelIsTime | renderer/mock-data.js:135 | hour h's label is the `HH:MM` time of minute 60·h and parses back to it |
| Sales.HourLabelsOrdered | renderer/mock-data.js:134-138 | earlier hours have smaller labels |
| Sales.HourLabels | renderer/mock-data.js:134-138 | there are 24 labels, one per hour in order |
| Sales.CalculateSalesByHour | renderer/mock-data.js:133-146 | 24 buckets labelled `HH:00`, each counting and summing exactly its hour's orders, with counts and sales conserved |
| Sales.AddItem | renderer/mock-data.js:236-247 | adding an item keeps one entry per menu, lists the item's menu, and loses no menu |
| Sales.Aggregate | renderer/mock-data.js:233-248 | the accumulated entries have one entry per menu |
| Sales.AggregateCovers | renderer/mock-data.js:233-248 | every sold menu has an entry |
| Sales.AggregateEntries | renderer/mock-data.js:233-248 | each entry carries its menu's first name, its total quantity and its total price × quantity |
| Sales.AggregateSpec | renderer/mock-data.js:233-248 | one entry per sold menu and nothing else, each with the menu's totals |
| Sales.OrdersArePreorders | renderer/mock-data.js:250-251 | the property order of `Object.values` and the quantity comparator are total and transitive |
| Sales.Ranked | renderer/mock-data.js:250-251 | the ranking is a permutation of the accumulated entries |
| Sales.BestMenus | renderer/mock-data.js:250-252 | the best menus are the first five of the ranking, or all when there are fewer, and each is an accumulated entry |
| Sales.RankedSorted | renderer/mock-data.js:251 | the ranking is ordered by quantity, largest first |
| Sales.BestMenusOrdered | renderer/mock-data.js:250-252 | the best menus come in non-increasing quantity |
| Sales.BestMenusAreTop | renderer/mock-data.js:250-252 | a menu left out sold no more than the fifth best, and then there are five |
| Sales.BestMenusDistinct | renderer/mock-data.js:232-253 | the ranking names each menu at most once |
| Sales.BestMenusCut | renderer/mock-data.js:250-252 | a menu sold but missing from the ranking sold in total no more than the fifth entry, and then there are five |
| Sales.BestMenusIsTop | renderer/mock-data.js:232-253 | the ranking has as many entries as there are menus sold, up to five, one per menu; each holds its menu's total quantity, total revenue and first item name; largest quantity first; and any menu left out sold no more than the fifth |
| Sales.GetBestMenusFromOrders | renderer/mock-data.js:232-253 | the top-five ranking of the orders' items as in Sales.BestMenusIsTop: entry count, one entry per menu with its totals and first name, largest quantity first, and no menu left out that sold more than the fifth |
| Sales.GetBestMenusByHour | renderer/mock-data.js:149-171 | the same top-five ranking over the items of the orders with hourStart ≤ hour < hourEnd only; each entry is a menu sold in such an order, and an empty slot gives none |
| Sales.EmptySlot | renderer/mock-data.js:150 | a slot whose end is not after its start keeps no orders |
| Sales.HourSlotsTile | renderer/mock-data.js:150 | adjacent half-open slots are disjoint and together make the joined slot |
| Sales.BestMenusComeFromOrders | renderer/mock-data.js:232-253 | every ranked menu was sold in some order |
| Sales.GetBestMenusByDay | renderer/mock-data.js:174-196 | the same top-five ranking over the items of the orders of that weekday only; each entry is a menu sold in an order on that weekday |
| MenuCatalog.MockMenusWellFormed | renderer/mock-data.js:6-26 | the mock menus have ids 1 to 15 in order, hence unique |
| MenuCatalog.MockMenusCount | renderer/mock-data.js:6-26 | exactly one mock menu starts sold out |
| MenuCatalog.Snapshot | renderer/mock-data.js:336-338 | the saved map has exactly the menus' ids as keys |
| MenuCatalog.SnapshotValues | renderer/mock-data.js:336-338 | with unique ids, the saved map records each menu's flag |
| MenuCatalog.UpdateMenuStatus | renderer/mock-data.js:330-342 | the answer is true exactly when some menu has the id. Then the first such menu takes the flag and every flag is saved; otherwise nothing changes and nothing is saved |
| MenuCatalog.UpdateMenuStatusOnly | renderer/mock-data.js:330-342 | with unique ids only the menu with that id changes, and the saved map records the new flag for it |
| MenuCatalog.LoadMenus | renderer/menu-soldout.js:15-37 | a menu whose id has a saved entry takes the saved flag; every other menu, and all of them when nothing is saved, stays as it is |
| MenuCatalog.Overlay | renderer/menu-soldout.js:23-33 | laying a saved map over a tab changes only the flags of menus with saved entries |
| MenuCatalog.LoadRestoresSaved | renderer/menu-soldout.js:19-34 | loading what was saved restores every flag of the saved catalog |
| MenuCatalog.ToggleSoldOut | renderer/menu-soldout.js:92-101 | an unknown id changes nothing and is reported not found; otherwise exactly the first menu with the id flips its flag, the menu is reported found, and every flag after the flip is saved (through `updateMenuStatus`, mock-data.js:330-342) |
| MenuCatalog.ToggleTwice | renderer/menu-soldout.js:92-98 | toggling twice restores the catalog |
| MenuCatalog.SoldOutCount | renderer/menu-soldout.js:161-165 | the count is the number of sold-out menus in both tabs, at most the number of menus |
| MenuCatalog.ToggleMovesCount | renderer/menu-soldout.js:92-98 | a toggle of a known id moves the count by exactly one, down when the menu was sold out |
| MenuCatalog.SetSoldOutAll | renderer/menu-soldout.js:146-158 | every menu of the tab takes the value, no menu changes anything but its flag, and any changed menu carries the value. With unique ids the other tab is unchanged. What is left in storage is every flag after the update, or nothing for an empty tab |
| MenuCatalog.SetSoldOutAllCount | renderer/menu-soldout.js:146-165 | after selling out a tab, the count is that tab's size plus the other tab's sold-out menus |
| OperationInfo.GetOperationInfo | renderer/mock-data.js:389-392 | stored info is returned as is; without it the defaults have no holidays and no enabled break |
| OperationInfo.NewHoliday | renderer/operation-info.js:133-138 | a new holiday is specific exactly when a week is chosen, and carries the chosen week and day |
| OperationInfo.AddIfNew | renderer/operation-info.js:140-148 | a slot is appended only when its (weekday, week) pair is not yet listed; the list keeps its prefix and stays duplicate-free |
| OperationInfo.AddDays | renderer/operation-info.js:132-149 | the list grows by at most the chosen days and keeps its prefix. Every chosen day is listed afterwards, only chosen days are added, and a duplicate-free list stays duplicate-free |
| OperationInfo.AddRegularHoliday | renderer/operation-info.js:122-157 | it fails and changes nothing exactly when no day is chosen. Otherwise it lists every chosen day, adds nothing else, and keeps the list duplicate-free |
| OperationInfo.AddRegularHolidayTwice | renderer/operation-info.js:140-148 | adding the same selection again changes nothing |
| OperationInfo.AddNewSlot | renderer/operation-info.js:140-148 | an unlisted slot is appended exactly once |
| OperationInfo.RemoveAt | renderer/operation-info.js:184-188 | `splice(index, 1)` drops the entry at the index, counting from the end for negative indices. An index past the end drops nothing, and one before the start drops the first entry |
| OperationInfo.RemoveAtKeepsOthers | renderer/operation-info.js:240-244 | removing at a valid index drops exactly that entry and keeps the others in order |
| OperationInfo.RemoveLastAdded | renderer/operation-info.js:184-188 | removing what was just added restores the list |
| OperationInfo.RemoveKeepsDuplicateFree | renderer/operation-info.js:184-188 | removing keeps the regular list duplicate-free |
| OperationInfo.AddTempHoliday | renderer/operation-info.js:191-212 | it fails and changes nothing exactly when no date is chosen. Otherwise one closure is appended, from the first date to the second, or to the first when only one is chosen |
| OperationInfo.SingleDateClosure | renderer/operation-info.js:199-205 | a closure added from one date covers that date and no other |
| OperationInfo.FirstReversed | renderer/operation-info.js:258-263 | the row found is the first enabled day that starts after it ends, or the end when there is none |
| OperationInfo.Collect | renderer/operation-info.js:249-255 | each row takes the form's enabled flag and times for its day and keeps its day |
| OperationInfo.SaveOperationInfo | renderer/operation-info.js:247-283 | the form's hours always replace the page's. The info is saved exactly when no enabled day and no enabled break starts after it ends, and then what is saved is the page's info. A day error names a reversed day, and the holiday lists are untouched |
| OperationInfo.SaveAcceptsOrderedTimes | renderer/operation-info.js:258-278 | with well-formed times, saving succeeds exactly when every enabled day and the enabled break start no later than they end; equal times are accepted |
| OperationInfo.HoursInOrder | renderer/operation-info.js:258-263 | no collected day is reversed exactly when every enabled day of the form starts no later than it ends |
| OperationInfo.RowReversed | renderer/operation-info.js:259 | one row is reversed exactly when it is enabled and its start minute is later than its end minute |
| OrderHistory.StartOfDay | renderer/order-history.js:75-76 | midnight is the last day boundary at or before the instant |
| OrderHistory.EndOfDay | renderer/order-history.js:77 | the day's last millisecond is the last instant before the next day boundary |
| OrderHistory.IsInRangeWholeDays | renderer/order-history.js:69-80 | an instant is in range exactly when its day lies between the start's day and the end's day |
| OrderHistory.RangeIsInclusive | renderer/order-history.js:69-80 | both end days are included whole, and the instants just outside them are not |
| OrderHistory.DayOf | renderer/order-history.js:75-77 | every instant of day k belongs to day k |
| OrderHistory.ValidateDateRange | renderer/order-history.js:112-120 | the end is reset to the start exactly when both are set and the end is before the start; afterwards the start is not after the end |
| OrderHistory.ValidateIdempotent | renderer/order-history.js:112-120 | a repaired range passes the check unchanged |
| OrderHistory.ValidateFormattedDates | renderer/order-history.js:112-120 | on formatted dates the check fires exactly when the start date is later than the end date, and the end becomes the later date |
| OrderHistory.SearchOrders | renderer/order-history.js:258-282 | with either date missing there is no result. Otherwise the result is exactly the history orders created on a day of the range, at most the whole history |
| OrderHistory.FilterByStatus | renderer/order-history.js:285-297 | `all` keeps the list, and any other filter keeps exactly the orders with that status |
| OrderHistory.ShownIsFilteredOnce | renderer/order-history.js:312-331 | filtering again when displaying changes nothing |
| OrderHistory.UpdateStatistics | renderer/order-history.js:300-309 | completed plus cancelled are at most the list length, the cancelled count covers cancelled and rejected orders, and the revenue sums completed orders only |
| OrderHistory.CancelledSplit | renderer/order-history.js:302 | the cancelled count is the cancelled orders plus the rejected ones |
| OrderHistory.DisjointCounts | renderer/order-history.js:301-302 | no order is counted both as completed and as cancelled |
| OrderHistory.StatisticsSplit | renderer/order-history.js:300-309 | the figures of two lists joined are the sums of their figures |
| OrderHistory.StatisticsOfOne | renderer/order-history.js:300-309 | a completed order adds one completion and its amount, a cancelled or rejected one adds one cancellation, and any other adds nothing |
| OrderHistory.RevenueNonNegative | renderer/order-history.js:304 | with non-negative amounts the revenue is non-negative |
| OrderHistory.LoadOrderHistory | renderer/order-history.js:142-157 | the history is a permutation of the saved orders followed by the demonstration orders, sorted newest first |
| OrderHistory.LoadSortedHistory | renderer/order-history.js:153 | already sorted saved history with no demonstration orders is kept as is |
| OrderHistory.LoadKeepsTies | renderer/order-history.js:149-152 | loading is stable: orders with the same creation time keep the order that saved history followed by demonstration orders gives them |
| OrderHistory.SortedIsFixed | renderer/order-history.js:153 | sorting a newest-first list changes nothing |
| OrderHistory.CompletionTime | renderer/order-history.js:417-419 | the time shown is the completion time, else the cancellation time, else the rejection time, and there is none exactly when all three are unset |
| OrderHistory.CompletionTimeIsFinalStamp | renderer/order-history.js:417-419 | for an order stamped only by its final status, the time shown is that stamp |
| OrderHistory.ShowOrderDetail | renderer/order-history.js:377-383 | the detail shown is the first history order with the id (none in front of it has the id), and there is none exactly when no history order has it |
| Settings.SetVolumeLevel | renderer/settings.js:714-719 | the level is clamped to 1..6, and a level already in range is kept |
| Settings.VolumeClampLaws | renderer/settings.js:716-719 | clamping is idempotent and monotone |
| Settings.ReadAutoTime | renderer/settings.js:778 | the shown time is read, or 15 when it is missing or 0 |
| Settings.IncreaseAutoTime | renderer/settings.js:777-789 | below 60 the time goes up by 5, shown and stored; otherwise a warning and no change |
| Settings.DecreaseAutoTime | renderer/settings.js:792-804 | above 5 the time goes down by 5, shown and stored; otherwise a warning and no change |
| Settings.AutoTimeStaysOnGrid | renderer/settings.js:777-804 | from a multiple of 5 in 5..60, either button keeps the time a multiple of 5 in 5..60 |
| Settings.AutoTimeOffGrid | renderer/settings.js:780-783 | a shown time of 58 steps up to 63, past the maximum |
| Settings.AutoTimeUpDown | renderer/settings.js:777-804 | below the maximum, a step up then down restores the time |
| Settings.IncreaseTime | renderer/settings.js:398-403 | the minutes become min(v + 5, 60), with an unreadable input read as 0 |
| Settings.DecreaseTime | renderer/settings.js:406-411 | the minutes become max(v − 5, 0), with an unreadable input read as 0 |
| Settings.TimeButtonsLaws | renderer/settings.js:398-411 | both buttons keep 0..60, and up then down, or down then up, restores the minutes away from the bounds |
| Settings.IncreasePrintCount | renderer/settings.js:1136-1154 | only the targeted counter changes, by one. At 10 or more there is a warning and no change, and counts in 1..10 stay in 1..10 |
| Settings.DecreasePrintCount | renderer/settings.js:1157-1175 | only the targeted counter changes, by minus one. At 1 or less there is a warning and no change, and counts in 1..10 stay in 1..10 |
| Settings.PrintCountUpDown | renderer/settings.js:1136-1175 | below the maximum, up then down restores the printer settings |
| Settings.SaveSpeed | renderer/settings.js:1121-1133 | a baud rate is stored and shown, `default` shows `사용자 설정` and keeps the stored speed, and no choice does nothing |
| Settings.DefaultKeepsLastRate | renderer/settings.js:1124-1127 | after a baud rate, choosing `default` keeps that rate |
| Settings.LoadSettings | renderer/settings.js:189-200 | nothing stored keeps the settings. A stored section replaces the current one whole, and unstored sections stay |
| Settings.LoadIsShallow | renderer/settings.js:194 | a stored section missing a field does not get the default's value back |
| Settings.LoadLaws | renderer/settings.js:194 | loading the same settings twice is loading once, and stored settings with every section come back exactly |
| Settings.DefaultsInRange | renderer/settings.js:30-62 | the default counters are in range, the default auto-accept time is on its grid, the default volume is in range, and order management falls back to the same auto-accept defaults |
| Settings.DefaultPrinterPrintsNothing | renderer/settings.js:42-62 | with the default printer section, auto-print is on but no printer is chosen, so nothing prints |

## Left out

- DOM rendering, toasts, notifications, sounds, console logging and the status-change log are not modelled; they have no effect on the state.
- `setInterval`/`setTimeout` scheduling is not modelled: the timer tick and the clock are explicit inputs, and `TickN` stands for n seconds.
- `localStorage` and JSON are not modelled as such. A stored value is an `Option` input, and a written value is part of a command's result (`StatusUpdate.saved`, `SaveOutcome.saved`) or the returned history.
- Local time zones are not modelled. Turning an instant into a local date is a parameter (`dayOf` in the receipt number, a fixed offset in the history search), without daylight saving. Date-only strings, which `new Date` reads as UTC midnight, are not distinguished from local dates.
- Locale formatting (`toLocaleString`, `toDateString`, `formatTimeWithSeconds`) is not modelled: the receipt carries instants instead of formatted times.
- Random generators (`generateMockOrders`, `generateTestOrderHistory`, `createTestOrder`, `Math.random` in order ids) are not modelled. Their output is an input: the demonstration orders of `LoadOrderHistory` and the random part of `GenerateOrderId`.
- Floating-point arithmetic is not modelled: the non-zero branch of `calculateGrowthRate`, `getSalesComparison` and `getSalesPrediction`. `Math.round` of a quotient is modelled exactly on integers (`RoundDiv`).
- `performRealTimeValidation`, `filterOrdersByCondition`, `checkMenuAvailability`, `moveToPreparing` and the sidebar and receipt-printing side effects of `selectOrder` and `acceptOrder` are not modelled; they only render or print.
- Sales.CalculateSalesByDay: requires every `dayOfWeek` to be in 0..6, and Sales.CalculateSalesByHour every `hour` in 0..23. Other keys throw in the source and are excluded instead of modelled.
- PrintHelper.TodayOrderNumber: reads creation times only. The source's `createdAt || orderTime` fallback is not modelled, and neither is the storage key `yumyum_order_history` it reads, which the screens never write (they write `orderHistory`).
- PrintHelper.ConvertOrderToReceiptData: the order's `items` and `totalAmount` are always present in the model, so the `|| []` and `|| 0` fallbacks are not modelled. The order time is `createdAt` alone; the `createdAt || orderTime` fallback of line 103 is not modelled.
- PrintHelper.ExpectedTime: reads `createdAt` alone; the `createdAt || orderTime` fallback of line 62 is not modelled, because the model's orders always carry a creation time.
- Text: strings are sequences of Unicode scalar values, while JavaScript strings are UTF-16 code units. They differ only on characters outside the Basic Multilingual Plane, which no modelled string contains; lengths and indices of such characters are not modelled.
- Settings.LoadSettings: the settings are a map from section name to section value. Only the sections and fields the counters read (`General`, `Printer`) are typed records; notification sounds, backend and other fields are not modelled.
- Utils.IsOpenNow: schedules carry no `dayName`, which only labels the page.
- Lifecycle.SelectOrder: the source applies auto-accept and fills the acceptance panel only when the page has that panel (`if (acceptSection)`, order-management.js:229-230); the model assumes the panel is present.
- `NaN` from `parseInt` or `Number` on malformed input is not modelled: time strings are `HH:MM` where their order matters, and an unreadable number is `None`.
- Calendar.ParseHHMM: accepts only non-empty digit fields around the first `:`. Strings that `Number` still reads, such as `"12:"` (an empty field reads as 0), `" 9:00"` (blanks are trimmed) or `"1e1:00"`, give `None` here although the source computes a time from them; Utils.IsTimeAfter is false for them accordingly.
- PrintHelper.TodayNumberCountsEarlier: requires the day's stored orders to have distinct ids and distinct creation times. With shared creation times, PrintHelper.TodayNumberWithTies only bounds the number; where among the tied orders it falls is not stated by the number lemmas; Sorting.SortByStable states the stability they would rest on.
- App.GetOrder and App.GetAllOrders: the source hands out the stored record objects themselves (`getAllOrders` copies only the array), so a caller that changes one changes the store. The model's records are values, and this sharing is not modelled.
- Lifecycle.IncreasePreparationTime and Settings.IncreaseAutoTime keep the source's guards as written, so they do not keep an off-grid value in range (`OffGridPreparationTime`, `AutoTimeOffGrid`).
- The login check, Electron main process, IPC, web adapter, backend configuration, chart rendering and temporary-close timer are outside the modelled core.

=== FILE: app.dfy ===
/** `YumYumApp`, the in-memory order store: orders are plain records kept in
    insertion order, with add, lookup, listing and an unguarded status
    update. The clock and the random part of new ids are parameters. */
module App {
  import opened Wrappers
  import opened Text
  import Seqs

  /** The values an order record holds. */
  datatype JsValue =
    | JsString(str: string)
    | JsNumber(num: int)
    | JsDate(ms: int)
    | JsBool(flag: bool)
    | JsList(elems: seq<JsValue>)
    | JsNull

  /** An order: a plain object, field name to value. */
  type Record = map<string, JsValue>

  datatype AppState = AppState(orders: seq<Record>, isRunning: bool)

  /** The constructor: no orders, not running. */
  function New(): (a: AppState)
    ensures a.orders == [] && !a.isRunning
  {
    AppState([], false)
  }

  /** `initialize`. */
  function Initialize(a: AppState): (r: AppState)
    ensures r.isRunning && r.orders == a.orders
  {
    a.(isRunning := true)
  }

  /** `shutdown`. */
  function Shutdown(a: AppState): (r: AppState)
    ensures !r.isRunning && r.orders == a.orders
  {
    a.(isRunning := false)
  }

  /** A freshly initialized app is running with no orders, and shutting it
      down stops it again. */
  lemma FreshApp()
    ensures Initialize(New()) == AppState([], true)
    ensures Shutdown(Initialize(New())) == New()
  {
  }

  // ---------------------------------------------------------------------
  // Ids

  predicate IsBase36Digit(c: char) {
    '0' <= c <= '9' || 'a' <= c <= 'z'
  }

  predicate IsUpperAlnum(c: char) {
    '0' <= c <= '9' || 'A' <= c <= 'Z'
  }

  /** `toUpperCase` on the characters an id can contain. */
  function UpperChar(c: char): (u: char)
    ensures IsBase36Digit(c) ==> IsUpperAlnum(u)
    ensures IsDigit(c) || c == '_' || ('A' <= c <= 'Z') ==> u == c
  {
    if 'a' <= c <= 'z' then (c as int - 32) as char else c
  }

  function Upper(s: string): (r: string)
    ensures |r| == |s| && forall i :: 0 <= i < |s| ==> r[i] == UpperChar(s[i])
  {
    seq(|s|, i requires 0 <= i < |s| => UpperChar(s[i]))
  }

  /** The random part: up to five base-36 digits
      (`Math.random().toString(36).substr(2, 5)`). */
  predicate IsRandomPart(random: string) {
    |random| <= 5 && forall i :: 0 <= i < |random| ==> IsBase36Digit(random[i])
  }

  /** `generateOrderId` at time `timestamp` with random part `random`. */
  function GenerateOrderId(timestamp: nat, random: string): (id: string)
    requires IsRandomPart(random)
  {
    Upper("ORDER_" + Decimal(timestamp) + "_" + random)
  }

  /** `/^ORDER_\d+_[A-Z0-9]+$/`. */
  predicate MatchesIdPattern(id: string) {
    && |id| >= 6 && id[..6] == "ORDER_"
    && var rest := id[6..];
       var k := IndexOf(rest, '_');
       && 0 < k < |rest|
       && AllDigits(rest[..k])
       && |rest| > k + 1
       && forall i :: k + 1 <= i < |rest| ==> IsUpperAlnum(rest[i])
  }

  /** Reads an id back: the timestamp and the random part. */
  function ParseOrderId(id: string): Option<(nat, string)> {
    if |id| < 6 || id[..6] != "ORDER_" then None
    else
      var rest := id[6..];
      var k := IndexOf(rest, '_');
      if k == |rest| || !AllDigits(rest[..k]) then None
      else Some((Value(rest[..k]), rest[k + 1..]))
  }

  /** A generated id is `ORDER_`, the timestamp, `_` and the upper-cased
      random part; it matches the id pattern whenever the random part is
      not empty, and reading it back gives the timestamp. */
  lemma GenerateOrderIdShape(timestamp: nat, random: string)
    requires IsRandomPart(random)
    ensures GenerateOrderId(timestamp, random) == "ORDER_" + Decimal(timestamp) + "_" + Upper(random)
    ensures ParseOrderId(GenerateOrderId(timestamp, random)) == Some((timestamp, Upper(random)))
    ensures |random| > 0 ==> MatchesIdPattern(GenerateOrderId(timestamp, random))
  {
    var d := Decimal(timestamp);
    var id := GenerateOrderId(timestamp, random);
    var plain := "ORDER_" + d + "_" + random;
    assert id == Upper(plain);
    assert forall i :: 0 <= i < |d| ==> IsDigit(d[i]);
    assert id == "ORDER_" + d + "_" + Upper(random);
    var rest := id[6..];
    assert rest == d + "_" + Upper(random);
    assert forall i :: 0 <= i < |d| ==> rest[i] != '_';
    assert rest[|d|] == '_';
    assert IndexOf(rest, '_') == |d|;
    assert rest[..|d|] == d;
    assert rest[|d| + 1..] == Upper(random);
  }

  /** Different timestamps or different random parts give different ids. */
  lemma GenerateOrderIdInjective(t1: nat, r1: string, t2: nat, r2: string)
    requires IsRandomPart(r1) && IsRandomPart(r2)
    ensures GenerateOrderId(t1, r1) == GenerateOrderId(t2, r2) <==> t1 == t2 && r1 == r2
  {
    GenerateOrderIdShape(t1, r1);
    GenerateOrderIdShape(t2, r2);
    if GenerateOrderId(t1, r1) == GenerateOrderId(t2, r2) {
      UpperInjective(r1, r2);
    }
  }

  /** Upper-casing loses nothing on base-36 digits. */
  lemma UpperInjective(r1: string, r2: string)
    requires IsRandomPart(r1) && IsRandomPart(r2) && Upper(r1) == Upper(r2)
    ensures r1 == r2
  {
    assert |r1| == |Upper(r1)| == |Upper(r2)| == |r2|;
    forall i | 0 <= i < |r1|
      ensures r1[i] == r2[i]
    {
      assert UpperChar(r1[i]) == Upper(r1)[i] == Upper(r2)[i] == UpperChar(r2[i]);
    }
  }

  // ---------------------------------------------------------------------
  // Orders

  /** Whether a record's `id` is `id` (`order.id === orderId`). */
  predicate HasId(o: Record, id: string) {
    "id" in o && o["id"] == JsString(id)
  }

  /** `{ id, ...orderData, createdAt, status: 'pending' }`: the generated id
      comes first, so an `id` in the data replaces it; the creation time and
      status come last and replace the data's. */
  function NewOrder(id: string, data: Record, now: int): (o: Record)
    ensures o.Keys == data.Keys + {"id", "createdAt", "status"}
    ensures o["status"] == JsString("pending") && o["createdAt"] == JsDate(now)
    ensures o["id"] == if "id" in data then data["id"] else JsString(id)
    ensures forall k :: k in data && k != "createdAt" && k != "status" ==> o[k] == data[k]
  {
    map["id" := JsString(id)] + data + map["createdAt" := JsDate(now), "status" := JsString("pending")]
  }

  datatype Added = Added(app: AppState, order: Record)

  /** `addOrder(orderData)` at time `now`, with `id` the generated id. */
  function AddOrder(a: AppState, data: Record, now: int, id: string): (r: Added)
    ensures r.app.orders == a.orders + [r.order] && r.app.isRunning == a.isRunning
    ensures r.order == NewOrder(id, data, now)
  {
    var o := NewOrder(id, data, now);
    Added(a.(orders := a.orders + [o]), o)
  }

  /** Position of the first record with that id, `|orders|` when none. */
  function FindRecord(orders: seq<Record>, id: string): (i: nat)
    ensures i <= |orders|
    ensures i < |orders| ==> HasId(orders[i], id)
    ensures forall k :: 0 <= k < i ==> !HasId(orders[k], id)
  {
    Seqs.FindFirst(orders, (o: Record) => HasId(o, id))
  }

  /** `getOrder(orderId)`: the first order with that id, `None` for
      `undefined`. */
  function GetOrder(a: AppState, id: string): (r: Option<Record>)
    ensures r.Some? ==> r.value in a.orders && HasId(r.value, id)
    ensures r.None? <==> forall o :: o in a.orders ==> !HasId(o, id)
    ensures r.Some? ==> exists k :: 0 <= k < |a.orders| && a.orders[k] == r.value
                                    && forall j :: 0 <= j < k ==> !HasId(a.orders[j], id)
  {
    var i := FindRecord(a.orders, id);
    if i < |a.orders| then Some(a.orders[i]) else None
  }

  /** `getAllOrders`: a copy of the list, in insertion order. */
  function GetAllOrders(a: AppState): (r: seq<Record>)
    ensures |r| == |a.orders| && forall i :: 0 <= i < |r| ==> r[i] == a.orders[i]
  {
    a.orders[..]
  }

  datatype Updated = Updated(app: AppState, order: Option<Record>)

  /** `updateOrderStatus(orderId, status)` at time `now`: any status is
      accepted; a missing id gives `null` and changes nothing. */
  function UpdateOrderStatus(a: AppState, id: string, status: string, now: int): (r: Updated)
    ensures r.order.None? <==> GetOrder(a, id).None?
    ensures r.order.None? ==> r.app == a
    ensures r.app.isRunning == a.isRunning && |r.app.orders| == |a.orders|
    ensures r.order.Some? ==>
              var i := FindRecord(a.orders, id);
              && r.app.orders == a.orders[i := r.order.value]
              && r.order.value == a.orders[i]["status" := JsString(status)]["updatedAt" := JsDate(now)]
  {
    var i := FindRecord(a.orders, id);
    if i == |a.orders| then Updated(a, None)
    else
      var o := a.orders[i]["status" := JsString(status)]["updatedAt" := JsDate(now)];
      Updated(a.(orders := a.orders[i := o]), Some(o))
  }

  /** An added order can be found by its id when its data carries none and
      no earlier order has that id; it keeps the data's other fields. */
  lemma AddThenGet(a: AppState, data: Record, now: int, id: string)
    requires "id" !in data
    requires forall o :: o in a.orders ==> !HasId(o, id)
    ensures var r := AddOrder(a, data, now, id);
            && GetOrder(r.app, id) == Some(r.order)
            && r.order["status"] == JsString("pending")
  {
    var r := AddOrder(a, data, now, id);
    assert FindRecord(r.app.orders, id) == |a.orders| by {
      assert r.app.orders[|a.orders|] == r.order;
      assert forall k :: 0 <= k < |a.orders| ==> r.app.orders[k] == a.orders[k];
    }
  }

  /** Two additions are listed in the order they were made. */
  lemma ListInInsertionOrder(a: AppState, d1: Record, d2: Record, t1: int, t2: int, id1: string, id2: string)
    requires a.orders == []
    ensures var r1 := AddOrder(a, d1, t1, id1);
            var r2 := AddOrder(r1.app, d2, t2, id2);
            GetAllOrders(r2.app) == [r1.order, r2.order]
  {
  }

  /** A status update touches only the updated order's `status` and
      `updatedAt`. */
  lemma UpdateTouchesOnlyStatus(a: AppState, id: string, status: string, now: int, k: string)
    requires GetOrder(a, id).Some? && k != "status" && k != "updatedAt"
    ensures var r := UpdateOrderStatus(a, id, status, now);
            var i := FindRecord(a.orders, id);
            && (k in r.order.value <==> k in a.orders[i])
            && (k in a.orders[i] ==> r.order.value[k] == a.orders[i][k])
            && r.order.value["status"] == JsString(status)
  {
  }
}

=== FILE: calendar.dfy ===
/** Local calendar dates and clock times as the source reads and writes
    them: `YYYY-MM-DD` date strings, `HH:MM` time strings, `getDay()` and the
    week of the month. Turning a millisecond timestamp into a local date or
    time of day depends on the time zone and is left to the caller. */
module Calendar {
  import opened Text
  import opened Wrappers

  /** A local calendar date, as `getFullYear()`, `getMonth() + 1` and
      `getDate()` report it. */
  datatype CivilDate = CivilDate(year: int, month: int, day: int)

  /** What a JavaScript `Date` can report: month 1..12, day 1..31. */
  predicate ValidDate(d: CivilDate) {
    1 <= d.month <= 12 && 1 <= d.day <= 31
  }

  /** Dates in years 1000..9999, whose year is written with four digits. */
  predicate FourDigitYear(d: CivilDate) {
    1000 <= d.year <= 9999
  }

  /** Chronological order of dates. */
  predicate DateLess(a: CivilDate, b: CivilDate) {
    || a.year < b.year
    || (a.year == b.year && a.month < b.month)
    || (a.year == b.year && a.month == b.month && a.day < b.day)
  }

  predicate DateLe(a: CivilDate, b: CivilDate) {
    a == b || DateLess(a, b)
  }

  /** `String(year)`. */
  function YearText(y: int): string {
    if y >= 0 then Decimal(y) else "-" + Decimal(-y)
  }

  /** The `YYYY-MM-DD` form written by `formatDate` (month and day padded
      to two digits with `padStart(2, '0')`). */
  function FormatDate(d: CivilDate): string
    requires ValidDate(d)
  {
    YearText(d.year) + "-" + Fixed(d.month, 2) + "-" + Fixed(d.day, 2)
  }

  /** For four-digit years, comparing `YYYY-MM-DD` strings with `<` is
      comparing the dates, and equal strings are equal dates. */
  lemma FormatDateOrder(a: CivilDate, b: CivilDate)
    requires ValidDate(a) && ValidDate(b) && FourDigitYear(a) && FourDigitYear(b)
    ensures LexLess(FormatDate(a), FormatDate(b)) <==> DateLess(a, b)
    ensures FormatDate(a) == FormatDate(b) <==> a == b
  {
    var ya, yb := Decimal(a.year), Decimal(b.year);
    assert Pow10(3) == 1000 && Pow10(4) == 10000;
    DecimalLength(a.year, 4);
    DecimalLength(b.year, 4);
    var ma, mb := Fixed(a.month, 2), Fixed(b.month, 2);
    var da, db := Fixed(a.day, 2), Fixed(b.day, 2);
    assert FormatDate(a) == ya + "-" + (ma + "-" + da);
    assert FormatDate(b) == yb + "-" + (mb + "-" + db);
    DashedOrder(ya, ma + "-" + da, yb, mb + "-" + db);
    DashedOrder(ma, da, mb, db);
    FieldOrder(ya, yb);
    FieldOrder(ma, mb);
    FieldOrder(da, db);
  }

  /** Two dash-separated strings whose first parts have one length compare
      first part first. */
  lemma DashedOrder(x: string, y: string, x': string, y': string)
    requires |x| == |x'|
    ensures LexLess(x + "-" + y, x' + "-" + y') <==> LexLess(x, x') || (x == x' && LexLess(y, y'))
    ensures x + "-" + y == x' + "-" + y' <==> x == x' && y == y'
  {
    assert x + "-" + y == x + ("-" + y) && x' + "-" + y' == x' + ("-" + y');
    LexConcat(x, "-" + y, x', "-" + y');
    LexConcat("-", y, "-", y');
    if x + "-" + y == x' + "-" + y' {
      assert x == (x + "-" + y)[..|x|];
      assert y == (x + "-" + y)[|x| + 1..];
    }
  }

  /** A fixed-width digit field compares and matches as its value. */
  lemma FieldOrder(s: string, t: string)
    requires AllDigits(s) && AllDigits(t) && |s| == |t|
    ensures LexLess(s, t) <==> Value(s) < Value(t)
    ensures s == t <==> Value(s) == Value(t)
  {
    LexDigits(s, t);
    if Value(s) == Value(t) {
      DigitsDetermined(s, t);
    }
  }

  // ---------------------------------------------------------------------
  // Times of day

  /** Minutes since local midnight. */
  type Minute = m: int | 0 <= m < 1440

  /** The `HH:MM` form of a time of day (what `toTimeString().slice(0, 5)`
      and the padded `getHours()`/`getMinutes()` pair produce). */
  function FormatHHMM(t: Minute): (r: string)
    ensures |r| == 5 && r[2] == ':'
  {
    Fixed(t / 60, 2) + ":" + Fixed(t % 60, 2)
  }

  /** The five characters of `FormatHHMM(60 * h + m)`. */
  lemma HHMMText(h: nat, m: nat)
    requires h < 24 && m < 60
    ensures FormatHHMM(60 * h + m)
            == [DigitChar(h / 10), DigitChar(h % 10), ':', DigitChar(m / 10), DigitChar(m % 10)]
  {
    var t := 60 * h + m;
    assert t / 60 == h && t % 60 == m;
    FixedTwo(h);
    FixedTwo(m);
  }

  /** Comparing `HH:MM` strings with `<` is comparing the times, and equal
      strings are equal times. */
  lemma HHMMOrder(a: Minute, b: Minute)
    ensures LexLess(FormatHHMM(a), FormatHHMM(b)) <==> a < b
    ensures FormatHHMM(a) == FormatHHMM(b) <==> a == b
  {
    var ha, hb := Fixed(a / 60, 2), Fixed(b / 60, 2);
    var ma, mb := Fixed(a % 60, 2), Fixed(b % 60, 2);
    assert FormatHHMM(a) == ha + (":" + ma);
    assert FormatHHMM(b) == hb + (":" + mb);
    LexConcat(ha, ":" + ma, hb, ":" + mb);
    LexConcat(":", ma, ":", mb);
    LexDigits(ha, hb);
    LexDigits(ma, mb);
    if ha == hb { assert a / 60 == b / 60; }
    if a / 60 == b / 60 { assert ha == hb; }
    if ma == mb { assert a % 60 == b % 60; }
    if a % 60 == b % 60 { assert ma == mb; }
    if FormatHHMM(a) == FormatHHMM(b) {
      assert ha == FormatHHMM(a)[..2] == FormatHHMM(b)[..2] == hb;
      assert ma == FormatHHMM(a)[3..] == FormatHHMM(b)[3..] == mb;
    }
  }

  /** `h * 60 + m` for a string `H:M` whose two leading `:`-separated fields
      are non-empty digit strings (`time.split(':').map(Number)`); `None`
      for a string of any other shape. */
  function ParseHHMM(s: string): Option<nat> {
    var i := IndexOf(s, ':');
    if i == |s| then None
    else
      var rest := s[i + 1..];
      var j := IndexOf(rest, ':');
      var h, m := s[..i], rest[..j];
      if |h| > 0 && |m| > 0 && AllDigits(h) && AllDigits(m) then Some(Value(h) * 60 + Value(m))
      else None
  }

  /** Reading back a formatted time gives the time. */
  lemma ParseFormatHHMM(t: Minute)
    ensures ParseHHMM(FormatHHMM(t)) == Some(t)
  {
    var s := FormatHHMM(t);
    var h, m := Fixed(t / 60, 2), Fixed(t % 60, 2);
    assert s == h + ":" + m;
    assert IndexOf(s, ':') == 2;
    assert s[..2] == h;
    assert s[3..] == m;
    assert IndexOf(m, ':') == 2;
    assert m[..2] == m;
  }

  // ---------------------------------------------------------------------
  // Day of week and week of month

  /** Gregorian leap years: every fourth year, except centuries not
      divisible by 400. */
  predicate IsLeapYear(y: int) {
    y % 4 == 0 && (y % 100 != 0 || y % 400 == 0)
  }

  /** The length of a month of the Gregorian calendar. */
  function DaysInMonth(year: int, month: int): (n: int)
    requires 1 <= month <= 12
    ensures 28 <= n <= 31
  {
    if month == 2 then (if IsLeapYear(year) then 29 else 28)
    else if month == 4 || month == 6 || month == 9 || month == 11 then 30
    else 31
  }

  /** A date that exists in the Gregorian calendar. */
  predicate RealDate(d: CivilDate) {
    ValidDate(d) && d.day <= DaysInMonth(d.year, d.month)
  }

  /** The calendar day after `d`, rolling over into the next month and the
      next year. */
  function NextDay(d: CivilDate): (n: CivilDate)
    requires RealDate(d)
    ensures RealDate(n)
    ensures n.day == 1 <==> d.day == DaysInMonth(d.year, d.month)
    ensures n.day != 1 ==> n == d.(day := d.day + 1)
  {
    if d.day < DaysInMonth(d.year, d.month) then d.(day := d.day + 1)
    else if d.month < 12 then CivilDate(d.year, d.month + 1, 1)
    else CivilDate(d.year + 1, 1, 1)
  }

  /** The count whose remainder by 7 is the weekday (Sakamoto's method):
      January and February count as months of the year before. */
  function DayNumber(d: CivilDate): int
    requires ValidDate(d)
  {
    YearCount(if d.month < 3 then d.year - 1 else d.year) + MonthOffset(d.month) + d.day
  }

  /** Days contributed by the years before, modulo 7. */
  function YearCount(y: int): int {
    y + y / 4 - y / 100 + y / 400
  }

  /** Days contributed by the months before, modulo 7. */
  function MonthOffset(month: int): int
    requires 1 <= month <= 12
  {
    [0, 3, 2, 5, 0, 3, 5, 1, 4, 6, 2, 4][month - 1]
  }

  /** `getDay()`: 0 = Sunday .. 6 = Saturday, proleptic Gregorian calendar. */
  function Weekday(d: CivilDate): (r: int)
    requires ValidDate(d)
    ensures 0 <= r < 7
  {
    DayNumber(d) % 7
  }

  /** Within a month, the next day is the next weekday. */
  lemma WeekdayNextDay(d: CivilDate)
    requires ValidDate(d) && d.day < 31
    ensures Weekday(d.(day := d.day + 1)) == (Weekday(d) + 1) % 7
  {
    assert DayNumber(d.(day := d.day + 1)) == DayNumber(d) + 1;
    SuccMod7(DayNumber(d));
  }

  /** The day after any real date, across month and year ends and leap
      days, is the next weekday. */
  lemma WeekdaySuccessor(d: CivilDate)
    requires RealDate(d)
    ensures Weekday(NextDay(d)) == (Weekday(d) + 1) % 7
  {
    if d.day < DaysInMonth(d.year, d.month) {
      WeekdayNextDay(d);
    } else {
      var x := DayNumber(d);
      var k := MonthEndStep(d);
      ShiftMod7(x + 1, k);
      SuccMod7(x);
    }
  }

  /** At a month's last day, the next day's count is one more, up to a
      multiple of 7. */
  lemma MonthEndStep(d: CivilDate) returns (k: int)
    requires RealDate(d) && d.day == DaysInMonth(d.year, d.month)
    ensures DayNumber(NextDay(d)) == DayNumber(d) + 1 + 7 * k
  {
    if d.month == 2 {
      LeapDayStep(d.year);
      k := -4;
    } else if d.month == 4 || d.month == 7 || d.month == 10 || d.month == 12 {
      k := -5;
    } else {
      k := -4;
    }
  }

  /** Moving the count's year from `y - 1` to `y` adds one day, two after
      a leap February. */
  lemma LeapDayStep(y: int)
    ensures YearCount(y) - YearCount(y - 1) == if IsLeapYear(y) then 2 else 1
  {
    var c4, c100, c400 := FloorStep(y);
    assert YearCount(y) - YearCount(y - 1) == 1 + c4 - c100 + c400;
  }

  /** Stepping from `y - 1` to `y` raises `y / k` exactly at a multiple of
      `k`, for the three divisors of the leap rule. */
  lemma FloorStep(y: int) returns (c4: int, c100: int, c400: int)
    ensures c4 == y / 4 - (y - 1) / 4 && c100 == y / 100 - (y - 1) / 100 && c400 == y / 400 - (y - 1) / 400
    ensures c4 - c100 + c400 == if IsLeapYear(y) then 1 else 0
  {
    c4, c100, c400 := y / 4 - (y - 1) / 4, y / 100 - (y - 1) / 100, y / 400 - (y - 1) / 400;
    assert c4 == if y % 4 == 0 then 1 else 0;
    assert c100 == if y % 100 == 0 then 1 else 0;
    assert c400 == if y % 400 == 0 then 1 else 0;
    if y % 400 == 0 {
      assert y == 400 * (y / 400);
      assert y % 100 == 0 && y % 4 == 0;
    } else if y % 100 == 0 {
      assert y == 100 * (y / 100);
      assert y % 4 == 0;
    }
  }

  lemma ShiftMod7(a: int, k: int)
    ensures (a + 7 * k) % 7 == a % 7
  {
    var q, r := a / 7, a % 7;
    assert a + 7 * k == 7 * (q + k) + r;
  }

  lemma SuccMod7(x: int)
    ensures (x + 1) % 7 == (x % 7 + 1) % 7
  {
    var q, r := x / 7, x % 7;
    assert x == 7 * q + r;
    if r == 6 {
      assert x + 1 == 7 * (q + 1) + 0;
    } else {
      assert x + 1 == 7 * q + (r + 1);
    }
  }

  /** 24 October 2025 was a Friday. */
  lemma WeekdayAnchor()
    ensures Weekday(CivilDate(2025, 10, 24)) == 5
  {
  }

  /** `Math.ceil(getDate() / 7)`: which week of the month a day falls in. */
  function WeekOfMonth(d: CivilDate): (w: int)
    requires ValidDate(d)
    ensures 1 <= w <= 5
    ensures 7 * (w - 1) < d.day <= 7 * w
  {
    (d.day + 6) / 7
  }
}

=== FILE: lifecycle.dfy ===
/** The order-management screen's commands: status requests, the two-step
    ready flow, accept, auto-accept, reject, selection, the per-second timer
    tick, the preparation-time stepper and the order-history upsert. Every
    command takes the screen state and the clock and returns the new state
    together with what happened. */
module Lifecycle {
  import opened Wrappers
  import opened Calendar
  import opened Orders
  import Seqs

  // ---------------------------------------------------------------------
  // State

  /** `appSettings.general` as far as the screen reads it. `autoAcceptTime`
      is `0` when unset. */
  datatype GeneralSettings = GeneralSettings(autoAcceptEnabled: bool, autoAcceptTime: int)

  /** Preparation time auto-accept uses when none is configured. */
  const DefaultAutoAcceptTime := 15

  /** The settings used when none are stored: auto-accept off, 15 minutes. */
  const DefaultSettings := GeneralSettings(false, DefaultAutoAcceptTime)

  /** The screen's state: the working order list, the selected order id,
      the preparation time shown in the accept panel, the loaded settings
      (`None` before loading), whether the ready dialog is open, and the
      order history kept in storage. */
  datatype Screen = Screen(
    orders: seq<Order>,
    selected: Option<string>,
    preparationTime: int,
    settings: Option<GeneralSettings>,
    readyModalOpen: bool,
    history: seq<Order>)

  /** A clock reading: milliseconds since the epoch and the local time of day. */
  datatype Clock = Clock(ms: int, timeOfDay: Minute)

  /** What a command did. */
  datatype Outcome =
    | NoOrderSelected
    | OrderNotFound
    | OutsideOperatingHours
    | GuardRefused(reason: Refusal)
    | ValidationFailed(errors: seq<ValidationError>)
    | NotConfirmed
    | AutoAcceptOff
    | ReadyDialogShown
    | StatusSet(status: Status)
    | Selected
    | NoAction

  datatype Step = Step(screen: Screen, outcome: Outcome)

  /** `selectedOrderId` is set (neither `null` nor `""`). */
  predicate HasSelection(sel: Option<string>) {
    sel.Some? && sel.value != ""
  }

  /** `orders.find(o => o.id === id)` / `findIndex`: the first order with
      that id, or `|orders|` when there is none. */
  function FindOrder(orders: seq<Order>, id: string): (i: nat)
    ensures i <= |orders|
    ensures i < |orders| ==> orders[i].id == id
    ensures forall k :: 0 <= k < i ==> orders[k].id != id
  {
    Seqs.FindFirst(orders, (o: Order) => o.id == id)
  }

  predicate UniqueIds(orders: seq<Order>) {
    forall i, j :: 0 <= i < j < |orders| ==> orders[i].id != orders[j].id
  }

  // ---------------------------------------------------------------------
  // Order history

  /** `saveOrderToHistory`: replaces the first entry with the same id in
      place, or appends the order. */
  function SaveToHistory(history: seq<Order>, o: Order): (r: seq<Order>)
    ensures var i := FindOrder(history, o.id);
            && (i < |history| ==> r == history[i := o])
            && (i == |history| ==> r == history + [o])
    ensures o in r
    ensures UniqueIds(history) ==> UniqueIds(r)
  {
    var i := FindOrder(history, o.id);
    if i < |history| then
      assert history[i := o][i] == o;
      history[i := o]
    else
      assert (history + [o])[|history|] == o;
      history + [o]
  }

  /** Saving twice is saving once, and the saved order is what a later
      lookup by id finds. */
  lemma SaveToHistoryIdempotent(history: seq<Order>, o: Order)
    ensures SaveToHistory(SaveToHistory(history, o), o) == SaveToHistory(history, o)
    ensures var r := SaveToHistory(history, o); r[FindOrder(r, o.id)] == o
  {
    var r := SaveToHistory(history, o);
    var i := FindOrder(history, o.id);
    if i < |history| {
      assert FindOrder(r, o.id) == i by {
        assert r[i].id == o.id;
        assert forall k :: 0 <= k < i ==> r[k] == history[k];
        FindOrderFirst(r, o.id, i);
      }
    } else {
      assert FindOrder(r, o.id) == |history| by {
        assert forall k :: 0 <= k < |history| ==> r[k] == history[k];
        FindOrderFirst(r, o.id, |history|);
      }
    }
  }

  /** `FindOrder` returns the first matching position. */
  lemma FindOrderFirst(orders: seq<Order>, id: string, i: nat)
    requires i < |orders| && orders[i].id == id
    requires forall k :: 0 <= k < i ==> orders[k].id != id
    ensures FindOrder(orders, id) == i
  {
  }

  // ---------------------------------------------------------------------
  // Status requests

  /** A status request on `s` passes every gate of `updateOrderStatus`: an
      order is selected and present, the store is open, the guard allows the
      change, and the order is valid unless the request is a cancel. */
  predicate PassesGates(s: Screen, target: Status, now: Clock) {
    && HasSelection(s.selected)
    && FindOrder(s.orders, s.selected.value) < |s.orders|
    && IsOperating(now.timeOfDay)
    && var o := s.orders[FindOrder(s.orders, s.selected.value)];
       && CanChangeStatus(o, target, now.ms) == Allowed
       && (target == Cancelled || Validate(o).isValid)
  }

  /** `updateOrderStatus(status)` on the selected order. Refused requests
      change nothing. A `ready` request only opens the ready dialog;
      `cancelled` and `completed` set the status and their timestamps and
      save the order to history; any other status does nothing. */
  function UpdateOrderStatus(s: Screen, target: Status, now: Clock): (r: Step)
    ensures (|| r.outcome in {NoOrderSelected, OrderNotFound, OutsideOperatingHours, NoAction}
             || r.outcome.GuardRefused?
             || r.outcome.ValidationFailed?) ==> r.screen == s
    ensures r.screen != s ==>
              && HasSelection(s.selected)
              && FindOrder(s.orders, s.selected.value) < |s.orders|
              && 9 * 60 <= now.timeOfDay <= 22 * 60
              && CanChangeStatus(s.orders[FindOrder(s.orders, s.selected.value)], target, now.ms) == Allowed
    ensures target != Cancelled && r.screen != s ==> Validate(s.orders[FindOrder(s.orders, s.selected.value)]).isValid
    ensures target == Ready ==> r.screen.orders == s.orders && r.screen.history == s.history
    ensures r.outcome == StatusSet(Cancelled) ==>
              && HasSelection(s.selected) && FindOrder(s.orders, s.selected.value) < |s.orders|
              && |r.screen.orders| == |s.orders|
              && var i := FindOrder(s.orders, s.selected.value);
              && r.screen.orders == s.orders[i := r.screen.orders[i]]
              && r.screen.orders[i] == s.orders[i].(status := Cancelled, updatedAt := Some(now.ms), cancelledAt := Some(now.ms))
              && r.screen.history == SaveToHistory(s.history, r.screen.orders[i])
    ensures r.outcome == StatusSet(Completed) ==>
              && HasSelection(s.selected) && FindOrder(s.orders, s.selected.value) < |s.orders|
              && |r.screen.orders| == |s.orders|
              && var i := FindOrder(s.orders, s.selected.value);
              && r.screen.orders == s.orders[i := r.screen.orders[i]]
              && r.screen.orders[i] == s.orders[i].(status := Completed, updatedAt := Some(now.ms), completedAt := Some(now.ms))
              && r.screen.history == SaveToHistory(s.history, r.screen.orders[i])
    ensures PassesGates(s, target, now) ==>
              && (target == Cancelled || target == Completed ==> r.outcome == StatusSet(target))
              && (target == Ready ==> r == Step(s.(readyModalOpen := true), ReadyDialogShown))
              && (target !in {Cancelled, Ready, Completed} ==> r == Step(s, NoAction))
    ensures !PassesGates(s, target, now) ==>
              && r.screen == s
              && (|| r.outcome in {NoOrderSelected, OrderNotFound, OutsideOperatingHours}
                  || r.outcome.GuardRefused?
                  || r.outcome.ValidationFailed?)
  {
    if !HasSelection(s.selected) then Step(s, NoOrderSelected)
    else
      var i := FindOrder(s.orders, s.selected.value);
      if i == |s.orders| then Step(s, OrderNotFound)
      else if !IsOperating(now.timeOfDay) then Step(s, OutsideOperatingHours)
      else
        var o := s.orders[i];
        var g := CanChangeStatus(o, target, now.ms);
        if g.Refused? then Step(s, GuardRefused(g.reason))
        else
          var v := Validate(o);
          if !v.isValid && target != Cancelled then Step(s, ValidationFailed(v.errors))
          else
            match target
            case Cancelled =>
              var o' := o.(status := Cancelled, updatedAt := Some(now.ms), cancelledAt := Some(now.ms));
              Step(s.(orders := s.orders[i := o'], history := SaveToHistory(s.history, o')), StatusSet(Cancelled))
            case Ready =>
              Step(s.(readyModalOpen := true), ReadyDialogShown)
            case Completed =>
              var o' := o.(status := Completed, updatedAt := Some(now.ms), completedAt := Some(now.ms));
              Step(s.(orders := s.orders[i := o'], history := SaveToHistory(s.history, o')), StatusSet(Completed))
            case _ =>
              Step(s, NoAction)
  }

  /** Each of the four gates stops a status request on its own; a cancel
      request is the only one that passes with failing validation. */
  lemma UpdateOrderStatusGates(s: Screen, target: Status, now: Clock)
    ensures !HasSelection(s.selected) ==> UpdateOrderStatus(s, target, now).screen == s
    ensures HasSelection(s.selected) && FindOrder(s.orders, s.selected.value) == |s.orders|
            ==> UpdateOrderStatus(s, target, now).screen == s
    ensures now.timeOfDay < 9 * 60 || now.timeOfDay > 22 * 60 ==> UpdateOrderStatus(s, target, now).screen == s
    ensures HasSelection(s.selected) && FindOrder(s.orders, s.selected.value) < |s.orders|
            && CanChangeStatus(s.orders[FindOrder(s.orders, s.selected.value)], target, now.ms).Refused?
            ==> UpdateOrderStatus(s, target, now).screen == s
    ensures HasSelection(s.selected) && FindOrder(s.orders, s.selected.value) < |s.orders|
            && !Validate(s.orders[FindOrder(s.orders, s.selected.value)]).isValid && target != Cancelled
            ==> UpdateOrderStatus(s, target, now).screen == s
  {
  }

  /** `confirmReady`: with no selection it only closes the dialog; otherwise
      the selected order, if present, becomes ready with its completion
      time, and the dialog closes. There is no guard. */
  function ConfirmReady(s: Screen, now: Clock): (r: Step)
    ensures !r.screen.readyModalOpen
    ensures r.screen.history == s.history && r.screen.selected == s.selected
    ensures r.outcome == StatusSet(Ready) <==>
              HasSelection(s.selected) && FindOrder(s.orders, s.selected.value) < |s.orders|
    ensures r.outcome == StatusSet(Ready) ==>
              var i := FindOrder(s.orders, s.selected.value);
              r.screen.orders == s.orders[i := s.orders[i].(status := Ready, readyCompletedAt := Some(now.ms))]
    ensures r.outcome != StatusSet(Ready) ==> r.screen.orders == s.orders
  {
    var closed := s.(readyModalOpen := false);
    if !HasSelection(s.selected) then Step(closed, NoOrderSelected)
    else
      var i := FindOrder(s.orders, s.selected.value);
      if i == |s.orders| then Step(closed, OrderNotFound)
      else
        var o' := s.orders[i].(status := Ready, readyCompletedAt := Some(now.ms));
        Step(closed.(orders := s.orders[i := o']), StatusSet(Ready))
  }

  /** The two-step ready flow: for a selected, valid, preparing order within
      operating hours, a `ready` request leaves the order as it is and opens
      the dialog; confirming the dialog then makes the order ready. */
  lemma TwoStepReady(s: Screen, now: Clock, later: Clock)
    requires HasSelection(s.selected)
    requires FindOrder(s.orders, s.selected.value) < |s.orders|
    requires s.orders[FindOrder(s.orders, s.selected.value)].status == Preparing
    requires Validate(s.orders[FindOrder(s.orders, s.selected.value)]).isValid
    requires 9 * 60 <= now.timeOfDay <= 22 * 60
    ensures var r1 := UpdateOrderStatus(s, Ready, now);
            && r1.outcome == ReadyDialogShown
            && r1.screen.orders == s.orders
            && r1.screen.readyModalOpen
            && var r2 := ConfirmReady(r1.screen, later);
               var i := FindOrder(s.orders, s.selected.value);
               && r2.outcome == StatusSet(Ready)
               && r2.screen.orders[i].status == Ready
               && r2.screen.orders[i].readyCompletedAt == Some(later.ms)
  {
  }

  // ---------------------------------------------------------------------
  // Accept, auto-accept, reject, select

  /** The fields accepting an order sets. */
  function Accepted(o: Order, preparationTime: int, ms: int): (a: Order)
    ensures a.status == Preparing && a.preparationTime == preparationTime
    ensures a.acceptedAt == Some(ms) && a.timer == 0 && a.timerSeconds == 0
    ensures a.id == o.id && a.createdAt == o.createdAt && a.items == o.items
  {
    o.(status := Preparing, preparationTime := preparationTime, acceptedAt := Some(ms), timer := 0, timerSeconds := 0)
  }

  /** `acceptOrder`: the selected order starts preparing with the panel's
      preparation time, whatever its status, the time of day or its
      validity. */
  function AcceptOrder(s: Screen, now: Clock): (r: Step)
    ensures r.screen.selected == s.selected && r.screen.history == s.history
    ensures r.outcome == StatusSet(Preparing) <==>
              HasSelection(s.selected) && FindOrder(s.orders, s.selected.value) < |s.orders|
    ensures r.outcome == StatusSet(Preparing) ==>
              var i := FindOrder(s.orders, s.selected.value);
              r.screen.orders == s.orders[i := Accepted(s.orders[i], s.preparationTime, now.ms)]
    ensures r.outcome != StatusSet(Preparing) ==> r.screen == s
  {
    if !HasSelection(s.selected) then Step(s, NoOrderSelected)
    else
      var i := FindOrder(s.orders, s.selected.value);
      if i == |s.orders| then Step(s, OrderNotFound)
      else Step(s.(orders := s.orders[i := Accepted(s.orders[i], s.preparationTime, now.ms)]), StatusSet(Preparing))
  }

  /** Auto-accept is on: settings are loaded and enable it. */
  predicate AutoAcceptOn(settings: Option<GeneralSettings>) {
    settings.Some? && settings.value.autoAcceptEnabled
  }

  /** The configured auto-accept time, 15 minutes when unset. */
  function AutoAcceptTime(g: GeneralSettings): (t: int)
    ensures g.autoAcceptTime != 0 ==> t == g.autoAcceptTime
    ensures g.autoAcceptTime == 0 ==> t == DefaultAutoAcceptTime
  {
    if g.autoAcceptTime != 0 then g.autoAcceptTime else DefaultAutoAcceptTime
  }

  /** `autoAcceptOrder(order)` for the order at position `i`: when
      auto-accept is on, accepts it with the configured time. */
  function AutoAcceptOrder(s: Screen, i: nat, now: Clock): (r: Step)
    requires i < |s.orders|
    ensures r.screen.selected == s.selected && r.screen.history == s.history
    ensures !AutoAcceptOn(s.settings) ==> r == Step(s, AutoAcceptOff)
    ensures AutoAcceptOn(s.settings) ==>
              && r.outcome == StatusSet(Preparing)
              && r.screen.orders == s.orders[i := Accepted(s.orders[i], AutoAcceptTime(s.settings.value), now.ms)]
  {
    if !AutoAcceptOn(s.settings) then Step(s, AutoAcceptOff)
    else
      var t := AutoAcceptTime(s.settings.value);
      Step(s.(orders := s.orders[i := Accepted(s.orders[i], t, now.ms)]), StatusSet(Preparing))
  }

  /** `selectOrder(id)`: selects the id even when no order has it. A pending
      order is auto-accepted when auto-accept is on; otherwise the panel
      takes its preparation time, 10 minutes when unset. */
  function SelectOrder(s: Screen, id: string, now: Clock): (r: Step)
    ensures r.screen.selected == Some(id) && r.screen.history == s.history
    ensures |r.screen.orders| == |s.orders|
    ensures forall k :: 0 <= k < |s.orders| && k != FindOrder(s.orders, id) ==> r.screen.orders[k] == s.orders[k]
    ensures forall k :: 0 <= k < |s.orders| ==> r.screen.orders[k].id == s.orders[k].id
    ensures var i := FindOrder(s.orders, id);
            i < |s.orders| && s.orders[i].status == Pending && !AutoAcceptOn(s.settings) ==>
              r.screen.preparationTime ==
                (if s.orders[i].preparationTime != 0 then s.orders[i].preparationTime else DefaultPreparationTime)
    ensures var i := FindOrder(s.orders, id);
            r.screen.orders != s.orders ==> i < |s.orders| && s.orders[i].status == Pending && AutoAcceptOn(s.settings)
  {
    var s1 := s.(selected := Some(id));
    var i := FindOrder(s.orders, id);
    if i == |s.orders| then Step(s1, OrderNotFound)
    else if s.orders[i].status == Pending then
      if AutoAcceptOn(s.settings) then AutoAcceptOrder(s1, i, now)
      else
        var t := if s.orders[i].preparationTime != 0 then s.orders[i].preparationTime else DefaultPreparationTime;
        Step(s1.(preparationTime := t), Selected)
    else Step(s1, Selected)
  }

  /** `rejectOrder` once the operator has answered the confirmation dialog
      (`confirmed`): the selected order becomes rejected, is saved to history
      and removed from the working list; the first remaining order is then
      selected, or the selection cleared. */
  function RejectOrder(s: Screen, confirmed: bool, now: Clock): (r: Step)
    ensures r.outcome != StatusSet(Rejected) ==> r.screen == s
    ensures r.outcome == StatusSet(Rejected) <==>
              HasSelection(s.selected) && FindOrder(s.orders, s.selected.value) < |s.orders| && confirmed
    ensures r.outcome == StatusSet(Rejected) ==>
              var i := FindOrder(s.orders, s.selected.value);
              var rejected := s.orders[i].(status := Rejected, rejectedAt := Some(now.ms));
              var rest := s.orders[..i] + s.orders[i + 1..];
              && r.screen.history == SaveToHistory(s.history, rejected)
              && |r.screen.orders| == |rest|
              && (forall k :: 0 <= k < |rest| ==> r.screen.orders[k].id == rest[k].id)
              && (forall k :: 0 < k < |rest| ==> r.screen.orders[k] == rest[k])
              && (|rest| == 0 ==> r.screen.selected == None)
              && (|rest| > 0 ==> r.screen.selected == Some(rest[0].id))
  {
    if !HasSelection(s.selected) then Step(s, NoOrderSelected)
    else
      var i := FindOrder(s.orders, s.selected.value);
      if i == |s.orders| then Step(s, OrderNotFound)
      else if !confirmed then Step(s, NotConfirmed)
      else
        var rejected := s.orders[i].(status := Rejected, rejectedAt := Some(now.ms));
        var rest := s.orders[..i] + s.orders[i + 1..];
        var s2 := s.(orders := rest, history := SaveToHistory(s.history, rejected));
        if |rest| > 0 then
          var next := SelectOrder(s2, rest[0].id, now);
          assert FindOrder(rest, rest[0].id) == 0;
          Step(next.screen, StatusSet(Rejected))
        else Step(s2.(selected := None), StatusSet(Rejected))
  }

  /** With auto-accept off, rejecting removes exactly the rejected order and
      leaves every other order as it was. */
  lemma RejectRemovesOnlyThatOrder(s: Screen, now: Clock)
    requires !AutoAcceptOn(s.settings)
    requires HasSelection(s.selected) && FindOrder(s.orders, s.selected.value) < |s.orders|
    ensures var i := FindOrder(s.orders, s.selected.value);
            RejectOrder(s, true, now).screen.orders == s.orders[..i] + s.orders[i + 1..]
  {
  }

  // ---------------------------------------------------------------------
  // Timer tick

  /** `updateTimers` for one order. */
  function TickOrder(o: Order): (t: Order)
    ensures o.status in {Pending, Preparing} ==> t == o.(timerSeconds := o.timerSeconds + 1)
    ensures o.status !in {Pending, Preparing} ==> t == o
  {
    if o.status == Pending || o.status == Preparing then o.(timerSeconds := o.timerSeconds + 1) else o
  }

  /** `updateTimers`: one second passes for every pending or preparing order. */
  function Tick(orders: seq<Order>): (r: seq<Order>)
    ensures |r| == |orders|
    ensures forall k :: 0 <= k < |orders| ==> r[k] == TickOrder(orders[k])
  {
    seq(|orders|, k requires 0 <= k < |orders| => TickOrder(orders[k]))
  }

  /** `n` ticks. */
  function TickN(orders: seq<Order>, n: nat): (r: seq<Order>)
    ensures |r| == |orders|
  {
    if n == 0 then orders else Tick(TickN(orders, n - 1))
  }

  /** After `n` ticks each pending or preparing order has counted `n` more
      seconds, and every field other than `timerSeconds` is unchanged. */
  lemma {:induction false} TickNCounts(orders: seq<Order>, n: nat, k: nat)
    requires k < |orders|
    ensures orders[k].status in {Pending, Preparing} ==>
              TickN(orders, n)[k] == orders[k].(timerSeconds := orders[k].timerSeconds + n)
    ensures orders[k].status !in {Pending, Preparing} ==> TickN(orders, n)[k] == orders[k]
  {
    if n > 0 {
      TickNCounts(orders, n - 1, k);
    }
  }

  /** The overdue rule reads `timer`, which ticking never advances: ticks
      never change an order's validation, so an accepted order (timer 0)
      is never reported overdue however long it waits. */
  lemma TicksNeverMakeOverdue(orders: seq<Order>, n: nat, k: nat)
    requires k < |orders|
    ensures Validate(TickN(orders, n)[k]) == Validate(orders[k])
    ensures orders[k].timer == 0 ==> PreparationOverdue !in Validate(TickN(orders, n)[k]).errors
  {
    TickNCounts(orders, n, k);
    ValidationIgnoresTimerSeconds(orders[k], TickN(orders, n)[k]);
  }

  lemma ValidationIgnoresTimerSeconds(a: Order, b: Order)
    requires b == a.(timerSeconds := b.timerSeconds)
    ensures Validate(a) == Validate(b)
  {
    assert forall e :: Fails(a, e) == Fails(b, e);
    CollectAgrees(a, b, RuleOrder);
  }

  lemma {:induction false} CollectAgrees(a: Order, b: Order, rules: seq<ValidationError>)
    requires forall e :: Fails(a, e) == Fails(b, e)
    ensures Collect(a, rules) == Collect(b, rules)
  {
    if |rules| > 0 {
      CollectAgrees(a, b, rules[1..]);
    }
  }

  // ---------------------------------------------------------------------
  // Preparation-time stepper

  /** `decreasePreparationTime`. */
  function DecreasePreparationTime(t: int): (r: int)
    ensures t > MinPreparationTime ==> r == t - TimeStep
    ensures t <= MinPreparationTime ==> r == t
  {
    if t > MinPreparationTime then t - TimeStep else t
  }

  /** `increasePreparationTime`. */
  function IncreasePreparationTime(t: int): (r: int)
    ensures t < MaxPreparationTime ==> r == t + TimeStep
    ensures t >= MaxPreparationTime ==> r == t
  {
    if t < MaxPreparationTime then t + TimeStep else t
  }

  /** A preparation time the stepper can show: a multiple of 5 in 5..60. */
  predicate OnGrid(t: int) {
    MinPreparationTime <= t <= MaxPreparationTime && t % TimeStep == 0
  }

  /** Button presses: `true` is "+", `false` is "-". */
  function Press(t: int, presses: seq<bool>): int
    decreases |presses|
  {
    if |presses| == 0 then t
    else Press(if presses[0] then IncreasePreparationTime(t) else DecreasePreparationTime(t), presses[1..])
  }

  /** From the default 10 minutes (or any grid value), every sequence of
      presses stays on the grid. */
  lemma {:induction false} PressStaysOnGrid(t: int, presses: seq<bool>)
    requires OnGrid(t)
    ensures OnGrid(Press(t, presses))
    decreases |presses|
  {
    if |presses| > 0 {
      var t' := if presses[0] then IncreasePreparationTime(t) else DecreasePreparationTime(t);
      assert OnGrid(t');
      PressStaysOnGrid(t', presses[1..]);
    }
  }

  /** Selecting an order copies its stored preparation time into the panel
      unchecked, so from an off-grid value such as 58 the stepper leaves
      the 5..60 range. */
  lemma OffGridPreparationTime()
    ensures IncreasePreparationTime(58) == 63
  {
  }

  // ---------------------------------------------------------------------
  // Bulk validation

  /** `validateAllOrders`: every order carries its current validation errors
      (none when it is valid). */
  function ValidateAll(orders: seq<Order>): (r: seq<Order>)
    ensures |r| == |orders|
    ensures forall k :: 0 <= k < |orders| ==>
              && r[k] == orders[k].(validationErrors := r[k].validationErrors)
              && (forall e :: e in r[k].validationErrors <==> Violates(orders[k], e))
              && RanksIncrease(r[k].validationErrors)
  {
    seq(|orders|, k requires 0 <= k < |orders| =>
      var v := Validate(orders[k]);
      if !v.isValid then orders[k].(validationErrors := v.errors) else orders[k].(validationErrors := []))
  }
}

=== FILE: menu_catalog.dfy ===
/** The menu catalog and the sold-out screen. The screen's menu lists and
    the catalog's are the same objects (the catalog is copied shallowly), so
    one `Catalog` value stands for both. Saving writes the sold-out flag of
    every menu, keyed by id; loading lays a saved map over the catalog. */
module MenuCatalog {
  import opened Wrappers
  import opened Seqs

  datatype Menu = Menu(id: int, name: string, price: int, category: string, isSoldOut: bool)

  datatype Catalog = Catalog(main: seq<Menu>, side: seq<Menu>)

  datatype Tab = MainTab | SideTab

  /** `[...menus.main, ...menus.side]`. */
  function AllMenus(c: Catalog): seq<Menu> {
    c.main + c.side
  }

  function TabMenus(c: Catalog, tab: Tab): seq<Menu> {
    if tab == MainTab then c.main else c.side
  }

  function OtherTab(tab: Tab): Tab {
    if tab == MainTab then SideTab else MainTab
  }

  /** Where a tab's menus start in `AllMenus`. */
  function TabStart(c: Catalog, tab: Tab): nat {
    if tab == MainTab then 0 else |c.main|
  }

  predicate UniqueIds(ms: seq<Menu>) {
    forall i, j :: 0 <= i < j < |ms| ==> ms[i].id != ms[j].id
  }

  predicate UniqueMenuIds(c: Catalog) {
    UniqueIds(AllMenus(c))
  }

  /** A menu without its sold-out flag. */
  function Fixed(m: Menu): Menu {
    m.(isSoldOut := false)
  }

  /** `a` and `b` list the same menus, sold-out flags aside. */
  predicate SameMenuSeq(a: seq<Menu>, b: seq<Menu>) {
    |a| == |b| && forall i :: 0 <= i < |a| ==> Fixed(a[i]) == Fixed(b[i])
  }

  /** `c` and `d` list the same menus in the same tabs, sold-out flags aside. */
  predicate SameMenus(c: Catalog, d: Catalog) {
    && |c.main| == |d.main| && |c.side| == |d.side|
    && SameMenuSeq(AllMenus(c), AllMenus(d))
  }

  /** `MOCK_MENUS`: ten main menus (number 8 sold out) and five sides. */
  const MockMenus := Catalog(
    [ Menu(1, "후라이드 치킨", 18000, "main", false),
      Menu(2, "양념 치킨", 19000, "main", false),
      Menu(3, "간장 치킨", 19000, "main", false),
      Menu(4, "반반 치킨", 19000, "main", false),
      Menu(5, "순살 치킨", 20000, "main", false),
      Menu(6, "파닭", 21000, "main", false),
      Menu(7, "마늘 치킨", 20000, "main", false),
      Menu(8, "핫 치킨", 19000, "main", true),
      Menu(9, "허니 치킨", 20000, "main", false),
      Menu(10, "레몬 치킨", 21000, "main", false) ],
    [ Menu(11, "감자튀김", 3000, "side", false),
      Menu(12, "치즈볼", 4000, "side", false),
      Menu(13, "콜라", 2000, "side", false),
      Menu(14, "사이다", 2000, "side", false),
      Menu(15, "떡볶이", 5000, "side", false) ])

  /** The catalog numbers its menus 1 to 15 in order, so ids are unique. */
  lemma MockMenusWellFormed()
    ensures forall i :: 0 <= i < |AllMenus(MockMenus)| ==> AllMenus(MockMenus)[i].id == i + 1
    ensures UniqueMenuIds(MockMenus)
  {
  }

  // ---------------------------------------------------------------------
  // Lookup, update and the saved map

  /** `allMenus.find(m => m.id === id)` as a position; `|ms|` when absent. */
  function FindId(ms: seq<Menu>, id: int): (p: nat)
    ensures p <= |ms|
    ensures p < |ms| ==> ms[p].id == id
    ensures forall k :: 0 <= k < p ==> ms[k].id != id
  {
    if |ms| == 0 then 0
    else if ms[0].id == id then 0
    else 1 + FindId(ms[1..], id)
  }

  /** Sets the flag of the menu at position `p` of `AllMenus`. */
  function SetFlag(c: Catalog, p: nat, v: bool): (r: Catalog)
    requires p < |AllMenus(c)|
    ensures |r.main| == |c.main| && |r.side| == |c.side|
    ensures AllMenus(r) == AllMenus(c)[p := AllMenus(c)[p].(isSoldOut := v)]
  {
    if p < |c.main| then c.(main := c.main[p := c.main[p].(isSoldOut := v)])
    else c.(side := c.side[p - |c.main| := c.side[p - |c.main|].(isSoldOut := v)])
  }

  /** The saved map: each id to its menu's flag; of two menus with one id
      the later one wins, as in the object spread that builds it. */
  function Snapshot(ms: seq<Menu>): (saved: map<int, bool>)
    ensures forall i :: 0 <= i < |ms| ==> ms[i].id in saved
    ensures forall id :: id in saved ==> exists i :: 0 <= i < |ms| && ms[i].id == id
  {
    if |ms| == 0 then map[]
    else
      var n := |ms| - 1;
      var rest := Snapshot(ms[..n]);
      assert forall i :: 0 <= i < n ==> ms[..n][i] == ms[i];
      rest[ms[n].id := ms[n].isSoldOut]
  }

  /** With unique ids the saved map holds each menu's own flag. */
  lemma {:induction false} SnapshotValues(ms: seq<Menu>)
    requires forall i, j :: 0 <= i < j < |ms| ==> ms[i].id != ms[j].id
    ensures forall i :: 0 <= i < |ms| ==> Snapshot(ms)[ms[i].id] == ms[i].isSoldOut
  {
    if |ms| > 0 {
      var n := |ms| - 1;
      SnapshotValues(ms[..n]);
      assert forall i :: 0 <= i < n ==> ms[..n][i] == ms[i];
    }
  }

  datatype StatusUpdate = StatusUpdate(catalog: Catalog, found: bool, saved: Option<map<int, bool>>)

  /** `MockDataAPI.updateMenuStatus(menuId, isSoldOut)`: sets the flag of the
      first menu with that id and saves every flag; without such a menu it
      answers false and changes nothing. */
  function UpdateMenuStatus(c: Catalog, id: int, v: bool): (r: StatusUpdate)
    ensures r.found <==> exists i :: 0 <= i < |AllMenus(c)| && AllMenus(c)[i].id == id
    ensures !r.found ==> r.catalog == c && r.saved == None
    ensures r.found ==>
              var p := FindId(AllMenus(c), id);
              && AllMenus(r.catalog) == AllMenus(c)[p := AllMenus(c)[p].(isSoldOut := v)]
              && r.saved == Some(Snapshot(AllMenus(r.catalog)))
    ensures |r.catalog.main| == |c.main| && |r.catalog.side| == |c.side|
  {
    var all := AllMenus(c);
    var p := FindId(all, id);
    if p == |all| then StatusUpdate(c, false, None)
    else
      var r := SetFlag(c, p, v);
      StatusUpdate(r, true, Some(Snapshot(AllMenus(r))))
  }

  /** With unique ids, the update touches exactly the menu with that id, and
      the saved map then records `v` for it. */
  lemma UpdateMenuStatusOnly(c: Catalog, id: int, v: bool)
    requires UniqueMenuIds(c)
    ensures var r := UpdateMenuStatus(c, id, v);
            var all, all' := AllMenus(c), AllMenus(r.catalog);
            && (forall i :: 0 <= i < |all| ==>
                  all'[i] == if all[i].id == id then all[i].(isSoldOut := v) else all[i])
            && (r.found ==> r.saved.value[id] == v)
  {
    var r := UpdateMenuStatus(c, id, v);
    var all := AllMenus(c);
    if r.found {
      var all' := AllMenus(r.catalog);
      SnapshotValues(all');
      assert all'[FindId(all, id)].id == id;
    }
  }

  /** `loadMenus`: every menu whose id has a saved entry takes the saved
      flag; other menus, and everything when nothing is saved, stay as
      they are. */
  function LoadMenus(c: Catalog, saved: Option<map<int, bool>>): (r: Catalog)
    ensures |r.main| == |c.main| && |r.side| == |c.side|
    ensures forall i :: 0 <= i < |AllMenus(c)| ==>
              var m := AllMenus(c)[i];
              AllMenus(r)[i] == if saved.Some? && m.id in saved.value then m.(isSoldOut := saved.value[m.id]) else m
  {
    if saved.None? then c
    else Catalog(Overlay(c.main, saved.value), Overlay(c.side, saved.value))
  }

  function Overlay(ms: seq<Menu>, saved: map<int, bool>): (r: seq<Menu>)
    ensures |r| == |ms|
    ensures forall i :: 0 <= i < |ms| ==>
              r[i] == if ms[i].id in saved then ms[i].(isSoldOut := saved[ms[i].id]) else ms[i]
  {
    seq(|ms|, i requires 0 <= i < |ms| => if ms[i].id in saved then ms[i].(isSoldOut := saved[ms[i].id]) else ms[i])
  }

  /** Loading what was saved restores every flag: laying the saved map of
      `c` over the same menus with any flags gives `c` back. */
  lemma LoadRestoresSaved(c: Catalog, d: Catalog)
    requires UniqueMenuIds(c) && SameMenus(c, d)
    ensures LoadMenus(d, Some(Snapshot(AllMenus(c)))) == c
  {
    var all := AllMenus(c);
    SnapshotValues(all);
    var r := LoadMenus(d, Some(Snapshot(all)));
    forall i | 0 <= i < |all|
      ensures AllMenus(r)[i] == all[i]
    {
      assert Fixed(all[i]) == Fixed(AllMenus(d)[i]);
      assert AllMenus(d)[i].id == all[i].id;
    }
    assert AllMenus(r) == all;
    assert r.main == AllMenus(r)[..|c.main|] && c.main == all[..|c.main|];
    assert r.side == AllMenus(r)[|c.main|..] && c.side == all[|c.main|..];
  }

  // ---------------------------------------------------------------------
  // The sold-out screen

  /** `toggleSoldOut(menuId)`: flips the first menu with that id and saves;
      an unknown id changes nothing. */
  function ToggleSoldOut(c: Catalog, id: int): (r: StatusUpdate)
    ensures |r.catalog.main| == |c.main| && |r.catalog.side| == |c.side|
    ensures var all := AllMenus(c);
            var p := FindId(all, id);
            && (p == |all| ==> r.catalog == c && !r.found)
            && (p < |all| ==> AllMenus(r.catalog) == all[p := all[p].(isSoldOut := !all[p].isSoldOut)])
            && (p < |all| ==> r.found && r.saved == Some(Snapshot(AllMenus(r.catalog))))
  {
    var all := AllMenus(c);
    var p := FindId(all, id);
    if p == |all| then StatusUpdate(c, false, None)
    else
      var flipped := !all[p].isSoldOut;
      var c1 := SetFlag(c, p, flipped);
      assert FindId(AllMenus(c1), id) == p by {
        assert forall k :: 0 <= k < |all| ==> AllMenus(c1)[k].id == all[k].id;
      }
      UpdateMenuStatus(c1, id, flipped)
  }

  /** Equal menu lists make equal catalogs when the tabs have equal sizes. */
  lemma CatalogFromAll(c: Catalog, d: Catalog)
    requires |c.main| == |d.main| && AllMenus(c) == AllMenus(d)
    ensures c == d
  {
    assert c.main == AllMenus(c)[..|c.main|];
    assert d.main == AllMenus(d)[..|d.main|];
    assert c.side == AllMenus(c)[|c.main|..];
    assert d.side == AllMenus(d)[|d.main|..];
  }

  /** Toggling the same menu twice restores the catalog. */
  lemma ToggleTwice(c: Catalog, id: int)
    ensures ToggleSoldOut(ToggleSoldOut(c, id).catalog, id).catalog == c
  {
    var all := AllMenus(c);
    var p := FindId(all, id);
    if p < |all| {
      var c1 := ToggleSoldOut(c, id).catalog;
      FindIdFlagsOnly(all, AllMenus(c1), id);
      FlipTwice(c, c1, ToggleSoldOut(c1, id).catalog, p);
    }
  }

  /** Flipping the flag at `p` twice gives the catalog back. */
  lemma FlipTwice(c: Catalog, c1: Catalog, c2: Catalog, p: nat)
    requires p < |AllMenus(c)|
    requires |c1.main| == |c.main| && |c2.main| == |c.main|
    requires AllMenus(c1) == AllMenus(c)[p := AllMenus(c)[p].(isSoldOut := !AllMenus(c)[p].isSoldOut)]
    requires AllMenus(c2) == AllMenus(c1)[p := AllMenus(c1)[p].(isSoldOut := !AllMenus(c1)[p].isSoldOut)]
    ensures c2 == c
  {
    assert AllMenus(c2) == AllMenus(c);
    CatalogFromAll(c2, c);
  }

  /** Changing flags does not move where an id is found. */
  lemma {:induction false} FindIdFlagsOnly(a: seq<Menu>, b: seq<Menu>, id: int)
    requires |a| == |b|
    requires forall k :: 0 <= k < |a| ==> a[k].id == b[k].id
    ensures FindId(a, id) == FindId(b, id)
  {
    if |a| > 0 && a[0].id != id {
      FindIdFlagsOnly(a[1..], b[1..], id);
    }
  }

  predicate IsSoldOut(m: Menu) {
    m.isSoldOut
  }

  /** `updateSoldOutCount`: the sold-out menus over both tabs. */
  function SoldOutCount(c: Catalog): (n: nat)
    ensures n == Count(c.main, IsSoldOut) + Count(c.side, IsSoldOut)
    ensures n <= |c.main| + |c.side|
  {
    FilterAppend(c.main, c.side, IsSoldOut);
    Count(AllMenus(c), IsSoldOut)
  }

  /** A toggle moves the count by exactly one. */
  lemma ToggleMovesCount(c: Catalog, id: int)
    requires exists i :: 0 <= i < |AllMenus(c)| && AllMenus(c)[i].id == id
    ensures var all := AllMenus(c);
            var n, n' := SoldOutCount(c), SoldOutCount(ToggleSoldOut(c, id).catalog);
            n' == if all[FindId(all, id)].isSoldOut then n - 1 else n + 1
  {
    var all := AllMenus(c);
    var p := FindId(all, id);
    CountUpdate(all, p, all[p].(isSoldOut := !all[p].isSoldOut), IsSoldOut);
  }

  lemma MockMenusCount()
    ensures SoldOutCount(MockMenus) == 1
  {
    MockFlags();
    OneSoldOut(MockMenus, 7);
  }

  /** A catalog whose only sold-out menu is the main menu at `k` counts one. */
  lemma OneSoldOut(c: Catalog, k: nat)
    requires k < |c.main| && c.main[k].isSoldOut
    requires forall i :: 0 <= i < |c.main| && i != k ==> !c.main[i].isSoldOut
    requires forall i :: 0 <= i < |c.side| ==> !c.side[i].isSoldOut
    ensures SoldOutCount(c) == 1
  {
    FilterOnly(c.main, k, IsSoldOut);
    FilterNone(c.side, IsSoldOut);
  }

  lemma MockFlags()
    ensures forall i :: 0 <= i < |MockMenus.main| ==> MockMenus.main[i].isSoldOut == (i == 7)
    ensures forall i :: 0 <= i < |MockMenus.side| ==> !MockMenus.side[i].isSoldOut
  {
  }

  /** The state `a` of the menus `all` once the first `k` menus of the tab
      starting at `base` have been handled: the menus are unchanged apart
      from flags, the handled ones carry `v`, any changed menu carries `v`,
      and with unique ids nothing outside the handled range has changed. */
  predicate Handled(all: seq<Menu>, a: seq<Menu>, base: nat, k: nat, v: bool) {
    && SameMenuSeq(all, a)
    && base + k <= |all|
    && (forall i :: base <= i < base + k ==> a[i].isSoldOut == v)
    && (forall i :: 0 <= i < |all| ==> a[i] == all[i] || a[i].isSoldOut == v)
    && (UniqueIds(all) ==> forall i :: 0 <= i < |all| && !(base <= i < base + k) ==> a[i] == all[i])
  }

  /** With unique ids, looking a menu up by its own id finds that menu. */
  lemma FindOwnId(all: seq<Menu>, a: seq<Menu>, q: nat)
    requires UniqueIds(all) && SameMenuSeq(all, a) && q < |a|
    ensures FindId(a, a[q].id) == q
  {
    forall j | 0 <= j < q
      ensures a[j].id != a[q].id
    {
      assert Fixed(a[j]) == Fixed(all[j]);
      assert Fixed(a[q]) == Fixed(all[q]);
    }
  }

  /** One round of the loop: set the flag of menu `base + k`, then set it
      again on the first menu with that id. */
  lemma HandleStep(all: seq<Menu>, a0: seq<Menu>, base: nat, k: nat, v: bool)
    requires Handled(all, a0, base, k, v) && base + k < |all|
    ensures var a1 := a0[base + k := a0[base + k].(isSoldOut := v)];
            var p := FindId(a1, a1[base + k].id);
            p <= base + k && Handled(all, a1[p := a1[p].(isSoldOut := v)], base, k + 1, v)
  {
    var q := base + k;
    var a1 := a0[q := a0[q].(isSoldOut := v)];
    var p := FindId(a1, a1[q].id);
    assert p <= q;
    var a2 := a1[p := a1[p].(isSoldOut := v)];
    if UniqueIds(all) {
      FindOwnId(all, a1, q);
      assert a2 == a1;
      HandleUnique(all, a0, base, k, v);
    } else {
      HandleShared(all, a0, base, k, p, v);
    }
  }

  lemma HandleUnique(all: seq<Menu>, a0: seq<Menu>, base: nat, k: nat, v: bool)
    requires Handled(all, a0, base, k, v) && base + k < |all| && UniqueIds(all)
    ensures var a1 := a0[base + k := a0[base + k].(isSoldOut := v)];
            Handled(all, a1[base + k := a1[base + k].(isSoldOut := v)], base, k + 1, v)
  {
    FlagsSetTwice(all, a0, base, k, base + k, v);
    OthersUntouched(all, a0, base, k, v);
    var a1 := a0[base + k := a0[base + k].(isSoldOut := v)];
    assert a1[base + k := a1[base + k].(isSoldOut := v)] == a1;
  }

  lemma HandleShared(all: seq<Menu>, a0: seq<Menu>, base: nat, k: nat, p: nat, v: bool)
    requires Handled(all, a0, base, k, v) && base + k < |all| && p < |all| && !UniqueIds(all)
    ensures var a1 := a0[base + k := a0[base + k].(isSoldOut := v)];
            Handled(all, a1[p := a1[p].(isSoldOut := v)], base, k + 1, v)
  {
    FlagsSetTwice(all, a0, base, k, p, v);
  }

  /** Setting the flag at `base + k` and at `p` keeps the menus, flags
      aside, and only ever writes `v`. */
  lemma FlagsSetTwice(all: seq<Menu>, a0: seq<Menu>, base: nat, k: nat, p: nat, v: bool)
    requires Handled(all, a0, base, k, v) && base + k < |all| && p < |all|
    ensures var a1 := a0[base + k := a0[base + k].(isSoldOut := v)];
            var a2 := a1[p := a1[p].(isSoldOut := v)];
            && SameMenuSeq(all, a2)
            && (forall i :: base <= i < base + k + 1 ==> a2[i].isSoldOut == v)
            && (forall i :: 0 <= i < |all| ==> a2[i] == all[i] || a2[i].isSoldOut == v)
  {
    var a1 := a0[base + k := a0[base + k].(isSoldOut := v)];
    var a2 := a1[p := a1[p].(isSoldOut := v)];
    forall i | 0 <= i < |all|
      ensures Fixed(a2[i]) == Fixed(all[i])
    {
      assert Fixed(a0[i]) == Fixed(all[i]);
    }
    forall i | 0 <= i < |all|
      ensures a2[i] == all[i] || a2[i].isSoldOut == v
      ensures base <= i <= base + k ==> a2[i].isSoldOut == v
    {
      if i != p && i != base + k {
        assert a2[i] == a0[i];
      }
    }
  }

  /** With unique ids, setting the flag at `base + k` leaves the menus
      outside the first `k + 1` of the range as they were. */
  lemma OthersUntouched(all: seq<Menu>, a0: seq<Menu>, base: nat, k: nat, v: bool)
    requires Handled(all, a0, base, k, v) && base + k < |all| && UniqueIds(all)
    ensures var a1 := a0[base + k := a0[base + k].(isSoldOut := v)];
            forall i :: 0 <= i < |all| && !(base <= i < base + k + 1) ==> a1[i] == all[i]
  {
    var a1 := a0[base + k := a0[base + k].(isSoldOut := v)];
    forall i | 0 <= i < |all| && !(base <= i < base + k + 1)
      ensures a1[i] == all[i]
    {
      assert a1[i] == a0[i];
    }
  }

  /** `setSoldOutAll(isSoldOut)` on the current tab: each of its menus gets
      the flag and is then saved through `updateMenuStatus`, which sets the
      first menu with that id. `saved` is what the last save left in
      storage: every flag after the update, or nothing for an empty tab. */
  method SetSoldOutAll(c: Catalog, tab: Tab, v: bool) returns (r: Catalog, saved: Option<map<int, bool>>)
    ensures SameMenus(c, r)
    ensures forall m :: m in TabMenus(r, tab) ==> m.isSoldOut == v
    ensures UniqueMenuIds(c) ==> TabMenus(r, OtherTab(tab)) == TabMenus(c, OtherTab(tab))
    ensures forall i :: 0 <= i < |AllMenus(c)| ==> AllMenus(r)[i] == AllMenus(c)[i] || AllMenus(r)[i].isSoldOut == v
    ensures |TabMenus(c, tab)| > 0 ==> saved == Some(Snapshot(AllMenus(r)))
    ensures |TabMenus(c, tab)| == 0 ==> saved == None
  {
    var n := |TabMenus(c, tab)|;
    var base := TabStart(c, tab);
    r := c;
    saved := None;
    var k := 0;
    while k < n
      invariant k <= n && Handled(AllMenus(c), AllMenus(r), base, k, v)
      invariant |r.main| == |c.main| && |r.side| == |c.side|
      invariant k == 0 ==> saved == None
      invariant k > 0 ==> saved == Some(Snapshot(AllMenus(r)))
    {
      var a0 := AllMenus(r);
      HandleStep(AllMenus(c), a0, base, k, v);
      var r1 := SetFlag(r, base + k, v);
      var a1 := AllMenus(r1);
      assert a1 == a0[base + k := a0[base + k].(isSoldOut := v)];
      var u := UpdateMenuStatus(r1, a1[base + k].id, v);
      assert u.found;
      r := u.catalog;
      saved := u.saved;
      k := k + 1;
    }
    TabsOfHandled(c, r, tab, v);
  }

  /** Reads the method's promises off the final `Handled` state. */
  lemma TabsOfHandled(c: Catalog, r: Catalog, tab: Tab, v: bool)
    requires |r.main| == |c.main| && |r.side| == |c.side|
    requires Handled(AllMenus(c), AllMenus(r), TabStart(c, tab), |TabMenus(c, tab)|, v)
    ensures forall m :: m in TabMenus(r, tab) ==> m.isSoldOut == v
    ensures UniqueMenuIds(c) ==> TabMenus(r, OtherTab(tab)) == TabMenus(c, OtherTab(tab))
  {
    var base := TabStart(c, tab);
    forall m | m in TabMenus(r, tab)
      ensures m.isSoldOut == v
    {
      var j :| 0 <= j < |TabMenus(r, tab)| && TabMenus(r, tab)[j] == m;
      assert AllMenus(r)[base + j] == m;
    }
    if UniqueMenuIds(c) {
      var other := TabMenus(c, OtherTab(tab));
      var ob := TabStart(c, OtherTab(tab));
      forall j | 0 <= j < |other|
        ensures TabMenus(r, OtherTab(tab))[j] == other[j]
      {
        assert AllMenus(r)[ob + j] == TabMenus(r, OtherTab(tab))[j];
        assert AllMenus(c)[ob + j] == other[j];
      }
    }
  }

  /** Selling out a whole tab with unique ids makes the count that tab's
      size plus the other tab's sold-out menus. */
  lemma SetSoldOutAllCount(c: Catalog, tab: Tab, r: Catalog)
    requires UniqueMenuIds(c) && SameMenus(c, r)
    requires forall m :: m in TabMenus(r, tab) ==> m.isSoldOut
    requires TabMenus(r, OtherTab(tab)) == TabMenus(c, OtherTab(tab))
    ensures SoldOutCount(r) == |TabMenus(c, tab)| + Count(TabMenus(c, OtherTab(tab)), IsSoldOut)
  {
    var t := TabMenus(r, tab);
    assert Filter(t, IsSoldOut) == t by {
      assert forall i :: 0 <= i < |t| ==> t[i] in t;
      FilterAll(t, IsSoldOut);
    }
  }
}

=== FILE: operation_info.dfy ===
/** The store's operation-info page: the regular and temporary holiday lists
    and the checks made before saving the opening hours and the break. */
module OperationInfo {
  import opened Wrappers
  import opened Calendar
  import opened Utils

  /** `operationInfo`: the store's name, address and phone, the weekly
      opening hours, the holiday lists and the break. */
  datatype Info = Info(
    storeName: string,
    storeAddress: string,
    storePhone: string,
    operationHours: seq<DaySchedule>,
    regularHolidays: seq<RegularHoliday>,
    temporaryHolidays: seq<TempHoliday>,
    breakTime: BreakTime)

  /** `MOCK_OPERATION_INFO`, the defaults when nothing is saved: open every
      day from 10:00, to 22:00 Sunday to Thursday and to 23:00 on Friday and
      Saturday, no holidays, and a disabled break from 15:00 to 17:00. */
  const DefaultInfo := Info(
    "냠냠픽업 강남점",
    "서울시 강남구 테헤란로 123",
    "02-1234-5678",
    [ DaySchedule(0, true, "10:00", "22:00"),
      DaySchedule(1, true, "10:00", "22:00"),
      DaySchedule(2, true, "10:00", "22:00"),
      DaySchedule(3, true, "10:00", "22:00"),
      DaySchedule(4, true, "10:00", "22:00"),
      DaySchedule(5, true, "10:00", "23:00"),
      DaySchedule(6, true, "10:00", "23:00") ],
    [],
    [],
    BreakTime(false, "15:00", "17:00"))

  /** `getOperationInfo`: the saved info when there is one, else the defaults. */
  function GetOperationInfo(saved: Option<Info>): (info: Info)
    ensures saved.Some? ==> info == saved.value
    ensures saved.None? ==> info.regularHolidays == [] && info.temporaryHolidays == [] && !info.breakTime.enabled
  {
    saved.GetOr(DefaultInfo)
  }

  /** A list after an edit, and whether the edit was made (`false` for the
      error notice). */
  datatype Edit<T> = Edit(list: seq<T>, ok: bool)

  // ---------------------------------------------------------------------
  // Regular holidays

  /** The entry `addRegularHoliday` builds for `day`: `'specific'` with the
      chosen week, or `'weekly'` with a `null` week when none is chosen. */
  function NewHoliday(week: Option<int>, day: int): (h: RegularHoliday)
    ensures h.dayOfWeek == day && h.week == week
    ensures h.kind == Specific <==> week.Some?
  {
    if week.Some? then RegularHoliday(day, Specific, week) else RegularHoliday(day, Weekly, None)
  }

  /** The duplicate test: same weekday and same week (the kind is not compared). */
  predicate SameSlot(a: RegularHoliday, b: RegularHoliday) {
    a.dayOfWeek == b.dayOfWeek && a.week == b.week
  }

  predicate Listed(hs: seq<RegularHoliday>, h: RegularHoliday) {
    exists i :: 0 <= i < |hs| && SameSlot(hs[i], h)
  }

  predicate DuplicateFree(hs: seq<RegularHoliday>) {
    forall i, j :: 0 <= i < j < |hs| ==> !SameSlot(hs[i], hs[j])
  }

  /** The loop over the checked days: each day's entry is appended unless
      its slot is already listed, including by an entry added earlier in the
      same loop. */
  function AddDays(hs: seq<RegularHoliday>, week: Option<int>, days: seq<int>): (r: seq<RegularHoliday>)
    ensures |hs| <= |r| <= |hs| + |days| && r[..|hs|] == hs
    ensures DuplicateFree(hs) ==> DuplicateFree(r)
    ensures forall d :: d in days ==> Listed(r, NewHoliday(week, d))
    ensures forall i :: |hs| <= i < |r| ==> r[i].week == week && r[i].dayOfWeek in days && r[i] == NewHoliday(week, r[i].dayOfWeek)
    decreases |days|
  {
    if |days| == 0 then hs
    else
      var h := NewHoliday(week, days[0]);
      var next := AddIfNew(hs, h);
      var r := AddDays(next, week, days[1..]);
      AddDaysStep(hs, week, days, next, r);
      r
  }

  /** The first checked day's entry followed by the rest of the loop keeps
      the loop's promises. */
  lemma AddDaysStep(hs: seq<RegularHoliday>, week: Option<int>, days: seq<int>,
                    next: seq<RegularHoliday>, r: seq<RegularHoliday>)
    requires |days| > 0 && next == AddIfNew(hs, NewHoliday(week, days[0]))
    requires |next| <= |r| <= |next| + |days[1..]| && r[..|next|] == next
    requires DuplicateFree(next) ==> DuplicateFree(r)
    requires forall d :: d in days[1..] ==> Listed(r, NewHoliday(week, d))
    requires forall i :: |next| <= i < |r| ==> r[i].week == week && r[i].dayOfWeek in days[1..] && r[i] == NewHoliday(week, r[i].dayOfWeek)
    ensures |hs| <= |r| <= |hs| + |days| && r[..|hs|] == hs
    ensures DuplicateFree(hs) ==> DuplicateFree(r)
    ensures forall d :: d in days ==> Listed(r, NewHoliday(week, d))
    ensures forall i :: |hs| <= i < |r| ==> r[i].week == week && r[i].dayOfWeek in days && r[i] == NewHoliday(week, r[i].dayOfWeek)
  {
    var h := NewHoliday(week, days[0]);
    ListedInLonger(next, r, h);
    assert r[..|hs|] == hs by {
      assert r[..|next|][..|hs|] == r[..|hs|];
    }
    assert forall i :: |hs| <= i < |next| ==> r[i] == next[i];
    assert forall d :: d in days[1..] ==> d in days;
    assert forall d :: d in days ==> d == days[0] || d in days[1..];
  }

  /** One checked day: its entry is appended unless its slot is listed. */
  function AddIfNew(hs: seq<RegularHoliday>, h: RegularHoliday): (next: seq<RegularHoliday>)
    ensures Listed(next, h)
    ensures |hs| <= |next| <= |hs| + 1 && next[..|hs|] == hs
    ensures forall i :: |hs| <= i < |next| ==> next[i] == h
    ensures DuplicateFree(hs) ==> DuplicateFree(next)
    ensures Listed(hs, h) <==> next == hs
  {
    if Listed(hs, h) then hs
    else
      assert SameSlot((hs + [h])[|hs|], h);
      hs + [h]
  }

  /** A slot listed in a list stays listed once entries are appended. */
  lemma ListedInLonger(a: seq<RegularHoliday>, b: seq<RegularHoliday>, h: RegularHoliday)
    requires |a| <= |b| && b[..|a|] == a
    ensures Listed(a, h) ==> Listed(b, h)
  {
    if Listed(a, h) {
      var i :| 0 <= i < |a| && SameSlot(a[i], h);
      assert b[i] == a[i];
    }
  }

  /** `addRegularHoliday` with the week select (`None` when empty) and the
      checked weekdays in page order: with no day checked, an error and no
      change. */
  function AddRegularHoliday(hs: seq<RegularHoliday>, week: Option<int>, days: seq<int>): (r: Edit<RegularHoliday>)
    ensures r.ok <==> |days| > 0
    ensures !r.ok ==> r.list == hs
    ensures |hs| <= |r.list| && r.list[..|hs|] == hs
    ensures DuplicateFree(hs) ==> DuplicateFree(r.list)
    ensures forall d :: d in days ==> Listed(r.list, NewHoliday(week, d))
    ensures forall i :: |hs| <= i < |r.list| ==> r.list[i].dayOfWeek in days && r.list[i] == NewHoliday(week, r.list[i].dayOfWeek)
  {
    if |days| == 0 then Edit(hs, false) else Edit(AddDays(hs, week, days), true)
  }

  /** Days whose slots are all listed already add nothing. */
  lemma {:induction false} AddDaysListed(hs: seq<RegularHoliday>, week: Option<int>, days: seq<int>)
    requires forall d :: d in days ==> Listed(hs, NewHoliday(week, d))
    ensures AddDays(hs, week, days) == hs
    decreases |days|
  {
    if |days| > 0 {
      assert days[0] in days;
      assert forall d :: d in days[1..] ==> d in days;
      AddDaysListed(hs, week, days[1..]);
    }
  }

  /** Adding the same selection a second time changes nothing. */
  lemma AddRegularHolidayTwice(hs: seq<RegularHoliday>, week: Option<int>, days: seq<int>)
    ensures var once := AddRegularHoliday(hs, week, days).list;
            AddRegularHoliday(once, week, days).list == once
  {
    if |days| > 0 {
      AddDaysListed(AddDays(hs, week, days), week, days);
    }
  }

  /** A slot that is not listed yet is added exactly once, at the end. */
  lemma AddNewSlot(hs: seq<RegularHoliday>, week: Option<int>, day: int)
    requires !Listed(hs, NewHoliday(week, day))
    ensures AddRegularHoliday(hs, week, [day]) == Edit(hs + [NewHoliday(week, day)], true)
  {
    var h := NewHoliday(week, day);
    assert [day][1..] == [];
    assert AddDays(hs + [h], week, []) == hs + [h];
  }

  /** `splice(index, 1)`: removes the entry at `index`; a negative index
      counts from the end, and an index past the end removes nothing. */
  function RemoveAt<T>(s: seq<T>, index: int): (r: seq<T>)
    ensures 0 <= index < |s| ==> r == s[..index] + s[index + 1..]
    ensures index >= |s| ==> r == s
    ensures -|s| <= index < 0 ==> r == s[..|s| + index] + s[|s| + index + 1..]
    ensures index < -|s| && |s| > 0 ==> r == s[1..]
  {
    var start := if index < 0 then (if |s| + index < 0 then 0 else |s| + index) else (if index > |s| then |s| else index);
    if start == |s| then s else s[..start] + s[start + 1..]
  }

  /** Removing the entry at a valid index keeps every other entry, in order,
      and drops exactly that one. */
  lemma RemoveAtKeepsOthers<T>(s: seq<T>, index: nat)
    requires index < |s|
    ensures var r := RemoveAt(s, index);
            && |r| == |s| - 1
            && (forall i :: 0 <= i < index ==> r[i] == s[i])
            && (forall i :: index <= i < |r| ==> r[i] == s[i + 1])
            && multiset(r) + multiset{s[index]} == multiset(s)
  {
    assert s == s[..index] + [s[index]] + s[index + 1..];
  }

  /** Removing what was just added restores the list. */
  lemma RemoveLastAdded<T>(s: seq<T>, x: T)
    ensures RemoveAt(s + [x], |s|) == s
  {
    assert (s + [x])[..|s|] == s;
  }

  /** Removing from a duplicate-free list leaves it duplicate-free. */
  lemma RemoveKeepsDuplicateFree(hs: seq<RegularHoliday>, index: int)
    requires DuplicateFree(hs)
    ensures DuplicateFree(RemoveAt(hs, index))
  {
    var r := RemoveAt(hs, index);
    if r != hs {
      var start := if index < 0 then (if |hs| + index < 0 then 0 else |hs| + index) else index;
      assert r == hs[..start] + hs[start + 1..];
      forall i, j | 0 <= i < j < |r|
        ensures !SameSlot(r[i], r[j])
      {
        var i' := if i < start then i else i + 1;
        var j' := if j < start then j else j + 1;
        assert r[i] == hs[i'] && r[j] == hs[j'];
      }
    }
  }

  // ---------------------------------------------------------------------
  // Temporary holidays

  /** `addTempHoliday` with the picker's selected dates: the first date to
      the second, or to the first when only one is selected; nothing and an
      error when none is. */
  function AddTempHoliday(ts: seq<TempHoliday>, selected: seq<CivilDate>): (r: Edit<TempHoliday>)
    ensures r.ok <==> |selected| > 0
    ensures !r.ok ==> r.list == ts
    ensures r.ok ==> |r.list| == |ts| + 1 && r.list[..|ts|] == ts
    ensures r.ok ==> r.list[|ts|].startDate == selected[0]
    ensures |selected| == 1 ==> r.list[|ts|] == TempHoliday(selected[0], selected[0])
    ensures |selected| > 1 ==> r.list[|ts|] == TempHoliday(selected[0], selected[1])
  {
    if |selected| == 0 then Edit(ts, false)
    else
      var end := if |selected| > 1 then selected[1] else selected[0];
      Edit(ts + [TempHoliday(selected[0], end)], true)
  }

  /** A closure added from a single date covers that date and no other. */
  lemma SingleDateClosure(ts: seq<TempHoliday>, d: CivilDate, x: CivilDate)
    ensures var h := AddTempHoliday(ts, [d]).list[|ts|];
            TempCovers(h, x) <==> x == d
  {
  }

  // ---------------------------------------------------------------------
  // Saving

  /** A weekday row of the form: its checkbox and its two time selects. */
  datatype DayInput = DayInput(enabled: bool, startTime: string, endTime: string)

  datatype SaveError = DayHoursReversed(day: int) | BreakReversed

  /** What saving did: the page's info afterwards, what was written to
      storage (`None` when nothing was), and the error shown. */
  datatype SaveOutcome = SaveOutcome(info: Info, saved: Option<Info>, error: Option<SaveError>)

  predicate Reversed(h: DaySchedule) {
    h.enabled && IsTimeAfter(h.startTime, h.endTime)
  }

  /** Position of the first enabled day whose start is after its end. */
  function FirstReversed(hours: seq<DaySchedule>): (i: nat)
    ensures i <= |hours|
    ensures i < |hours| ==> Reversed(hours[i])
    ensures forall k :: 0 <= k < i ==> !Reversed(hours[k])
  {
    if |hours| == 0 then 0
    else if Reversed(hours[0]) then 0
    else 1 + FirstReversed(hours[1..])
  }

  /** The hours the form holds, read row by row through each entry's `day`. */
  function Collect(hours: seq<DaySchedule>, form: int -> DayInput): (r: seq<DaySchedule>)
    ensures |r| == |hours|
    ensures forall i :: 0 <= i < |hours| ==>
              r[i] == DaySchedule(hours[i].day, form(hours[i].day).enabled, form(hours[i].day).startTime, form(hours[i].day).endTime)
  {
    seq(|hours|, i requires 0 <= i < |hours| =>
      DaySchedule(hours[i].day, form(hours[i].day).enabled, form(hours[i].day).startTime, form(hours[i].day).endTime))
  }

  /** `saveOperationInfo`: the form's hours replace the page's before they
      are checked; the first enabled day starting after it ends stops the
      save. Then the form's break replaces the page's, and an enabled break
      starting after it ends stops the save. Otherwise everything is
      written. */
  function SaveOperationInfo(info: Info, form: int -> DayInput, breakForm: BreakTime): (r: SaveOutcome)
    ensures r.info.operationHours == Collect(info.operationHours, form)
    ensures r.saved.Some? <==> r.error.None?
    ensures r.saved.Some? ==> r.saved.value == r.info
    ensures r.saved.Some? <==>
              (forall h :: h in r.info.operationHours ==> !Reversed(h))
              && !(breakForm.enabled && IsTimeAfter(breakForm.startTime, breakForm.endTime))
    ensures r.error.Some? && r.error.value.DayHoursReversed? ==>
              exists h :: h in r.info.operationHours && Reversed(h) && h.day == r.error.value.day
    ensures r.info.regularHolidays == info.regularHolidays && r.info.temporaryHolidays == info.temporaryHolidays
  {
    var hours := Collect(info.operationHours, form);
    var withHours := info.(operationHours := hours);
    var i := FirstReversed(hours);
    if i < |hours| then
      SaveOutcome(withHours, None, Some(DayHoursReversed(hours[i].day)))
    else
      var withBreak := withHours.(breakTime := breakForm);
      assert forall h :: h in hours ==> !Reversed(h);
      if breakForm.enabled && IsTimeAfter(breakForm.startTime, breakForm.endTime) then
        SaveOutcome(withBreak, None, Some(BreakReversed))
      else
        SaveOutcome(withBreak, Some(withBreak), None)
  }

  /** With well-formed `HH:MM` times, saving succeeds exactly when every
      enabled day and the enabled break start no later than they end; a
      start equal to the end is accepted. */
  lemma SaveAcceptsOrderedTimes(info: Info, form: int -> DayInput, breakForm: BreakTime)
    requires forall h :: h in info.operationHours ==>
               Canonical(form(h.day).startTime) && Canonical(form(h.day).endTime)
    requires Canonical(breakForm.startTime) && Canonical(breakForm.endTime)
    ensures SaveOperationInfo(info, form, breakForm).saved.Some? <==>
              (forall h :: h in info.operationHours && form(h.day).enabled ==>
                 MinuteOf(form(h.day).startTime) <= MinuteOf(form(h.day).endTime))
              && (breakForm.enabled ==> MinuteOf(breakForm.startTime) <= MinuteOf(breakForm.endTime))
  {
    HoursInOrder(info.operationHours, form);
  }

  /** The collected hours have no reversed day exactly when every enabled
      row of the form starts no later than it ends. */
  lemma HoursInOrder(rows: seq<DaySchedule>, form: int -> DayInput)
    requires forall h :: h in rows ==> Canonical(form(h.day).startTime) && Canonical(form(h.day).endTime)
    ensures (forall g :: g in Collect(rows, form) ==> !Reversed(g)) <==>
            (forall h :: h in rows && form(h.day).enabled ==>
               MinuteOf(form(h.day).startTime) <= MinuteOf(form(h.day).endTime))
  {
    var hours := Collect(rows, form);
    if forall g :: g in hours ==> !Reversed(g) {
      forall h | h in rows && form(h.day).enabled
        ensures MinuteOf(form(h.day).startTime) <= MinuteOf(form(h.day).endTime)
      {
        var k :| 0 <= k < |rows| && rows[k] == h;
        assert hours[k] in hours;
        RowReversed(h.day, form);
      }
    } else {
      var g :| g in hours && Reversed(g);
      var k :| 0 <= k < |hours| && hours[k] == g;
      assert rows[k] in rows;
      RowReversed(rows[k].day, form);
    }
  }

  /** One row of the form is reversed exactly when it is enabled and its
      start is a later minute than its end. */
  lemma RowReversed(day: int, form: int -> DayInput)
    requires Canonical(form(day).startTime) && Canonical(form(day).endTime)
    ensures Reversed(DaySchedule(day, form(day).enabled, form(day).startTime, form(day).endTime)) <==>
            form(day).enabled && MinuteOf(form(day).startTime) > MinuteOf(form(day).endTime)
  {
  }
}

=== FILE: order_board.dfy ===
/** Read-only views of the working order list: the status statistics, the
    hourly order load and the in-progress sidebar section. */
module OrderBoard {
  import opened Wrappers
  import opened Orders
  import opened Sorting
  import opened Seqs

  // ---------------------------------------------------------------------
  // Statistics

  function IsStatus(st: Status): Order -> bool {
    (o: Order) => o.status == st
  }

  datatype Statistics = Statistics(
    total: nat, pending: nat, preparing: nat, ready: nat, completed: nat, cancelled: nat, withErrors: nat)

  /** The order carries at least one validation error. */
  function HasErrors(): Order -> bool {
    (o: Order) => |o.validationErrors| > 0
  }

  /** `getOrderStatistics`. Rejected orders are counted in the total only. */
  function GetOrderStatistics(orders: seq<Order>): (st: Statistics)
    ensures st.total == |orders|
    ensures && st.pending == Count(orders, IsStatus(Pending))
            && st.preparing == Count(orders, IsStatus(Preparing))
            && st.ready == Count(orders, IsStatus(Ready))
            && st.completed == Count(orders, IsStatus(Completed))
            && st.cancelled == Count(orders, IsStatus(Cancelled))
    ensures st.withErrors == Count(orders, HasErrors())
    ensures st.pending + st.preparing + st.ready + st.completed + st.cancelled
            + Count(orders, IsStatus(Rejected)) == st.total
    ensures st.withErrors <= st.total
  {
    StatusCountsPartition(orders);
    Statistics(
      |orders|,
      Count(orders, IsStatus(Pending)),
      Count(orders, IsStatus(Preparing)),
      Count(orders, IsStatus(Ready)),
      Count(orders, IsStatus(Completed)),
      Count(orders, IsStatus(Cancelled)),
      Count(orders, HasErrors()))
  }

  /** Every order has exactly one of the six statuses. */
  lemma {:induction false} StatusCountsPartition(orders: seq<Order>)
    ensures Count(orders, IsStatus(Pending)) + Count(orders, IsStatus(Preparing))
            + Count(orders, IsStatus(Ready)) + Count(orders, IsStatus(Completed))
            + Count(orders, IsStatus(Cancelled)) + Count(orders, IsStatus(Rejected)) == |orders|
  {
    if |orders| > 0 {
      StatusCountsPartition(orders[1..]);
    }
  }

  /** No orders, all counts zero. */
  lemma StatisticsOfEmpty()
    ensures GetOrderStatistics([]) == Statistics(0, 0, 0, 0, 0, 0, 0)
  {
  }

  /** Statistics of a list with one more order count it once more: in the
      total, under its own status, and among the erroneous when it has
      errors. Together with the empty case this pins every count. */
  lemma StatisticsOfAppend(orders: seq<Order>, o: Order)
    ensures var before, after := GetOrderStatistics(orders), GetOrderStatistics([o] + orders);
            && after.total == before.total + 1
            && after.pending == before.pending + (if o.status == Pending then 1 else 0)
            && after.preparing == before.preparing + (if o.status == Preparing then 1 else 0)
            && after.ready == before.ready + (if o.status == Ready then 1 else 0)
            && after.completed == before.completed + (if o.status == Completed then 1 else 0)
            && after.cancelled == before.cancelled + (if o.status == Cancelled then 1 else 0)
            && after.withErrors == before.withErrors + (if |o.validationErrors| > 0 then 1 else 0)
  {
    assert ([o] + orders)[1..] == orders;
  }

  // ---------------------------------------------------------------------
  // Hourly load

  const OneHourMs := 60 * 60 * 1000

  datatype HourlyLoad = HourlyLoad(count: nat, limit: nat, exceeded: bool)

  /** Created strictly after `now - 1 hour`. */
  function CreatedWithinHour(nowMs: int): Order -> bool {
    (o: Order) => o.createdAt > nowMs - OneHourMs
  }

  /** `checkHourlyOrderLimit`: orders created in the last hour, and whether
      they reach the limit of 50. */
  function CheckHourlyOrderLimit(orders: seq<Order>, nowMs: int): (h: HourlyLoad)
    ensures h.limit == MaxOrdersPerHour && h.count <= |orders|
    ensures h.exceeded <==> h.count >= MaxOrdersPerHour
    ensures forall o :: o in orders && o.createdAt <= nowMs - OneHourMs ==> o !in Filter(orders, CreatedWithinHour(nowMs))
    ensures h.count == Count(orders, CreatedWithinHour(nowMs))
  {
    var c := Count(orders, CreatedWithinHour(nowMs));
    HourlyLoad(c, MaxOrdersPerHour, c >= MaxOrdersPerHour)
  }

  /** One more order raises the hourly count exactly when it was created
      within the last hour; with no orders the count is zero. */
  lemma HourlyCountOfAppend(orders: seq<Order>, o: Order, nowMs: int)
    ensures CheckHourlyOrderLimit([], nowMs).count == 0
    ensures CheckHourlyOrderLimit([o] + orders, nowMs).count
            == CheckHourlyOrderLimit(orders, nowMs).count + (if o.createdAt > nowMs - OneHourMs then 1 else 0)
  {
    assert ([o] + orders)[1..] == orders;
  }

  /** As time passes with no new orders, the hourly count can only fall. */
  lemma HourlyCountFallsOverTime(orders: seq<Order>, earlier: int, later: int)
    requires earlier <= later
    ensures CheckHourlyOrderLimit(orders, later).count <= CheckHourlyOrderLimit(orders, earlier).count
  {
    FilterTwice(orders, CreatedWithinHour(later), CreatedWithinHour(earlier));
  }

  /** An order created exactly one hour ago no longer counts; one created a
      millisecond later still does. */
  lemma HourlyWindowBoundary(o: Order)
    ensures !CreatedWithinHour(o.createdAt + OneHourMs)(o)
    ensures CreatedWithinHour(o.createdAt + OneHourMs - 1)(o)
  {
  }

  // ---------------------------------------------------------------------
  // The in-progress section

  function InProgress(): Order -> bool {
    (o: Order) => o.status == Preparing || o.status == Ready
  }

  /** The time the section sorts by: a ready order's completion time (its
      creation time when unset), otherwise its creation time. */
  function ShownTime(o: Order): int {
    if o.status == Ready then o.readyCompletedAt.GetOr(o.createdAt) else o.createdAt
  }

  /** The comparator of `updatePreparingSection`, as written. */
  function SectionCompare(a: Order, b: Order): int {
    if a.status == Preparing && b.status == Ready then -1
    else if a.status == Ready && b.status == Preparing then 1
    else ShownTime(b) - ShownTime(a)
  }

  function Group(o: Order): nat {
    if o.status == Preparing then 0 else 1
  }

  /** Preparing orders first, then newest first. */
  predicate SectionLe(a: Order, b: Order) {
    Group(a) < Group(b) || (Group(a) == Group(b) && ShownTime(a) >= ShownTime(b))
  }

  /** On in-progress orders, `SectionLe` is exactly "the comparator does not
      put `a` after `b`". */
  lemma SectionLeIsComparator(a: Order, b: Order)
    requires InProgress()(a) && InProgress()(b)
    ensures SectionLe(a, b) <==> SectionCompare(a, b) <= 0
  {
  }

  lemma SectionLeTotalPreorder()
    ensures TotalPreorder(SectionLe)
  {
  }

  /** `updatePreparingSection`: the in-progress orders, stably sorted. */
  function PreparingSection(orders: seq<Order>): (r: seq<Order>)
    ensures multiset(r) == multiset(Filter(orders, InProgress()))
    ensures forall o :: o in r <==> o in orders && (o.status == Preparing || o.status == Ready)
  {
    var f := Filter(orders, InProgress());
    var r := SortBy(f, SectionLe);
    assert forall o :: o in r <==> o in multiset(r);
    assert forall o :: o in f <==> o in multiset(f);
    r
  }

  /** In the section every preparing order comes before every ready order,
      and within each group newer orders come first. */
  lemma PreparingSectionOrder(orders: seq<Order>)
    ensures var r := PreparingSection(orders);
            && (forall i, j :: 0 <= i < j < |r| && r[j].status == Preparing ==> r[i].status == Preparing)
            && (forall i, j :: 0 <= i < j < |r| && r[i].status == r[j].status ==> ShownTime(r[i]) >= ShownTime(r[j]))
  {
    SectionLeTotalPreorder();
    SortBySorted(Filter(orders, InProgress()), SectionLe);
    var r := PreparingSection(orders);
    forall i, j | 0 <= i < j < |r| && r[j].status == Preparing
      ensures r[i].status == Preparing
    {
      assert SectionLe(r[i], r[j]);
    }
  }
}

=== FILE: order_history.dfy ===
/** The order-history page: the date-range search, the date-range repair,
    the status filter, the summary figures, the newest-first listing and the
    completion time shown in an order's details. Instants are milliseconds
    since the epoch; `offsetMs` turns one into local time (a fixed zone
    offset, without daylight saving). */
module OrderHistory {
  import opened Wrappers
  import opened Text
  import opened Calendar
  import opened Orders
  import opened Sorting
  import opened Seqs
  import Lifecycle
  import opened OrderBoard

  const DayMs := 24 * 60 * 60 * 1000

  /** The local day a local instant falls on, counted from the local epoch. */
  function DayIndex(t: int): int {
    t / DayMs
  }

  /** `setHours(0, 0, 0, 0)`: the first millisecond of the day. */
  function StartOfDay(t: int): (r: int)
    ensures r <= t < r + DayMs
    ensures r % DayMs == 0
  {
    DayIndex(t) * DayMs
  }

  /** `setHours(23, 59, 59, 999)`: the last millisecond of the day. */
  function EndOfDay(t: int): (r: int)
    ensures r - DayMs < t <= r
    ensures (r + 1) % DayMs == 0
  {
    DayIndex(t) * DayMs + DayMs - 1
  }

  /** `DateUtils.isInRange(date, start, end)` on local instants: the date's
      midnight lies between the start's midnight and the end's last
      millisecond. */
  predicate IsInRange(date: int, start: int, end: int) {
    StartOfDay(start) <= StartOfDay(date) <= EndOfDay(end)
  }

  /** The range test compares whole days and includes both end days. */
  lemma IsInRangeWholeDays(date: int, start: int, end: int)
    ensures IsInRange(date, start, end) <==> DayIndex(start) <= DayIndex(date) <= DayIndex(end)
  {
  }

  /** Every instant of the start day and of the end day is in range, and
      the instants just outside those days are not. */
  lemma RangeIsInclusive(start: int, end: int)
    requires DayIndex(start) <= DayIndex(end)
    ensures IsInRange(StartOfDay(start), start, end) && IsInRange(EndOfDay(end), start, end)
    ensures !IsInRange(StartOfDay(start) - 1, start, end)
    ensures !IsInRange(EndOfDay(end) + 1, start, end)
  {
    var s, e := DayIndex(start), DayIndex(end);
    DayOf(s, 0);
    DayOf(e, DayMs - 1);
    DayOf(s - 1, DayMs - 1);
    DayOf(e + 1, 0);
    IsInRangeWholeDays(StartOfDay(start), start, end);
    IsInRangeWholeDays(EndOfDay(end), start, end);
    IsInRangeWholeDays(StartOfDay(start) - 1, start, end);
    IsInRangeWholeDays(EndOfDay(end) + 1, start, end);
  }

  /** The instant `r` milliseconds into day `k` lies on day `k`. */
  lemma DayOf(k: int, r: int)
    requires 0 <= r < DayMs
    ensures DayIndex(k * DayMs + r) == k
  {
  }

  // ---------------------------------------------------------------------
  // The date inputs

  /** The two date inputs, `""` when empty, otherwise `YYYY-MM-DD`. */
  datatype DateRange = DateRange(start: string, end: string)

  datatype RangeCheck = RangeCheck(range: DateRange, error: bool)

  /** `validateDateRange`: a start later than the end (as strings) is
      reported and the end is moved to the start. */
  function ValidateDateRange(r: DateRange): (c: RangeCheck)
    ensures c.range.start == r.start
    ensures c.error <==> r.start != "" && r.end != "" && LexLess(r.end, r.start)
    ensures c.error ==> c.range.end == r.start
    ensures !c.error ==> c.range == r
    ensures c.range.start == "" || c.range.end == "" || LexLe(c.range.start, c.range.end)
  {
    LexTotal(r.start, r.end);
    if r.start != "" && r.end != "" && LexLess(r.end, r.start) then RangeCheck(DateRange(r.start, r.start), true)
    else RangeCheck(r, false)
  }

  /** A repaired range passes the check unchanged. */
  lemma ValidateIdempotent(r: DateRange)
    ensures var c := ValidateDateRange(r);
            ValidateDateRange(c.range) == RangeCheck(c.range, false)
  {
    var c := ValidateDateRange(r);
    if c.error {
      LexIrreflexive(r.start);
    } else {
      LexAsymmetric(r.start, r.end);
    }
  }

  /** On dates the inputs produce, the check fires exactly when the start
      date is after the end date, and afterwards the start is not after the
      end. */
  lemma ValidateFormattedDates(a: CivilDate, b: CivilDate)
    requires ValidDate(a) && ValidDate(b) && FourDigitYear(a) && FourDigitYear(b)
    ensures var c := ValidateDateRange(DateRange(FormatDate(a), FormatDate(b)));
            && (c.error <==> DateLess(b, a))
            && c.range.end == FormatDate(if DateLess(b, a) then a else b)
  {
    FormatDateOrder(b, a);
    assert |FormatDate(a)| > 0 && |FormatDate(b)| > 0;
  }

  /** `searchOrders`: with both dates chosen, the history orders created on
      a day of the range, in history order; with either date missing only a
      warning, `None`. */
  function SearchOrders(history: seq<Order>, offsetMs: int, start: Option<int>, end: Option<int>): (r: Option<seq<Order>>)
    ensures r.None? <==> start.None? || end.None?
    ensures r.Some? ==> |r.value| <= |history|
    ensures r.Some? ==> forall o :: o in r.value <==>
              o in history && DayIndex(start.value) <= DayIndex(o.createdAt + offsetMs) <= DayIndex(end.value)
  {
    if start.None? || end.None? then None
    else
      var keep := (o: Order) => IsInRange(o.createdAt + offsetMs, start.value, end.value);
      assert forall o :: keep(o) <==> DayIndex(start.value) <= DayIndex(o.createdAt + offsetMs) <= DayIndex(end.value) by {
        forall o: Order
          ensures keep(o) <==> DayIndex(start.value) <= DayIndex(o.createdAt + offsetMs) <= DayIndex(end.value)
        {
          IsInRangeWholeDays(o.createdAt + offsetMs, start.value, end.value);
        }
      }
      Some(Filter(history, keep))
  }

  // ---------------------------------------------------------------------
  // Status filter

  /** The status select: `'all'` or one status. */
  datatype StatusFilter = AllStatuses | OnlyStatus(status: Status)

  function Matches(f: StatusFilter): Order -> bool {
    (o: Order) => f.AllStatuses? || o.status == f.status
  }

  /** The orders a filter keeps: all of them for `'all'`, otherwise exactly
      those with the chosen status. */
  function FilterByStatus(orders: seq<Order>, f: StatusFilter): (r: seq<Order>)
    ensures f.AllStatuses? ==> r == orders
    ensures f.OnlyStatus? ==> forall o :: o in r <==> o in orders && o.status == f.status
    ensures |r| <= |orders|
  {
    if f.AllStatuses? then orders else Filter(orders, Matches(f))
  }

  /** `displayOrders(orders)` under the current filter: an empty list shows
      the empty state; otherwise the cards of the orders the current filter
      keeps. */
  function DisplayOrders(orders: seq<Order>, current: StatusFilter): seq<Order> {
    if |orders| == 0 then [] else FilterByStatus(orders, current)
  }

  /** `filterByStatus`: the filter becomes current and the searched orders
      are shown through it; a status filter is applied once here and once
      more in `displayOrders`. */
  function ShownOrders(searched: seq<Order>, f: StatusFilter): seq<Order> {
    if f.AllStatuses? then DisplayOrders(searched, f) else DisplayOrders(FilterByStatus(searched, f), f)
  }

  /** Filtering twice shows exactly the orders filtering once keeps. */
  lemma ShownIsFilteredOnce(searched: seq<Order>, f: StatusFilter)
    ensures ShownOrders(searched, f) == FilterByStatus(searched, f)
  {
    if f.OnlyStatus? {
      FilterTwice(searched, Matches(f), Matches(f));
      if |FilterByStatus(searched, f)| == 0 {
        assert FilterByStatus(searched, f) == [];
      }
    }
  }

  // ---------------------------------------------------------------------
  // Summary figures

  datatype HistoryStats = HistoryStats(completed: nat, cancelled: nat, revenue: int)

  function IsCompleted(): Order -> bool {
    (o: Order) => o.status == Completed
  }

  /** Cancelled and rejected orders are both counted as cancelled. */
  function IsCancelledOrRejected(): Order -> bool {
    (o: Order) => o.status == Cancelled || o.status == Rejected
  }

  function Amount(o: Order): int {
    o.totalAmount
  }

  /** `updateStatistics`: completed orders, cancelled-or-rejected orders, and
      the revenue of the completed orders. */
  function UpdateStatistics(orders: seq<Order>): (st: HistoryStats)
    ensures st.completed + st.cancelled <= |orders|
    ensures st.cancelled == Count(orders, IsStatus(Cancelled)) + Count(orders, IsStatus(Rejected))
    ensures st.revenue == Sum(Filter(orders, IsCompleted()), Amount)
  {
    CancelledSplit(orders);
    DisjointCounts(orders);
    HistoryStats(Count(orders, IsCompleted()), Count(orders, IsCancelledOrRejected()), Sum(Filter(orders, IsCompleted()), Amount))
  }

  function One(o: Order): int {
    1
  }

  lemma CancelledSplit(orders: seq<Order>)
    ensures Count(orders, IsCancelledOrRejected()) == Count(orders, IsStatus(Cancelled)) + Count(orders, IsStatus(Rejected))
  {
    SumFilterSplit(orders, IsCancelledOrRejected(), IsStatus(Cancelled), IsStatus(Rejected), One);
    OnesCount(Filter(orders, IsCancelledOrRejected()));
    OnesCount(Filter(orders, IsStatus(Cancelled)));
    OnesCount(Filter(orders, IsStatus(Rejected)));
  }

  lemma {:induction false} OnesCount(s: seq<Order>)
    ensures Sum(s, One) == |s|
  {
    if |s| > 0 {
      OnesCount(s[1..]);
    }
  }

  /** No order is both completed and cancelled. */
  lemma {:induction false} DisjointCounts(orders: seq<Order>)
    ensures Count(orders, IsCompleted()) + Count(orders, IsCancelledOrRejected()) <= |orders|
  {
    if |orders| > 0 {
      DisjointCounts(orders[1..]);
    }
  }

  /** The figures of two lists together are the sums of their figures. */
  lemma StatisticsSplit(a: seq<Order>, b: seq<Order>)
    ensures var sa, sb, s := UpdateStatistics(a), UpdateStatistics(b), UpdateStatistics(a + b);
            && s.completed == sa.completed + sb.completed
            && s.cancelled == sa.cancelled + sb.cancelled
            && s.revenue == sa.revenue + sb.revenue
  {
    FilterAppend(a, b, IsCompleted());
    FilterAppend(a, b, IsCancelledOrRejected());
    FilterAppend(a, b, IsStatus(Cancelled));
    FilterAppend(a, b, IsStatus(Rejected));
    SumAppend(Filter(a, IsCompleted()), Filter(b, IsCompleted()), Amount);
  }

  /** One order's figures: a completed order adds one completion and its
      amount; a cancelled or rejected one adds one cancellation and nothing
      to the revenue; any other adds nothing. */
  lemma StatisticsOfOne(o: Order)
    ensures var s := UpdateStatistics([o]);
            && s.completed == (if o.status == Completed then 1 else 0)
            && s.cancelled == (if o.status == Cancelled || o.status == Rejected then 1 else 0)
            && s.revenue == (if o.status == Completed then o.totalAmount else 0)
  {
    FilterSingleton(o, IsCompleted());
    FilterSingleton(o, IsCancelledOrRejected());
    FilterSingleton(o, IsStatus(Cancelled));
    FilterSingleton(o, IsStatus(Rejected));
    assert Sum([o], Amount) == o.totalAmount;
  }

  /** With non-negative amounts the revenue is non-negative. */
  lemma RevenueNonNegative(orders: seq<Order>)
    requires forall o :: o in orders ==> o.totalAmount >= 0
    ensures UpdateStatistics(orders).revenue >= 0
  {
    SumNonNegative(Filter(orders, IsCompleted()), Amount);
  }

  // ---------------------------------------------------------------------
  // Listing and details

  /** The history comparator `new Date(b.createdAt) - new Date(a.createdAt)`. */
  predicate NewerFirst(a: Order, b: Order) {
    b.createdAt - a.createdAt <= 0
  }

  /** `loadOrderHistory`: the saved history followed by the demonstration
      orders, sorted newest first; the demonstration orders are a parameter. */
  function LoadOrderHistory(saved: seq<Order>, demo: seq<Order>): (r: seq<Order>)
    ensures multiset(r) == multiset(saved + demo)
    ensures forall i, j :: 0 <= i < j < |r| ==> r[i].createdAt >= r[j].createdAt
  {
    assert TotalPreorder(NewerFirst);
    SortBySorted(saved + demo, NewerFirst);
    SortBy(saved + demo, NewerFirst)
  }

  /** Loading is stable: orders created at the same instant as `c` come out
      in the order saved-then-demonstration puts them. */
  lemma LoadKeepsTies(saved: seq<Order>, demo: seq<Order>, c: Order)
    ensures forall o :: TiedWith(NewerFirst, c)(o) <==> o.createdAt == c.createdAt
    ensures Filter(LoadOrderHistory(saved, demo), TiedWith(NewerFirst, c))
            == Filter(saved + demo, TiedWith(NewerFirst, c))
  {
    assert TotalPreorder(NewerFirst);
    SortByStable(saved + demo, NewerFirst, c);
  }

  /** Loading a history that is already newest first, with no
      demonstration orders, returns it unchanged. */
  lemma LoadSortedHistory(saved: seq<Order>)
    requires forall i, j :: 0 <= i < j < |saved| ==> saved[i].createdAt >= saved[j].createdAt
    ensures LoadOrderHistory(saved, []) == saved
  {
    assert saved + [] == saved;
    SortedIsFixed(saved);
  }

  lemma {:induction false} SortedIsFixed(s: seq<Order>)
    requires forall i, j :: 0 <= i < j < |s| ==> s[i].createdAt >= s[j].createdAt
    ensures SortBy(s, NewerFirst) == s
  {
    if |s| > 0 {
      var rest := s[1..];
      assert forall i :: 0 <= i < |rest| ==> rest[i] == s[i + 1];
      SortedIsFixed(rest);
      assert s == [s[0]] + rest;
      assert SortBy(s, NewerFirst) == Insert(s[0], rest, NewerFirst);
      if |s| > 1 {
        assert NewerFirst(s[0], s[1]);
      }
    }
  }

  /** The time `showOrderDetail` shows as completed or cancelled:
      `completedAt`, else `cancelledAt`, else `rejectedAt`; `None` for `'-'`. */
  function CompletionTime(o: Order): (t: Option<int>)
    ensures t.None? <==> o.completedAt.None? && o.cancelledAt.None? && o.rejectedAt.None?
    ensures t.Some? ==> t == o.completedAt || t == o.cancelledAt || t == o.rejectedAt
    ensures o.completedAt.Some? ==> t == o.completedAt
    ensures o.completedAt.None? && o.cancelledAt.Some? ==> t == o.cancelledAt
  {
    if o.completedAt.Some? then o.completedAt
    else if o.cancelledAt.Some? then o.cancelledAt
    else o.rejectedAt
  }

  /** The stamp an order ends with: a completed order's `completedAt`, a
      cancelled order's `cancelledAt`, a rejected order's `rejectedAt`. */
  function FinalStamp(o: Order): Option<int> {
    match o.status
    case Completed => o.completedAt
    case Cancelled => o.cancelledAt
    case Rejected => o.rejectedAt
    case _ => None
  }

  /** When a finished order carries the stamp of its own final status and
      none of the stamps shown before it, the details show exactly that
      stamp. */
  lemma CompletionTimeIsFinalStamp(o: Order)
    requires FinalStamp(o).Some?
    requires o.status != Completed ==> o.completedAt.None?
    requires o.status != Cancelled ==> o.cancelledAt.None?
    ensures CompletionTime(o) == FinalStamp(o)
  {
  }

  /** `showOrderDetail(orderId)`: the first history order with that id;
      `None` when there is none (an error notice). */
  function ShowOrderDetail(history: seq<Order>, id: string): (r: Option<Order>)
    ensures r.None? <==> forall o :: o in history ==> o.id != id
    ensures r.Some? ==> r.value in history && r.value.id == id
    ensures r.Some? ==> exists k :: 0 <= k < |history| && history[k] == r.value
                                    && forall j :: 0 <= j < k ==> history[j].id != id
  {
    var i := Lifecycle.FindOrder(history, id);
    if i < |history| then Some(history[i]) else None
  }
}

=== FILE: orders.dfy ===
/** Orders as the order-management screen holds them, the business rules,
    order validation and the status-transition guard. */
module Orders {
  import opened Text
  import opened Wrappers
  import opened Calendar
  import Utils

  // ---------------------------------------------------------------------
  // Data model

  datatype Status = Pending | Preparing | Ready | Completed | Cancelled | Rejected

  /** One ordered line. */
  datatype Item = Item(menuId: int, name: string, quantity: int, price: int)

  /** The customer's requests: absent, a plain string, or the structured
      form with one field per kind of request (`""` for an absent field). */
  datatype Requests =
    | NoRequests
    | RequestText(text: string)
    | RequestFields(store: string, delivery: string, extras: string)

  /** An order. Timestamps are milliseconds since the epoch (the source keeps
      ISO strings of the same instants); `None` is an unset timestamp. Text
      fields the source only tests for truthiness are `""` when absent, and
      the numeric fields `preparationTime` (minutes) and `timer` (minutes)
      are `0` when absent. `timerSeconds` is the ticking counter. */
  datatype Order = Order(
    id: string,
    orderType: string,
    customerName: string,
    customerPhone: string,
    items: seq<Item>,
    totalAmount: int,
    reservationTime: string,
    reservationDate: string,
    requests: Requests,
    status: Status,
    createdAt: int,
    updatedAt: Option<int>,
    acceptedAt: Option<int>,
    readyCompletedAt: Option<int>,
    completedAt: Option<int>,
    cancelledAt: Option<int>,
    rejectedAt: Option<int>,
    preparationTime: int,
    timer: int,
    timerSeconds: int,
    validationErrors: seq<ValidationError>)

  // ---------------------------------------------------------------------
  // Business rules

  const DefaultPreparationTime := 10
  const MinPreparationTime := 5
  const MaxPreparationTime := 60
  const TimeStep := 5

  const OperatingStart := "09:00"
  const OperatingEnd := "22:00"
  const MaxItemsPerOrder := 10
  const MaxOrdersPerHour := 50
  const MinOrderAmount := 1000
  /** Minutes. */
  const MaxTimerMinutes := 30
  /** Minutes after creation during which an order may be cancelled. */
  const CancelTimeoutMinutes := 5

  /** The takeout order type, for which reservations are refused. */
  const Takeout := "포장"

  // ---------------------------------------------------------------------
  // Operating hours

  /** `checkOperatingStatus`: the `HH:MM` of the current time lies in the
      inclusive window `"09:00"`..`"22:00"`, compared as strings. */
  function IsOperating(now: Minute): (r: bool)
    ensures r <==> 9 * 60 <= now <= 22 * 60
  {
    OperatingBounds();
    HHMMOrder(now, 9 * 60);
    HHMMOrder(22 * 60, now);
    var current := FormatHHMM(now);
    !LexLess(current, OperatingStart) && !LexLess(OperatingEnd, current)
  }

  lemma OperatingBounds()
    ensures FormatHHMM(9 * 60) == OperatingStart && FormatHHMM(22 * 60) == OperatingEnd
  {
    HHMMText(9, 0);
    HHMMText(22, 0);
  }

  // ---------------------------------------------------------------------
  // Phone numbers

  /** `/^010-\d{4}-\d{4}$/`. */
  predicate IsValidPhone(p: string) {
    && |p| == 13
    && p[..4] == "010-"
    && AllDigits(p[4..8])
    && p[8] == '-'
    && AllDigits(p[9..])
  }

  /** The mobile number `010-aaaa-bbbb`. */
  function FormatPhone(a: nat, b: nat): (p: string)
    requires a < 10000 && b < 10000
    ensures |p| == 13
  {
    assert Pow10(4) == 10000;
    "010-" + Fixed(a, 4) + "-" + Fixed(b, 4)
  }

  /** The accepted phone numbers are exactly the formatted mobile numbers. */
  lemma ValidPhoneIsFormatted(p: string)
    ensures IsValidPhone(p) <==> exists a: nat, b: nat :: a < 10000 && b < 10000 && p == FormatPhone(a, b)
  {
    assert Pow10(4) == 10000;
    if IsValidPhone(p) {
      var x, y := p[4..8], p[9..];
      ValueBound(x);
      ValueBound(y);
      var a, b := Value(x), Value(y);
      DigitsDetermined(Fixed(a, 4), x);
      DigitsDetermined(Fixed(b, 4), y);
      assert p == p[..4] + x + "-" + y;
      assert p == FormatPhone(a, b);
    }
    forall a: nat, b: nat | a < 10000 && b < 10000
      ensures IsValidPhone(FormatPhone(a, b))
    {
      var q := FormatPhone(a, b);
      assert q[4..8] == Fixed(a, 4);
      assert q[9..] == Fixed(b, 4);
    }
  }

  // ---------------------------------------------------------------------
  // Validation

  /** The six rules, in the order they are checked. */
  datatype ValidationError =
    | BelowMinimumAmount
    | TooManyItems
    | TakeoutReservation
    | PreparationOverdue
    | MissingCustomerName
    | InvalidPhone

  /** The message each rule reports. */
  function Message(e: ValidationError): string {
    match e
    case BelowMinimumAmount => "최소 주문금액 1000원 미만"
    case TooManyItems => "최대 주문 가능 메뉴 개수(10개) 초과"
    case TakeoutReservation => "포장 주문은 예약이 불가능합니다"
    case PreparationOverdue => "최대 준비시간(30분) 초과"
    case MissingCustomerName => "고객명이 없습니다"
    case InvalidPhone => "유효하지 않은 전화번호입니다"
  }

  /** Different rules report different messages. */
  lemma MessagesDistinct(e1: ValidationError, e2: ValidationError)
    ensures Message(e1) == Message(e2) <==> e1 == e2
  {
  }

  /** Position of a rule in the checking order. */
  function Rank(e: ValidationError): nat {
    match e
    case BelowMinimumAmount => 0
    case TooManyItems => 1
    case TakeoutReservation => 2
    case PreparationOverdue => 3
    case MissingCustomerName => 4
    case InvalidPhone => 5
  }

  /** What each rule objects to, stated on its own. */
  predicate Violates(o: Order, e: ValidationError) {
    match e
    case BelowMinimumAmount => o.totalAmount < MinOrderAmount
    case TooManyItems => |o.items| > MaxItemsPerOrder
    case TakeoutReservation => o.orderType == Takeout && (o.reservationTime != "" || o.reservationDate != "")
    case PreparationOverdue => o.timer > MaxTimerMinutes
    case MissingCustomerName => AllWhitespace(o.customerName)
    case InvalidPhone => o.customerPhone != "" && !IsValidPhone(o.customerPhone)
  }

  datatype Validation = Validation(isValid: bool, errors: seq<ValidationError>)

  /** The rules in checking order. */
  const RuleOrder: seq<ValidationError> :=
    [BelowMinimumAmount, TooManyItems, TakeoutReservation, PreparationOverdue, MissingCustomerName, InvalidPhone]

  /** Each rule's test as the source writes it (truthiness included). */
  predicate Fails(o: Order, e: ValidationError) {
    match e
    case BelowMinimumAmount => o.totalAmount < MinOrderAmount
    case TooManyItems => |o.items| > MaxItemsPerOrder
    case TakeoutReservation => o.orderType == Takeout && (o.reservationTime != "" || o.reservationDate != "")
    case PreparationOverdue => o.timer != 0 && o.timer > MaxTimerMinutes
    case MissingCustomerName => o.customerName == "" || |Trim(o.customerName)| == 0
    case InvalidPhone => o.customerPhone != "" && !IsValidPhone(o.customerPhone)
  }

  /** The source's tests mean what the rules say. */
  lemma FailsMeansViolates(o: Order, e: ValidationError)
    ensures Fails(o, e) <==> Violates(o, e)
  {
    assert AllWhitespace("");
  }

  predicate RanksIncrease(rules: seq<ValidationError>) {
    forall i, j :: 0 <= i < j < |rules| ==> Rank(rules[i]) < Rank(rules[j])
  }

  lemma RanksTail(rules: seq<ValidationError>)
    requires |rules| > 0
    ensures RanksIncrease(rules) ==> RanksIncrease(rules[1..])
    ensures RanksIncrease(rules) ==> forall e :: e in rules[1..] ==> Rank(rules[0]) < Rank(e)
  {
    if RanksIncrease(rules) {
      forall i, j | 0 <= i < j < |rules[1..]|
        ensures Rank(rules[1..][i]) < Rank(rules[1..][j])
      {
        assert rules[1..][i] == rules[i + 1] && rules[1..][j] == rules[j + 1];
      }
      forall e | e in rules[1..]
        ensures Rank(rules[0]) < Rank(e)
      {
        var k :| 0 <= k < |rules[1..]| && rules[1..][k] == e;
        assert rules[k + 1] == e;
      }
    }
  }

  /** The broken rules among `rules`, in the order given. */
  function Collect(o: Order, rules: seq<ValidationError>): (r: seq<ValidationError>)
    ensures forall e :: e in r <==> e in rules && Fails(o, e)
    ensures RanksIncrease(rules) ==> RanksIncrease(r)
  {
    if |rules| == 0 then []
    else
      var rest := Collect(o, rules[1..]);
      RanksTail(rules);
      assert forall e :: e in rules <==> e == rules[0] || e in rules[1..];
      if Fails(o, rules[0]) then [rules[0]] + rest else rest
  }

  /** `validateOrderConditions`: checks every rule and reports each broken
      one, in rule order; the order is valid exactly when none is broken. */
  function Validate(o: Order): (v: Validation)
    ensures forall e :: e in v.errors <==> Violates(o, e)
    ensures RanksIncrease(v.errors)
    ensures v.isValid <==> |v.errors| == 0
    ensures v.isValid <==> forall e :: !Violates(o, e)
  {
    RuleOrderComplete();
    var errors := Collect(o, RuleOrder);
    CollectedViolations(o, errors);
    assert |errors| > 0 ==> errors[0] in errors;
    Validation(|errors| == 0, errors)
  }

  /** Every rule is checked, each exactly once and in rank order. */
  lemma RuleOrderComplete()
    ensures forall e :: e in RuleOrder
    ensures RanksIncrease(RuleOrder)
  {
    forall e ensures e in RuleOrder {
      assert RuleOrder[Rank(e)] == e;
    }
    forall i, j | 0 <= i < j < |RuleOrder|
      ensures Rank(RuleOrder[i]) < Rank(RuleOrder[j])
    {
      assert Rank(RuleOrder[i]) == i && Rank(RuleOrder[j]) == j;
    }
  }

  lemma CollectedViolations(o: Order, errors: seq<ValidationError>)
    requires forall e :: e in errors <==> e in RuleOrder && Fails(o, e)
    requires forall e :: e in RuleOrder
    ensures forall e :: e in errors <==> Violates(o, e)
  {
    forall e ensures e in errors <==> Violates(o, e) {
      FailsMeansViolates(o, e);
    }
  }

  /** The messages `validateOrderConditions` returns. */
  function ErrorMessages(v: Validation): (ms: seq<string>)
    ensures |ms| == |v.errors|
    ensures forall i :: 0 <= i < |ms| ==> ms[i] == Message(v.errors[i])
  {
    seq(|v.errors|, i requires 0 <= i < |v.errors| => Message(v.errors[i]))
  }

  /** A missing, empty or blank customer name is always reported, and the
      phone rule never fires for a missing phone. */
  lemma ValidationOfContact(o: Order)
    ensures AllWhitespace(o.customerName) ==> MissingCustomerName in Validate(o).errors
    ensures o.customerPhone == "" ==> InvalidPhone !in Validate(o).errors
    ensures IsValidPhone(o.customerPhone) ==> InvalidPhone !in Validate(o).errors
  {
  }

  // ---------------------------------------------------------------------
  // Transition guard

  datatype Refusal = CancelWindowPassed | AlreadyFinished | NotPreparing | NotReady

  datatype Guard = Allowed | Refused(reason: Refusal)

  /** `canChangeOrderStatus` at time `now` (ms): cancelling is refused more
      than five minutes after creation, and for ready or completed orders;
      `ready` needs a preparing order, `completed` a ready one; any other
      target is allowed. */
  function CanChangeStatus(o: Order, target: Status, now: int): (g: Guard)
    ensures target !in {Cancelled, Ready, Completed} ==> g == Allowed
    ensures target == Cancelled ==>
              (g == Allowed <==> now - o.createdAt <= CancelTimeoutMinutes * 60000 && o.status !in {Ready, Completed})
    ensures target == Ready ==> (g == Allowed <==> o.status == Preparing)
    ensures target == Completed ==> (g == Allowed <==> o.status == Ready)
  {
    match target
    case Cancelled =>
      if now - o.createdAt > CancelTimeoutMinutes * 60000 then Refused(CancelWindowPassed)
      else if o.status == Ready || o.status == Completed then Refused(AlreadyFinished)
      else Allowed
    case Ready => if o.status != Preparing then Refused(NotPreparing) else Allowed
    case Completed => if o.status != Ready then Refused(NotReady) else Allowed
    case _ => Allowed
  }

  /** Cancelling is still allowed at exactly five minutes and refused one
      millisecond later; the time check comes before the status check. */
  lemma CancelWindowBoundary(o: Order)
    ensures o.status !in {Ready, Completed} ==> CanChangeStatus(o, Cancelled, o.createdAt + 300000) == Allowed
    ensures CanChangeStatus(o, Cancelled, o.createdAt + 300001) == Refused(CancelWindowPassed)
  {
  }

  /** Following the guard, the forward path is
      preparing -> ready -> completed, and finished orders cannot be
      cancelled. */
  lemma GuardedForwardPath(o: Order, now: int)
    ensures CanChangeStatus(o, Ready, now) == Allowed ==> o.status == Preparing
    ensures CanChangeStatus(o, Completed, now) == Allowed ==> o.status == Ready
    ensures o.status in {Ready, Completed} ==> CanChangeStatus(o, Cancelled, now).Refused?
  {
  }
}

=== FILE: print_helper.dfy ===
/** The receipt helper: phone masking, the daily order number, the expected
    completion time, the receipt record and the checks `autoPrintReceipt`
    makes before it prints. The stored order history, the local calendar day
    of an instant and the printer's answer are parameters. */
module PrintHelper {
  import opened Wrappers
  import opened Text
  import opened Orders
  import opened Sorting
  import opened Seqs
  import Lifecycle

  // ---------------------------------------------------------------------
  // Phone masking

  const HiddenPhone := "***-****-****"

  /** `maskPhoneNumber`: hyphens are dropped; an 11-digit number keeps its
      first 3 and last 4 characters, a 10-digit number its first 2 and last
      4; anything else, the empty phone included, is hidden completely. */
  function MaskPhoneNumber(phone: string): (r: string)
    ensures var d := RemoveAll(phone, '-');
            && (|d| == 11 ==> r == d[..3] + "-****-" + d[|d| - 4..])
            && (|d| == 10 ==> r == d[..2] + "-****-" + d[|d| - 4..])
            && (|d| != 10 && |d| != 11 ==> r == HiddenPhone)
    ensures phone == "" ==> r == HiddenPhone
  {
    if phone == "" then HiddenPhone
    else
      var d := RemoveAll(phone, '-');
      if |d| == 11 then d[..3] + "-****-" + d[7..]
      else if |d| == 10 then d[..2] + "-****-" + d[6..]
      else HiddenPhone
  }

  /** The middle digits never reach the receipt: two numbers that agree
      outside them mask alike. */
  lemma MaskHidesMiddle(p: string, q: string)
    requires var dp, dq := RemoveAll(p, '-'), RemoveAll(q, '-');
             && |dp| == |dq| && (|dp| == 10 || |dp| == 11)
             && dp[..|dp| - 8] == dq[..|dq| - 8]
             && dp[|dp| - 4..] == dq[|dq| - 4..]
    ensures MaskPhoneNumber(p) == MaskPhoneNumber(q)
  {
  }

  /** A valid mobile number `010-aaaa-bbbb` prints as `010-****-bbbb`. */
  lemma MaskFormattedPhone(a: nat, b: nat)
    requires a < 10000 && b < 10000
    ensures MaskPhoneNumber(FormatPhone(a, b)) == "010-****-" + Fixed(b, 4)
  {
    assert Pow10(4) == 10000;
    var fa, fb := Fixed(a, 4), Fixed(b, 4);
    assert '-' !in fa by {
      assert forall i :: 0 <= i < |fa| ==> IsDigit(fa[i]);
    }
    assert '-' !in fb by {
      assert forall i :: 0 <= i < |fb| ==> IsDigit(fb[i]);
    }
    assert '-' !in "010";
    assert FormatPhone(a, b) == "010" + "-" + fa + "-" + fb;
    MaskThreeGroups("010", fa, fb);
  }

  /** Three dash-free groups of 3, 4 and 4 characters mask to the first and
      the last group. */
  lemma MaskThreeGroups(x: string, y: string, z: string)
    requires |x| == 3 && |y| == 4 && |z| == 4
    requires '-' !in x && '-' !in y && '-' !in z
    ensures MaskPhoneNumber(x + "-" + y + "-" + z) == x + "-****-" + z
  {
    var dash := RemoveAll("-", '-');
    assert dash == "" by {
      assert "-"[1..] == "";
    }
    var head, tail := x + "-", y + "-";
    RemoveAllAppend(x, "-", '-');
    assert RemoveAll(head, '-') == x;
    RemoveAllAppend(y, "-", '-');
    assert RemoveAll(tail, '-') == y;
    RemoveAllAppend(head, tail, '-');
    RemoveAllAppend(head + tail, z, '-');
    var phone := x + "-" + y + "-" + z;
    assert phone == head + tail + z;
    var d := RemoveAll(phone, '-');
    assert d == x + y + z;
    assert d[..3] == x;
    assert d[|d| - 4..] == z;
  }

  // ---------------------------------------------------------------------
  // The daily order number

  /** Created on the same local day as `nowMs`; `dayOf` maps an instant to
      its local calendar day. */
  function CreatedToday(dayOf: int -> int, nowMs: int): Order -> bool {
    (o: Order) => dayOf(o.createdAt) == dayOf(nowMs)
  }

  /** The comparator `dateA - dateB`: earlier creation first. */
  predicate CreatedNoLater(a: Order, b: Order) {
    a.createdAt <= b.createdAt
  }

  lemma CreatedNoLaterTotalPreorder()
    ensures TotalPreorder(CreatedNoLater)
  {
  }

  /** `getTodayOrderNumber`: the 1-based position of the order among the
      day's stored orders sorted by creation time, or one past their number
      when it is not among them. */
  function TodayOrderNumber(order: Order, history: seq<Order>, dayOf: int -> int, nowMs: int): (n: nat)
    ensures var todays := Filter(history, CreatedToday(dayOf, nowMs));
            && 1 <= n <= |todays| + 1
            && (n == |todays| + 1 <==> forall o :: o in todays ==> o.id != order.id)
  {
    var todays := Filter(history, CreatedToday(dayOf, nowMs));
    var sorted := SortBy(todays, CreatedNoLater);
    assert forall o :: o in sorted <==> o in multiset(sorted);
    assert forall o :: o in todays <==> o in multiset(todays);
    Lifecycle.FindOrder(sorted, order.id) + 1
  }

  /** Created strictly before `t`. */
  function CreatedBefore(t: int): Order -> bool {
    (o: Order) => o.createdAt < t
  }

  /** In a list sorted by creation time, the orders created before the one at
      position `i` are exactly those in front of it, provided none in front
      shares its creation time. */
  lemma SortedFrontIsEarlier(sorted: seq<Order>, i: nat)
    requires SortedBy(sorted, CreatedNoLater) && i < |sorted|
    requires forall j :: 0 <= j < i ==> sorted[j].createdAt != sorted[i].createdAt
    ensures Filter(sorted, CreatedBefore(sorted[i].createdAt)) == sorted[..i]
  {
    var t := sorted[i].createdAt;
    forall j | 0 <= j < i
      ensures CreatedBefore(t)(sorted[j])
    {
      assert CreatedNoLater(sorted[j], sorted[i]);
    }
    forall j | i <= j < |sorted|
      ensures !CreatedBefore(t)(sorted[j])
    {
      if j > i {
        assert CreatedNoLater(sorted[i], sorted[j]);
      }
    }
    FilterPrefix(sorted, CreatedBefore(t), i);
  }

  /** The position of `x` in a list sorted by creation time is the number
      of entries created before it, when ids and creation times are
      distinct. */
  lemma PositionCountsEarlier(todays: seq<Order>, x: Order)
    requires x in todays
    requires forall a, b :: a in todays && b in todays && a.id == b.id ==> a == b
    requires forall a, b :: a in todays && b in todays && a.createdAt == b.createdAt ==> a == b
    ensures Lifecycle.FindOrder(SortBy(todays, CreatedNoLater), x.id) == Count(todays, CreatedBefore(x.createdAt))
  {
    var sorted := SortBy(todays, CreatedNoLater);
    CreatedNoLaterTotalPreorder();
    SortBySorted(todays, CreatedNoLater);
    var i := FoundInSorted(todays, sorted, x);
    SortedFrontIsEarlier(sorted, i);
    CountFromSortedPrefix(sorted, todays, x.createdAt, i);
  }

  /** In a reordering of a list with distinct ids, `x` is found by its id. */
  lemma FoundById(todays: seq<Order>, sorted: seq<Order>, x: Order) returns (i: nat)
    requires x in todays && multiset(sorted) == multiset(todays)
    requires forall a, b :: a in todays && b in todays && a.id == b.id ==> a == b
    ensures i == Lifecycle.FindOrder(sorted, x.id) && i < |sorted| && sorted[i] == x
  {
    assert forall o :: o in sorted <==> o in multiset(sorted);
    assert forall o :: o in todays <==> o in multiset(todays);
    assert x in sorted;
    i := Lifecycle.FindOrder(sorted, x.id);
    assert i < |sorted| by {
      var k :| 0 <= k < |sorted| && sorted[k] == x;
      assert sorted[k].id == x.id;
    }
    assert sorted[i] == x by {
      assert sorted[i] in todays;
    }
  }

  /** In a reordering of a list with distinct ids and creation times, `x`
      is found by its id, and nothing in front of it shares its creation
      time. */
  lemma FoundInSorted(todays: seq<Order>, sorted: seq<Order>, x: Order) returns (i: nat)
    requires x in todays && multiset(sorted) == multiset(todays)
    requires forall a, b :: a in todays && b in todays && a.id == b.id ==> a == b
    requires forall a, b :: a in todays && b in todays && a.createdAt == b.createdAt ==> a == b
    ensures i == Lifecycle.FindOrder(sorted, x.id) && i < |sorted| && sorted[i] == x
    ensures forall j :: 0 <= j < i ==> sorted[j].createdAt != sorted[i].createdAt
  {
    i := FoundById(todays, sorted, x);
    assert forall o :: o in sorted <==> o in multiset(sorted);
    assert forall o :: o in todays <==> o in multiset(todays);
    forall j | 0 <= j < i
      ensures sorted[j].createdAt != x.createdAt
    {
      assert sorted[j] in todays && sorted[j].id != x.id;
    }
  }

  /** The count of earlier orders survives the sort. */
  lemma CountFromSortedPrefix(sorted: seq<Order>, todays: seq<Order>, t: int, i: nat)
    requires multiset(sorted) == multiset(todays) && i <= |sorted|
    requires Filter(sorted, CreatedBefore(t)) == sorted[..i]
    ensures Count(todays, CreatedBefore(t)) == i
  {
    CountPermutation(sorted, todays, CreatedBefore(t));
  }

  /** With distinct ids and creation times, the order's number is one more
      than the number of the day's orders created before it. */
  lemma TodayNumberCountsEarlier(order: Order, history: seq<Order>, dayOf: int -> int, nowMs: int, x: Order)
    requires var todays := Filter(history, CreatedToday(dayOf, nowMs));
             && x in todays && x.id == order.id
             && (forall a, b :: a in todays && b in todays && a.id == b.id ==> a == b)
             && (forall a, b :: a in todays && b in todays && a.createdAt == b.createdAt ==> a == b)
    ensures var todays := Filter(history, CreatedToday(dayOf, nowMs));
            TodayOrderNumber(order, history, dayOf, nowMs) == 1 + Count(todays, CreatedBefore(x.createdAt))
  {
    PositionCountsEarlier(Filter(history, CreatedToday(dayOf, nowMs)), x);
  }

  /** Created no later than `t`. */
  function CreatedBy(t: int): Order -> bool {
    (o: Order) => o.createdAt <= t
  }

  /** With distinct ids but creation times that may coincide, the order's
      number is more than the number of the day's orders created before it
      and at most the number created no later than it. */
  lemma TodayNumberWithTies(order: Order, history: seq<Order>, dayOf: int -> int, nowMs: int, x: Order)
    requires var todays := Filter(history, CreatedToday(dayOf, nowMs));
             && x in todays && x.id == order.id
             && (forall a, b :: a in todays && b in todays && a.id == b.id ==> a == b)
    ensures var todays := Filter(history, CreatedToday(dayOf, nowMs));
            var n := TodayOrderNumber(order, history, dayOf, nowMs);
            1 + Count(todays, CreatedBefore(x.createdAt)) <= n <= Count(todays, CreatedBy(x.createdAt))
  {
    var todays := Filter(history, CreatedToday(dayOf, nowMs));
    var sorted := SortBy(todays, CreatedNoLater);
    CreatedNoLaterTotalPreorder();
    SortBySorted(todays, CreatedNoLater);
    var i := FoundById(todays, sorted, x);
    SortedAround(sorted, i);
    CountPermutation(sorted, todays, CreatedBefore(x.createdAt));
    CountPermutation(sorted, todays, CreatedBy(x.createdAt));
  }

  /** In a list sorted by creation time, the entries created before the one
      at position `i` all lie in front of it, and the ones in front of it
      and itself were all created no later. */
  lemma SortedAround(sorted: seq<Order>, i: nat)
    requires SortedBy(sorted, CreatedNoLater) && i < |sorted|
    ensures Count(sorted, CreatedBefore(sorted[i].createdAt)) <= i
    ensures i + 1 <= Count(sorted, CreatedBy(sorted[i].createdAt))
  {
    var t := sorted[i].createdAt;
    var front, back := sorted[..i + 1], sorted[i..];
    forall k | 0 <= k < |back|
      ensures !CreatedBefore(t)(back[k])
    {
      assert back[k] == sorted[i + k];
      assert k == 0 || CreatedNoLater(sorted[i], sorted[i + k]);
    }
    forall k | 0 <= k < |front|
      ensures CreatedBy(t)(front[k])
    {
      assert front[k] == sorted[k];
      assert k == i || CreatedNoLater(sorted[k], sorted[i]);
    }
    assert sorted == sorted[..i] + back;
    FilterAppend(sorted[..i], back, CreatedBefore(t));
    FilterNone(back, CreatedBefore(t));
    assert sorted == front + sorted[i + 1..];
    FilterAppend(front, sorted[i + 1..], CreatedBy(t));
    FilterAll(front, CreatedBy(t));
  }

  // ---------------------------------------------------------------------
  // Expected completion

  /** Used when the order has no preparation time. */
  const FallbackPreparationMinutes := 15

  const MinuteMs := 60000

  /** `calculateExpectedTime`: the creation time plus the preparation time
      in minutes, 15 when unset. */
  function ExpectedTime(o: Order): (t: int)
    ensures (t - o.createdAt) % MinuteMs == 0
    ensures o.preparationTime == 0 ==> t == o.createdAt + 15 * MinuteMs
    ensures o.preparationTime > 0 ==> t > o.createdAt
    ensures o.preparationTime != 0 ==> (t - o.createdAt) / MinuteMs == o.preparationTime
  {
    var minutes := if o.preparationTime != 0 then o.preparationTime else FallbackPreparationMinutes;
    o.createdAt + minutes * MinuteMs
  }

  /** An accepted order's receipt promises the preparation time chosen at
      acceptance, and an auto-accepted order with the default settings the
      same 15 minutes as the fallback. */
  lemma ExpectedAfterAccept(o: Order, minutes: int, ms: int)
    requires minutes != 0
    ensures ExpectedTime(Lifecycle.Accepted(o, minutes, ms)) == o.createdAt + minutes * MinuteMs
    ensures ExpectedTime(Lifecycle.Accepted(o, Lifecycle.DefaultAutoAcceptTime, ms))
            == ExpectedTime(o.(preparationTime := 0))
  {
  }

  // ---------------------------------------------------------------------
  // The receipt record

  const StoreName := "냠냠픽업"
  const DefaultCustomerName := "고객"
  const NoRequestsText := "없음"
  const ThankYouSuffix := "님 냠냠픽업을 주문해주셔서 감사합니다"

  predicate NonEmptyText(s: string) {
    s != ""
  }

  /** The request fields that are set, in the order store, delivery,
      extras. */
  function RequestParts(store: string, delivery: string, extras: string): (parts: seq<string>)
    ensures forall p :: p in parts ==> p != ""
    ensures |parts| == 0 <==> store == "" && delivery == "" && extras == ""
  {
    var parts := Filter([store, delivery, extras], NonEmptyText);
    assert |parts| > 0 ==> parts[0] in parts;
    assert store != "" ==> store in parts;
    assert delivery != "" ==> delivery in parts;
    assert extras != "" ==> extras in parts;
    parts
  }

  /** The requests line before the `'없음'` default: a plain text as is, the
      set fields one per line, nothing when absent. */
  function MergeRequests(req: Requests): (t: string)
    ensures req.RequestText? ==> t == req.text
    ensures req.NoRequests? ==> t == ""
    ensures req.RequestFields? ==>
              (t == "" <==> req.store == "" && req.delivery == "" && req.extras == "")
  {
    match req
    case NoRequests => ""
    case RequestText(text) => text
    case RequestFields(store, delivery, extras) =>
      var parts := RequestParts(store, delivery, extras);
      assert |parts| > 0 ==> parts[0] in parts;
      JoinLines(parts)
  }

  /** The merged fields split back into the set fields, in order, when no
      field holds a newline of its own. */
  lemma MergeRequestsSplits(store: string, delivery: string, extras: string)
    requires '\n' !in store && '\n' !in delivery && '\n' !in extras
    requires store != "" || delivery != "" || extras != ""
    ensures SplitLines(MergeRequests(RequestFields(store, delivery, extras)))
            == RequestParts(store, delivery, extras)
  {
    var parts := RequestParts(store, delivery, extras);
    assert forall k :: 0 <= k < |parts| ==> parts[k] in parts;
    SplitJoinLines(parts);
  }

  function OrDefault(s: string, default: string): (r: string)
    ensures r != "" || default == ""
    ensures s != "" ==> r == s
  {
    if s != "" then s else default
  }

  datatype Receipt = Receipt(
    storeName: string,
    orderNumber: nat,
    orderedAt: int,
    customerName: string,
    customerPhone: string,
    orderType: string,
    items: seq<Item>,
    totalAmount: int,
    requests: string,
    expectedCompletionAt: int,
    thankYouMessage: string)

  /** `convertOrderToReceiptData`. The order and completion times stay
      instants; their local `YYYY-MM-DD` and `HH:MM:SS` rendering is not
      modelled. */
  function ConvertOrderToReceiptData(o: Order, history: seq<Order>, dayOf: int -> int, nowMs: int): (r: Receipt)
    ensures r.storeName == StoreName && r.orderedAt == o.createdAt
    ensures r.customerName != "" && (o.customerName != "" ==> r.customerName == o.customerName)
    ensures r.orderType != "" && (o.orderType != "" ==> r.orderType == o.orderType)
    ensures r.items == o.items && r.totalAmount == o.totalAmount
    ensures r.requests != ""
    ensures r.thankYouMessage == r.customerName + ThankYouSuffix
    ensures 1 <= r.orderNumber <= |history| + 1
    ensures r.orderNumber == TodayOrderNumber(o, history, dayOf, nowMs)
    ensures o.customerName == "" ==> r.customerName == DefaultCustomerName
    ensures o.orderType == "" ==> r.orderType == Takeout
    ensures r.customerPhone == MaskPhoneNumber(o.customerPhone)
    ensures MergeRequests(o.requests) == "" ==> r.requests == NoRequestsText
    ensures MergeRequests(o.requests) != "" ==> r.requests == MergeRequests(o.requests)
    ensures r.expectedCompletionAt == ExpectedTime(o)
    ensures o.preparationTime >= 0 ==> r.expectedCompletionAt > r.orderedAt
    ensures forall a, b :: a < 10000 && b < 10000 && o.customerPhone == FormatPhone(a, b) ==>
              r.customerPhone == "010-****-" + Fixed(b, 4)
  {
    forall a: nat, b: nat | a < 10000 && b < 10000 && o.customerPhone == FormatPhone(a, b)
      ensures MaskPhoneNumber(o.customerPhone) == "010-****-" + Fixed(b, 4)
    {
      MaskFormattedPhone(a, b);
    }
    var name := OrDefault(o.customerName, DefaultCustomerName);
    Receipt(
      StoreName,
      TodayOrderNumber(o, history, dayOf, nowMs),
      o.createdAt,
      name,
      MaskPhoneNumber(o.customerPhone),
      OrDefault(o.orderType, Takeout),
      o.items,
      o.totalAmount,
      OrDefault(MergeRequests(o.requests), NoRequestsText),
      ExpectedTime(o),
      name + ThankYouSuffix)
  }

  /** Each empty field of an order prints its own default, whatever the
      other fields hold. */
  lemma ReceiptDefaults(o: Order, history: seq<Order>, dayOf: int -> int, nowMs: int)
    ensures var r := ConvertOrderToReceiptData(o, history, dayOf, nowMs);
            && (o.customerName == "" ==> r.customerName == "고객")
            && (o.customerName == "" ==> r.thankYouMessage == "고객님 냠냠픽업을 주문해주셔서 감사합니다")
            && (o.orderType == "" ==> r.orderType == "포장")
            && (o.customerPhone == "" ==> r.customerPhone == "***-****-****")
            && (o.requests == NoRequests ==> r.requests == "없음")
            && (o.items == [] ==> r.items == [])
            && (o.totalAmount == 0 ==> r.totalAmount == 0)
  {
    var r := ConvertOrderToReceiptData(o, history, dayOf, nowMs);
    if o.customerName == "" {
      assert r.customerName == DefaultCustomerName;
      DefaultThankYou();
    }
    if o.requests == NoRequests {
      assert MergeRequests(o.requests) == "";
      assert r.requests == NoRequestsText;
    }
  }

  lemma DefaultThankYou()
    ensures DefaultCustomerName + ThankYouSuffix == "고객님 냠냠픽업을 주문해주셔서 감사합니다"
  {
  }

  // ---------------------------------------------------------------------
  // Automatic printing

  /** The `printer` section of the stored settings. */
  datatype PrinterSettings = PrinterSettings(autoPrintEnabled: bool, selectedPrinter: string)

  datatype PrintFailure =
    | AutoPrintDisabled
    | NoPrinterSelected
    | ApiNotAvailable
    | PrintFailed(error: string)
    | Exception

  /** What the printer call answers: success, a reported error, or a thrown
      error. */
  datatype DeviceAnswer = DeviceSuccess | DeviceError(error: string) | DeviceThrew

  datatype PrintResult = Printed | NotPrinted(reason: PrintFailure)

  /** Everything `autoPrintReceipt` checks before it calls the printer. */
  predicate ReadyToPrint(printer: Option<PrinterSettings>, apiAvailable: bool) {
    printer.Some? && printer.value.autoPrintEnabled && printer.value.selectedPrinter != "" && apiAvailable
  }

  /** `autoPrintReceipt`, with the stored printer settings (`None` when
      absent), whether the printing API exists, and the printer's answer. */
  function AutoPrintReceipt(printer: Option<PrinterSettings>, apiAvailable: bool, answer: DeviceAnswer): (r: PrintResult)
    ensures r == Printed <==> ReadyToPrint(printer, apiAvailable) && answer == DeviceSuccess
    ensures !ReadyToPrint(printer, apiAvailable) ==>
              r.NotPrinted? && r.reason in {AutoPrintDisabled, NoPrinterSelected, ApiNotAvailable}
    ensures ReadyToPrint(printer, apiAvailable) && answer.DeviceError? ==> r == NotPrinted(PrintFailed(answer.error))
    ensures ReadyToPrint(printer, apiAvailable) && answer == DeviceThrew ==> r == NotPrinted(Exception)
  {
    if printer.None? || !printer.value.autoPrintEnabled then NotPrinted(AutoPrintDisabled)
    else if printer.value.selectedPrinter == "" then NotPrinted(NoPrinterSelected)
    else if !apiAvailable then NotPrinted(ApiNotAvailable)
    else match answer
      case DeviceSuccess => Printed
      case DeviceError(e) => NotPrinted(PrintFailed(e))
      case DeviceThrew => NotPrinted(Exception)
  }

  /** The failure reasons come in a fixed order: disabled before no printer,
      no printer before a missing API, and none of them depends on what the
      printer would have answered. */
  lemma AutoPrintPrecedence(printer: Option<PrinterSettings>, apiAvailable: bool, a1: DeviceAnswer, a2: DeviceAnswer)
    ensures printer.None? || !printer.value.autoPrintEnabled ==>
              AutoPrintReceipt(printer, apiAvailable, a1) == NotPrinted(AutoPrintDisabled)
    ensures printer.Some? && printer.value.autoPrintEnabled && printer.value.selectedPrinter == "" ==>
              AutoPrintReceipt(printer, apiAvailable, a1) == NotPrinted(NoPrinterSelected)
    ensures printer.Some? && printer.value.autoPrintEnabled && printer.value.selectedPrinter != "" && !apiAvailable ==>
              AutoPrintReceipt(printer, apiAvailable, a1) == NotPrinted(ApiNotAvailable)
    ensures !ReadyToPrint(printer, apiAvailable) ==>
              AutoPrintReceipt(printer, apiAvailable, a1) == AutoPrintReceipt(printer, apiAvailable, a2)
  {
  }
}

=== FILE: sales.dfy ===
/** The sales aggregates over the sample order set: a period summary, the
    weekday and hour buckets, and the top-5 best-selling menus. A sample
    order carries its instant, its weekday (0 = Sunday) and hour, its total
    and its items. */
module Sales {
  import opened Text
  import opened Orders
  import opened Sorting
  import opened Seqs
  import Utils

  datatype SaleOrder = SaleOrder(orderTime: int, dayOfWeek: int, hour: int, totalAmount: int, items: seq<Item>)

  function Amount(o: SaleOrder): int {
    o.totalAmount
  }

  // ---------------------------------------------------------------------
  // The period summary

  /** `Math.round(t / c)` for a positive count: the nearest integer, halves
      rounded up. */
  function RoundDiv(t: int, c: int): (q: int)
    requires c > 0
    ensures c * (2 * q - 1) <= 2 * t < c * (2 * q + 1)
  {
    var q := (2 * t + c) / (2 * c);
    var rem := (2 * t + c) % (2 * c);
    assert 2 * t + c == 2 * c * q + rem && 0 <= rem < 2 * c;
    assert c * (2 * q - 1) == 2 * c * q - c;
    assert c * (2 * q + 1) == 2 * c * q + c;
    q
  }

  lemma MulStrict(n: int, a: int, b: int)
    requires n > 0 && a < b
    ensures n * a < n * b
  {
    assert n * b - n * a == n * (b - a);
  }

  lemma MulMono(n: int, a: int, b: int)
    requires n > 0 && a <= b
    ensures n * a <= n * b
  {
    assert n * b - n * a == n * (b - a);
  }

  /** Only one integer is that close to `t / c`. */
  lemma RoundDivUnique(t: int, c: int, q: int)
    requires c > 0
    requires c * (2 * q - 1) <= 2 * t < c * (2 * q + 1)
    ensures q == RoundDiv(t, c)
  {
    var r := RoundDiv(t, c);
    if q < r {
      MulMono(c, 2 * q + 1, 2 * r - 1);
      assert false;
    } else if q > r {
      MulMono(c, 2 * r + 1, 2 * q - 1);
      assert false;
    }
  }

  function InPeriod(start: int, end: int): SaleOrder -> bool {
    (o: SaleOrder) => start <= o.orderTime && o.orderTime <= end
  }

  datatype PeriodSales = PeriodSales(totalSales: int, totalOrders: nat, avgOrderAmount: int, orders: seq<SaleOrder>)

  /** `calculateSalesByPeriod`: the orders placed within `[start, end]`,
      both ends included, their total, their number and the rounded
      average, 0 when there are none. */
  function CalculateSalesByPeriod(orders: seq<SaleOrder>, start: int, end: int): (r: PeriodSales)
    ensures forall o :: o in r.orders <==> o in orders && start <= o.orderTime <= end
    ensures forall o :: multiset(r.orders)[o] == if start <= o.orderTime <= end then multiset(orders)[o] else 0
    ensures r.totalOrders == |r.orders| && r.totalSales == Sum(r.orders, Amount)
    ensures r.totalOrders == 0 ==> r.avgOrderAmount == 0
    ensures r.totalOrders > 0 ==>
              r.totalOrders * (2 * r.avgOrderAmount - 1) <= 2 * r.totalSales < r.totalOrders * (2 * r.avgOrderAmount + 1)
  {
    FilterMultiset(orders, InPeriod(start, end));
    var filtered := Filter(orders, InPeriod(start, end));
    var total := Sum(filtered, Amount);
    var count := |filtered|;
    PeriodSales(total, count, if count > 0 then RoundDiv(total, count) else 0, filtered)
  }

  /** One more order changes the period's count and total exactly when it
      was placed within the period; no orders give an empty period. */
  lemma PeriodSalesOfAppend(orders: seq<SaleOrder>, o: SaleOrder, start: int, end: int)
    ensures CalculateSalesByPeriod([], start, end) == PeriodSales(0, 0, 0, [])
    ensures var before, after := CalculateSalesByPeriod(orders, start, end), CalculateSalesByPeriod([o] + orders, start, end);
            && after.totalOrders == before.totalOrders + (if start <= o.orderTime <= end then 1 else 0)
            && after.totalSales == before.totalSales + (if start <= o.orderTime <= end then o.totalAmount else 0)
  {
    assert ([o] + orders)[1..] == orders;
  }

  /** A total between `n lo` and `n hi` rounds to a mean between `lo` and
      `hi`. */
  lemma RoundedMeanBounds(n: int, t: int, q: int, lo: int, hi: int)
    requires n > 0 && n * lo <= t <= n * hi
    requires n * (2 * q - 1) <= 2 * t < n * (2 * q + 1)
    ensures lo <= q <= hi
  {
    assert 2 * (n * hi) == n * (2 * hi) && 2 * (n * lo) == n * (2 * lo);
    if q > hi {
      MulMono(n, 2 * hi + 1, 2 * q - 1);
      assert false;
    }
    if q < lo {
      MulMono(n, 2 * q + 1, 2 * lo);
      assert false;
    }
  }

  /** The average lies between the smallest and the largest possible order
      total. */
  lemma AverageWithinBounds(orders: seq<SaleOrder>, start: int, end: int, lo: int, hi: int)
    requires forall o :: o in orders ==> lo <= o.totalAmount <= hi
    ensures var r := CalculateSalesByPeriod(orders, start, end);
            r.totalOrders > 0 ==> lo <= r.avgOrderAmount <= hi
  {
    var r := CalculateSalesByPeriod(orders, start, end);
    if r.totalOrders > 0 {
      SumBounds(r.orders, Amount, lo, hi);
      RoundedMeanBounds(r.totalOrders, r.totalSales, r.avgOrderAmount, lo, hi);
    }
  }

  /** Splitting a period in two splits its total and its count. */
  lemma PeriodsAdd(orders: seq<SaleOrder>, start: int, middle: int, end: int)
    ensures var whole := CalculateSalesByPeriod(orders, start, end);
            var first := CalculateSalesByPeriod(orders, start, middle);
            var second := CalculateSalesByPeriod(orders, middle + 1, end);
            start <= middle < end ==>
              && whole.totalSales == first.totalSales + second.totalSales
              && whole.totalOrders == first.totalOrders + second.totalOrders
  {
    if start <= middle < end {
      var p, q, r := InPeriod(start, end), InPeriod(start, middle), InPeriod(middle + 1, end);
      SumFilterSplit(orders, p, q, r, Amount);
      SumFilterSplit(orders, p, q, r, (x: SaleOrder) => 1);
      SumOfOnes(Filter(orders, p));
      SumOfOnes(Filter(orders, q));
      SumOfOnes(Filter(orders, r));
    }
  }

  // ---------------------------------------------------------------------
  // Weekday and hour buckets

  datatype Bucket = Bucket(caption: string, sales: int, orders: nat)

  function BucketSales(b: Bucket): int {
    b.sales
  }

  function BucketOrders(b: Bucket): int {
    b.orders
  }

  function KeyIs(key: SaleOrder -> int, k: int): SaleOrder -> bool {
    (o: SaleOrder) => key(o) == k
  }

  /** Selecting by `DayOf` is selecting by the order's weekday. */
  lemma KeyIsDay(d: int, o: SaleOrder)
    ensures KeyIs(DayOf, d)(o) <==> o.dayOfWeek == d
  {
    assert KeyIs(DayOf, d)(o) == (DayOf(o) == d);
  }

  lemma {:induction false} EmptyBuckets(labels: seq<string>)
    ensures var buckets := seq(|labels|, i requires 0 <= i < |labels| => Bucket(labels[i], 0, 0));
            Sum(buckets, BucketSales) == 0 && Sum(buckets, BucketOrders) == 0
  {
    if |labels| > 0 {
      var buckets := seq(|labels|, i requires 0 <= i < |labels| => Bucket(labels[i], 0, 0));
      EmptyBuckets(labels[1..]);
      assert buckets[1..] == seq(|labels[1..]|, i requires 0 <= i < |labels[1..]| => Bucket(labels[1..][i], 0, 0));
    }
  }

  /** `buckets` holds, for each label, the number and the total of the
      orders in `done` whose key is that label's index, and between them all
      of `done`. */
  predicate Tallied(buckets: seq<Bucket>, done: seq<SaleOrder>, key: SaleOrder -> int, labels: seq<string>) {
    && |buckets| == |labels|
    && (forall b :: 0 <= b < |labels| ==>
          && buckets[b].caption == labels[b]
          && buckets[b].orders == Count(done, KeyIs(key, b))
          && buckets[b].sales == Sum(Filter(done, KeyIs(key, b)), Amount))
    && Sum(buckets, BucketOrders) == |done|
    && Sum(buckets, BucketSales) == Sum(done, Amount)
  }

  /** One order added to bucket `d`. */
  function Bump(buckets: seq<Bucket>, d: nat, amount: int): (r: seq<Bucket>)
    requires d < |buckets|
    ensures |r| == |buckets|
  {
    buckets[d := Bucket(buckets[d].caption, buckets[d].sales + amount, buckets[d].orders + 1)]
  }

  lemma BucketStep(buckets: seq<Bucket>, done: seq<SaleOrder>, o: SaleOrder, key: SaleOrder -> int, labels: seq<string>, b: nat)
    requires Tallied(buckets, done, key, labels) && 0 <= key(o) < |labels| && b < |labels|
    ensures var r := Bump(buckets, key(o), o.totalAmount);
            && r[b].caption == labels[b]
            && r[b].orders == Count(done + [o], KeyIs(key, b))
            && r[b].sales == Sum(Filter(done + [o], KeyIs(key, b)), Amount)
  {
    var p := KeyIs(key, b);
    FilterAppend(done, [o], p);
    FilterSingleton(o, p);
    if b == key(o) {
      SumAppend(Filter(done, p), [o], Amount);
      assert [o][1..] == [];
    } else {
      assert Filter(done, p) + [] == Filter(done, p);
    }
  }

  /** Adding one order keeps the tally exact. */
  lemma TallyStep(buckets: seq<Bucket>, done: seq<SaleOrder>, o: SaleOrder, key: SaleOrder -> int, labels: seq<string>)
    requires Tallied(buckets, done, key, labels) && 0 <= key(o) < |labels|
    ensures Tallied(Bump(buckets, key(o), o.totalAmount), done + [o], key, labels)
  {
    var d := key(o);
    var r := Bump(buckets, d, o.totalAmount);
    forall b | 0 <= b < |labels|
      ensures && r[b].caption == labels[b]
              && r[b].orders == Count(done + [o], KeyIs(key, b))
              && r[b].sales == Sum(Filter(done + [o], KeyIs(key, b)), Amount)
    {
      BucketStep(buckets, done, o, key, labels, b);
    }
    SumUpdate(buckets, d, r[d], BucketOrders);
    SumUpdate(buckets, d, r[d], BucketSales);
    SumAppend(done, [o], Amount);
    assert [o][1..] == [];
  }

  /** The `forEach` both bucket aggregates run: one bucket per label, and
      each order adds its total and 1 to the bucket its key names. */
  function Tally(orders: seq<SaleOrder>, key: SaleOrder -> int, labels: seq<string>): (buckets: seq<Bucket>)
    requires forall i :: 0 <= i < |orders| ==> 0 <= key(orders[i]) < |labels|
    ensures |buckets| == |labels|
    ensures forall b :: 0 <= b < |labels| ==>
              && buckets[b].caption == labels[b]
              && buckets[b].orders == Count(orders, KeyIs(key, b))
              && buckets[b].sales == Sum(Filter(orders, KeyIs(key, b)), Amount)
    ensures Sum(buckets, BucketOrders) == |orders|
    ensures Sum(buckets, BucketSales) == Sum(orders, Amount)
    decreases |orders|
  {
    if |orders| == 0 then
      EmptyBuckets(labels);
      seq(|labels|, i requires 0 <= i < |labels| => Bucket(labels[i], 0, 0))
    else
      var done, o := orders[..|orders| - 1], orders[|orders| - 1];
      var before := Tally(done, key, labels);
      TallyStep(before, done, o, key, labels);
      assert done + [o] == orders;
      Bump(before, key(o), o.totalAmount)
  }

  function DayOf(o: SaleOrder): int {
    o.dayOfWeek
  }

  function HourOf(o: SaleOrder): int {
    o.hour
  }

  /** `calculateSalesByDay`: seven buckets named `일` to `토`; every order
      lands in its weekday's bucket, so the buckets hold all orders and all
      sales. */
  function CalculateSalesByDay(orders: seq<SaleOrder>): (buckets: seq<Bucket>)
    requires forall i :: 0 <= i < |orders| ==> 0 <= orders[i].dayOfWeek < 7
    ensures |buckets| == 7
    ensures forall d :: 0 <= d < 7 ==>
              && Utils.DayName(d) == Wrappers.Some(buckets[d].caption)
              && buckets[d].orders == Count(orders, KeyIs(DayOf, d))
              && buckets[d].sales == Sum(Filter(orders, KeyIs(DayOf, d)), Amount)
    ensures Sum(buckets, BucketOrders) == |orders|
    ensures Sum(buckets, BucketSales) == Sum(orders, Amount)
  {
    Tally(orders, DayOf, Utils.DayNames)
  }

  /** The label of hour `h`: `HH:00`. */
  function HourLabel(h: nat): (caption: string)
    requires h < 24
    ensures |caption| == 5
  {
    Fixed(h, 2) + ":00"
  }

  /** An hour label is the `HH:MM` rendering of the hour's first minute. */
  lemma HourLabelIsTime(h: nat)
    requires h < 24
    ensures HourLabel(h) == Calendar.FormatHHMM(60 * h)
    ensures Calendar.ParseHHMM(HourLabel(h)) == Wrappers.Some(60 * h)
  {
    assert Fixed(0, 2) == "00";
    assert (60 * h) / 60 == h && (60 * h) % 60 == 0;
    Calendar.ParseFormatHHMM(60 * h);
  }

  /** Hour labels are all different and come in time order. */
  lemma HourLabelsOrdered(a: nat, b: nat)
    requires a < b < 24
    ensures LexLess(HourLabel(a), HourLabel(b))
  {
    HourLabelIsTime(a);
    HourLabelIsTime(b);
    Calendar.HHMMOrder(60 * a, 60 * b);
  }

  function HourLabels(): (labels: seq<string>)
    ensures |labels| == 24 && forall h :: 0 <= h < 24 ==> labels[h] == HourLabel(h)
  {
    seq(24, h requires 0 <= h < 24 => HourLabel(h))
  }

  /** `calculateSalesByHour`: 24 buckets labelled `00:00` to `23:00`, holding
      all orders and all sales between them. */
  function CalculateSalesByHour(orders: seq<SaleOrder>): (buckets: seq<Bucket>)
    requires forall i :: 0 <= i < |orders| ==> 0 <= orders[i].hour < 24
    ensures |buckets| == 24
    ensures forall h :: 0 <= h < 24 ==>
              && buckets[h].caption == HourLabel(h)
              && buckets[h].orders == Count(orders, KeyIs(HourOf, h))
              && buckets[h].sales == Sum(Filter(orders, KeyIs(HourOf, h)), Amount)
    ensures Sum(buckets, BucketOrders) == |orders|
    ensures Sum(buckets, BucketSales) == Sum(orders, Amount)
  {
    Tally(orders, HourOf, HourLabels())
  }

  // ---------------------------------------------------------------------
  // Best menus

  datatype MenuSales = MenuSales(menuId: int, name: string, quantity: int, sales: int)

  /** All items of the orders, order by order. */
  function AllItems(orders: seq<SaleOrder>): seq<Item> {
    if |orders| == 0 then [] else AllItems(orders[..|orders| - 1]) + orders[|orders| - 1].items
  }

  /** The quantity of menu `m` over all items. */
  function QuantityOf(items: seq<Item>, m: int): int {
    if |items| == 0 then 0
    else
      var last := items[|items| - 1];
      QuantityOf(items[..|items| - 1], m) + (if last.menuId == m then last.quantity else 0)
  }

  /** The revenue (`price × quantity`) of menu `m` over all items. */
  function SalesOf(items: seq<Item>, m: int): int {
    if |items| == 0 then 0
    else
      var last := items[|items| - 1];
      SalesOf(items[..|items| - 1], m) + (if last.menuId == m then last.price * last.quantity else 0)
  }

  /** `name` is the name on the first item of menu `m`. */
  predicate IsFirstName(items: seq<Item>, m: int, name: string) {
    exists j :: 0 <= j < |items| && items[j].menuId == m && items[j].name == name
                && forall k :: 0 <= k < j ==> items[k].menuId != m
  }

  predicate Listed(acc: seq<MenuSales>, m: int) {
    exists k :: 0 <= k < |acc| && acc[k].menuId == m
  }

  predicate DistinctMenus(acc: seq<MenuSales>) {
    forall i, j :: 0 <= i < j < |acc| ==> acc[i].menuId != acc[j].menuId
  }

  function FindMenu(acc: seq<MenuSales>, m: int): (i: nat)
    ensures i <= |acc|
    ensures i < |acc| ==> acc[i].menuId == m
    ensures i == |acc| <==> !Listed(acc, m)
  {
    FindFirst(acc, (e: MenuSales) => e.menuId == m)
  }


  /** The body of the inner `forEach`: the first item of a menu creates its
      entry with that item's name, every item adds its quantity and
      revenue. */
  function AddItem(acc: seq<MenuSales>, it: Item): (r: seq<MenuSales>)
    requires DistinctMenus(acc)
    ensures DistinctMenus(r) && Listed(r, it.menuId)
    ensures forall m :: Listed(acc, m) ==> Listed(r, m)
  {
    var i := FindMenu(acc, it.menuId);
    if i < |acc| then
      var r := acc[i := acc[i].(quantity := acc[i].quantity + it.quantity,
                                 sales := acc[i].sales + it.price * it.quantity)];
      assert r[i].menuId == it.menuId;
      forall m | Listed(acc, m)
        ensures Listed(r, m)
      {
        var k :| 0 <= k < |acc| && acc[k].menuId == m;
        assert r[k].menuId == m;
      }
      r
    else
      var r := acc + [MenuSales(it.menuId, it.name, it.quantity, it.price * it.quantity)];
      assert r[|acc|].menuId == it.menuId;
      forall m | Listed(acc, m)
        ensures Listed(r, m)
      {
        var k :| 0 <= k < |acc| && acc[k].menuId == m;
        assert r[k].menuId == m;
      }
      r
  }

  /** The per-menu accumulation, in the order menus first appear. */
  function Aggregate(items: seq<Item>): (acc: seq<MenuSales>)
    ensures DistinctMenus(acc)
  {
    if |items| == 0 then [] else AddItem(Aggregate(items[..|items| - 1]), items[|items| - 1])
  }

  lemma {:induction false} QuantityOfAbsent(items: seq<Item>, m: int)
    requires forall k :: 0 <= k < |items| ==> items[k].menuId != m
    ensures QuantityOf(items, m) == 0 && SalesOf(items, m) == 0
  {
    if |items| > 0 {
      QuantityOfAbsent(items[..|items| - 1], m);
    }
  }

  /** What an accumulated entry must hold: its menu's total quantity and
      revenue and the name on its first item. */
  predicate EntryAgrees(items: seq<Item>, e: MenuSales) {
    && e.quantity == QuantityOf(items, e.menuId)
    && e.sales == SalesOf(items, e.menuId)
    && IsFirstName(items, e.menuId, e.name)
  }

  /** Every menu that occurs gets an entry. */
  lemma {:induction false} AggregateCovers(items: seq<Item>)
    ensures forall k :: 0 <= k < |items| ==> Listed(Aggregate(items), items[k].menuId)
  {
    if |items| > 0 {
      var n := |items| - 1;
      var pre := items[..n];
      AggregateCovers(pre);
      forall k | 0 <= k < |items|
        ensures Listed(Aggregate(items), items[k].menuId)
      {
        if k < n {
          assert items[k] == pre[k];
          assert Listed(Aggregate(pre), pre[k].menuId);
        }
      }
    }
  }

  lemma QuantityOfSnoc(pre: seq<Item>, x: Item, m: int)
    ensures QuantityOf(pre + [x], m) == QuantityOf(pre, m) + (if x.menuId == m then x.quantity else 0)
    ensures SalesOf(pre + [x], m) == SalesOf(pre, m) + (if x.menuId == m then x.price * x.quantity else 0)
  {
    assert (pre + [x])[..|pre|] == pre;
  }

  lemma FirstNameSnoc(pre: seq<Item>, x: Item, m: int, name: string)
    requires IsFirstName(pre, m, name)
    ensures IsFirstName(pre + [x], m, name)
  {
    var j :| 0 <= j < |pre| && pre[j].menuId == m && pre[j].name == name
             && forall k :: 0 <= k < j ==> pre[k].menuId != m;
    assert (pre + [x])[j] == pre[j];
    assert forall k :: 0 <= k < j ==> (pre + [x])[k] == pre[k];
  }

  /** An entry untouched by the new item stays right. */
  lemma OtherEntrySnoc(pre: seq<Item>, x: Item, e: MenuSales)
    requires EntryAgrees(pre, e) && e.menuId != x.menuId
    ensures EntryAgrees(pre + [x], e)
  {
    QuantityOfSnoc(pre, x, e.menuId);
    FirstNameSnoc(pre, x, e.menuId, e.name);
  }

  /** An existing entry for the item's menu, updated, is right. */
  lemma UpdatedEntrySnoc(pre: seq<Item>, x: Item, e: MenuSales)
    requires EntryAgrees(pre, e) && e.menuId == x.menuId
    ensures EntryAgrees(pre + [x], e.(quantity := e.quantity + x.quantity, sales := e.sales + x.price * x.quantity))
  {
    QuantityOfSnoc(pre, x, x.menuId);
    FirstNameSnoc(pre, x, x.menuId, e.name);
  }

  /** The entry created for a menu's first item is right. */
  lemma NewEntrySnoc(pre: seq<Item>, x: Item)
    requires forall k :: 0 <= k < |pre| ==> pre[k].menuId != x.menuId
    ensures EntryAgrees(pre + [x], MenuSales(x.menuId, x.name, x.quantity, x.price * x.quantity))
  {
    QuantityOfSnoc(pre, x, x.menuId);
    QuantityOfAbsent(pre, x.menuId);
    var items := pre + [x];
    assert items[|pre|] == x;
    assert forall k :: 0 <= k < |pre| ==> items[k] == pre[k];
  }

  /** Every entry holds what its menu's items add up to. */
  lemma {:induction false} AggregateEntries(items: seq<Item>)
    ensures forall e :: e in Aggregate(items) ==> EntryAgrees(items, e)
  {
    if |items| > 0 {
      var n := |items| - 1;
      var pre, x := items[..n], items[n];
      assert items == pre + [x];
      AggregateEntries(pre);
      AggregateCovers(pre);
      var acc := Aggregate(pre);
      var r := AddItem(acc, x);
      var i := FindMenu(acc, x.menuId);
      if i < |acc| {
        assert acc[i] in acc;
        UpdatedEntrySnoc(pre, x, acc[i]);
        forall e | e in r
          ensures EntryAgrees(items, e)
        {
          var k :| 0 <= k < |r| && r[k] == e;
          if k != i {
            assert e == acc[k] && acc[k] in acc;
            OtherEntrySnoc(pre, x, e);
          }
        }
      } else {
        forall k | 0 <= k < |pre|
          ensures pre[k].menuId != x.menuId
        {
          assert Listed(acc, pre[k].menuId);
        }
        NewEntrySnoc(pre, x);
        forall e | e in r
          ensures EntryAgrees(items, e)
        {
          var k :| 0 <= k < |r| && r[k] == e;
          if k < |acc| {
            assert e == acc[k] && acc[k] in acc;
            assert e.menuId != x.menuId;
            OtherEntrySnoc(pre, x, e);
          }
        }
      }
    }
  }

  /** The accumulation has one entry per menu that occurs, holding its total
      quantity, its total revenue and the name on its first item. */
  lemma AggregateSpec(items: seq<Item>)
    ensures var acc := Aggregate(items);
            && DistinctMenus(acc)
            && (forall k :: 0 <= k < |items| ==> Listed(acc, items[k].menuId))
            && (forall e :: e in acc ==> EntryAgrees(items, e))
  {
    AggregateCovers(items);
    AggregateEntries(items);
  }

  /** The largest key ECMAScript treats as an array index. */
  const MaxArrayIndex := 0xFFFF_FFFE

  predicate IsIndexKey(id: int) {
    0 <= id <= MaxArrayIndex
  }

  /** `Object.values` order: array-index keys ascending, then the other keys
      in insertion order. */
  predicate KeyOrderLe(a: MenuSales, b: MenuSales) {
    if IsIndexKey(a.menuId) then !IsIndexKey(b.menuId) || a.menuId <= b.menuId
    else !IsIndexKey(b.menuId)
  }

  /** The comparator `b.quantity - a.quantity`: larger quantities first. */
  predicate QuantityDescLe(a: MenuSales, b: MenuSales) {
    a.quantity >= b.quantity
  }

  lemma OrdersArePreorders()
    ensures TotalPreorder(KeyOrderLe) && TotalPreorder(QuantityDescLe)
  {
  }

  const TopMenus := 5

  /** The entries sorted by quantity, before the cut to five. */
  function Ranked(items: seq<Item>): (ranked: seq<MenuSales>)
    ensures multiset(ranked) == multiset(Aggregate(items))
  {
    SortBy(SortBy(Aggregate(items), KeyOrderLe), QuantityDescLe)
  }

  /** The ranking of `getBestMenusFromOrders` over a list of items: at most
      five entries, each a menu's accumulated entry. */
  function BestMenus(items: seq<Item>): (r: seq<MenuSales>)
    ensures |r| == if |Aggregate(items)| < TopMenus then |Aggregate(items)| else TopMenus
    ensures r == Ranked(items)[..|r|]
    ensures forall e :: e in r ==> e in Aggregate(items)
  {
    var ranked := Ranked(items);
    assert forall e :: e in ranked ==> e in multiset(ranked);
    var n := if |ranked| < TopMenus then |ranked| else TopMenus;
    assert forall e :: e in ranked[..n] ==> e in ranked;
    ranked[..n]
  }

  lemma RankedSorted(items: seq<Item>)
    ensures SortedBy(Ranked(items), QuantityDescLe)
  {
    OrdersArePreorders();
    SortBySorted(SortBy(Aggregate(items), KeyOrderLe), QuantityDescLe);
  }

  /** The ranking is ordered by quantity, largest first. */
  lemma BestMenusOrdered(items: seq<Item>)
    ensures var r := BestMenus(items);
            forall i, j :: 0 <= i < j < |r| ==> r[i].quantity >= r[j].quantity
  {
    RankedSorted(items);
    var r := BestMenus(items);
    var ranked := Ranked(items);
    forall i, j | 0 <= i < j < |r|
      ensures r[i].quantity >= r[j].quantity
    {
      assert QuantityDescLe(ranked[i], ranked[j]);
    }
  }

  /** A menu left out of the ranking sold no more than the fifth one. */
  lemma BestMenusAreTop(items: seq<Item>, e: MenuSales)
    requires e in Aggregate(items) && e !in BestMenus(items)
    ensures var r := BestMenus(items);
            |r| == TopMenus && e.quantity <= r[TopMenus - 1].quantity
  {
    RankedSorted(items);
    var ranked := Ranked(items);
    var r := BestMenus(items);
    assert e in multiset(Aggregate(items));
    BelowTheCut(ranked, |r|, e);
  }

  /** In a list sorted by quantity, largest first, an entry outside the
      first `n` sold no more than the `n`-th. */
  lemma BelowTheCut(ranked: seq<MenuSales>, n: nat, e: MenuSales)
    requires SortedBy(ranked, QuantityDescLe)
    requires n <= |ranked| && e in ranked && e !in ranked[..n]
    ensures n < |ranked|
    ensures n > 0 ==> e.quantity <= ranked[n - 1].quantity
  {
    var p :| 0 <= p < |ranked| && ranked[p] == e;
    assert forall q :: 0 <= q < n ==> ranked[..n][q] == ranked[q];
    if n > 0 {
      assert QuantityDescLe(ranked[n - 1], ranked[p]);
    }
  }

  /** `r` ranks the menus sold in `items`: as many entries as there are
      menus, up to five; one entry per menu, holding its total quantity,
      its total revenue and the name on its first item; largest quantity
      first; and a menu left out sold no more than the fifth one. */
  predicate IsTopRanking(items: seq<Item>, r: seq<MenuSales>) {
    && |r| == (if |Aggregate(items)| < TopMenus then |Aggregate(items)| else TopMenus)
    && DistinctMenus(r)
    && (forall e :: e in r ==> EntryAgrees(items, e))
    && (forall i, j :: 0 <= i < j < |r| ==> r[i].quantity >= r[j].quantity)
    && (forall k :: 0 <= k < |items| && !Listed(r, items[k].menuId) ==>
          |r| == TopMenus && QuantityOf(items, items[k].menuId) <= r[TopMenus - 1].quantity)
  }

  /** A list with distinct menus holds every entry at most once. */
  lemma {:induction false} DistinctOnce(a: seq<MenuSales>, x: MenuSales)
    requires DistinctMenus(a)
    ensures multiset(a)[x] <= 1
  {
    if |a| > 0 {
      assert a == [a[0]] + a[1..];
      DistinctOnce(a[1..], x);
      if a[0] == x {
        assert x !in a[1..];
      }
    }
  }

  /** An entry at two positions is counted twice. */
  lemma RepeatCounts(b: seq<MenuSales>, i: nat, j: nat)
    requires i < j < |b| && b[i] == b[j]
    ensures multiset(b)[b[i]] >= 2
  {
    assert b == b[..j] + b[j..];
    assert b[i] in b[..j] && b[j] in b[j..];
  }

  /** A rearrangement of a list with distinct menus has distinct menus. */
  lemma DistinctPermutation(a: seq<MenuSales>, b: seq<MenuSales>)
    requires multiset(a) == multiset(b) && DistinctMenus(a)
    ensures DistinctMenus(b)
  {
    forall i, j | 0 <= i < j < |b|
      ensures b[i].menuId != b[j].menuId
    {
      assert b[i] in multiset(a) && b[j] in multiset(a);
      var p :| 0 <= p < |a| && a[p] == b[i];
      var q :| 0 <= q < |a| && a[q] == b[j];
      if b[i] == b[j] {
        RepeatCounts(b, i, j);
        DistinctOnce(a, b[i]);
      }
    }
  }

  /** The ranking names every menu at most once. */
  lemma BestMenusDistinct(items: seq<Item>)
    ensures DistinctMenus(BestMenus(items))
  {
    var r := BestMenus(items);
    DistinctPermutation(Aggregate(items), Ranked(items));
    assert forall k :: 0 <= k < |r| ==> r[k] == Ranked(items)[k];
  }

  /** A menu sold in `items` but missing from the ranking sold no more
      than the fifth one. */
  lemma BestMenusCut(items: seq<Item>)
    ensures var r := BestMenus(items);
            forall k :: 0 <= k < |items| && !Listed(r, items[k].menuId) ==>
              |r| == TopMenus && QuantityOf(items, items[k].menuId) <= r[TopMenus - 1].quantity
  {
    var r := BestMenus(items);
    var all := Aggregate(items);
    AggregateSpec(items);
    forall k | 0 <= k < |items| && !Listed(r, items[k].menuId)
      ensures |r| == TopMenus && QuantityOf(items, items[k].menuId) <= r[TopMenus - 1].quantity
    {
      var p :| 0 <= p < |all| && all[p].menuId == items[k].menuId;
      assert all[p] in all && all[p] !in r;
      BestMenusAreTop(items, all[p]);
    }
  }

  /** The ranking `getBestMenusFromOrders` computes is a top ranking. */
  lemma BestMenusIsTop(items: seq<Item>)
    ensures IsTopRanking(items, BestMenus(items))
  {
    AggregateSpec(items);
    BestMenusOrdered(items);
    BestMenusDistinct(items);
    BestMenusCut(items);
  }

  /** `getBestMenusFromOrders`. */
  function GetBestMenusFromOrders(orders: seq<SaleOrder>): (r: seq<MenuSales>)
    ensures |r| <= TopMenus
    ensures forall e :: e in r ==> e in Aggregate(AllItems(orders))
    ensures IsTopRanking(AllItems(orders), r)
  {
    BestMenusIsTop(AllItems(orders));
    BestMenus(AllItems(orders))
  }

  function InHourSlot(hourStart: int, hourEnd: int): SaleOrder -> bool {
    (o: SaleOrder) => hourStart <= o.hour && o.hour < hourEnd
  }

  /** `getBestMenusByHour`: the ranking over the orders whose hour lies in
      `[hourStart, hourEnd)`; an empty slot ranks nothing. */
  function GetBestMenusByHour(orders: seq<SaleOrder>, hourStart: int, hourEnd: int): (r: seq<MenuSales>)
    ensures |r| <= TopMenus
    ensures hourEnd <= hourStart ==> r == []
    ensures forall e :: e in r ==>
              exists o :: o in orders && hourStart <= o.hour < hourEnd && exists it :: it in o.items && it.menuId == e.menuId
    ensures IsTopRanking(AllItems(Filter(orders, InHourSlot(hourStart, hourEnd))), r)
  {
    var slot := Filter(orders, InHourSlot(hourStart, hourEnd));
    var r := BestMenus(AllItems(slot));
    EmptySlot(orders, hourStart, hourEnd);
    forall e | e in r
      ensures exists o :: o in orders && hourStart <= o.hour < hourEnd && exists it :: it in o.items && it.menuId == e.menuId
    {
      SelectedMenusComeFromOrders(orders, InHourSlot(hourStart, hourEnd), e);
    }
    BestMenusIsTop(AllItems(slot));
    r
  }

  lemma EmptySlot(orders: seq<SaleOrder>, hourStart: int, hourEnd: int)
    ensures hourEnd <= hourStart ==> Filter(orders, InHourSlot(hourStart, hourEnd)) == []
  {
    if hourEnd <= hourStart {
      FilterNone(orders, InHourSlot(hourStart, hourEnd));
    }
  }

  /** Adjacent hour slots share no order, and together make the joined
      slot. */
  lemma HourSlotsTile(a: int, b: int, c: int, o: SaleOrder)
    requires a <= b <= c
    ensures !(InHourSlot(a, b)(o) && InHourSlot(b, c)(o))
    ensures InHourSlot(a, c)(o) <==> InHourSlot(a, b)(o) || InHourSlot(b, c)(o)
  {
  }

  /** Every ranked menu was ordered in one of the orders. */
  lemma BestMenusComeFromOrders(orders: seq<SaleOrder>, e: MenuSales)
    requires e in BestMenus(AllItems(orders))
    ensures exists o :: o in orders && exists it :: it in o.items && it.menuId == e.menuId
  {
    var items := AllItems(orders);
    AggregateSpec(items);
    assert IsFirstName(items, e.menuId, e.name);
    var j :| 0 <= j < |items| && items[j].menuId == e.menuId;
    ItemComesFromOrder(orders, j);
  }

  /** `getBestMenusByDay`: the ranking over the orders of one weekday. */
  function GetBestMenusByDay(orders: seq<SaleOrder>, dayOfWeek: int): (r: seq<MenuSales>)
    ensures |r| <= TopMenus
    ensures forall e :: e in r ==>
              exists o :: o in orders && o.dayOfWeek == dayOfWeek && exists it :: it in o.items && it.menuId == e.menuId
    ensures IsTopRanking(AllItems(Filter(orders, KeyIs(DayOf, dayOfWeek))), r)
  {
    var day := Filter(orders, KeyIs(DayOf, dayOfWeek));
    var r := BestMenus(AllItems(day));
    forall e | e in r
      ensures exists o :: o in orders && o.dayOfWeek == dayOfWeek && exists it :: it in o.items && it.menuId == e.menuId
    {
      SelectedMenusComeFromOrders(orders, KeyIs(DayOf, dayOfWeek), e);
      var o :| o in orders && KeyIs(DayOf, dayOfWeek)(o) && exists it :: it in o.items && it.menuId == e.menuId;
      KeyIsDay(dayOfWeek, o);
    }
    BestMenusIsTop(AllItems(day));
    r
  }

  /** Every menu ranked over the orders `p` selects was ordered in one of
      them. */
  lemma SelectedMenusComeFromOrders(orders: seq<SaleOrder>, p: SaleOrder -> bool, e: MenuSales)
    requires e in BestMenus(AllItems(Filter(orders, p)))
    ensures exists o :: o in orders && p(o) && exists it :: it in o.items && it.menuId == e.menuId
  {
    BestMenusComeFromOrders(Filter(orders, p), e);
  }

  /** Every item of `AllItems` belongs to one of the orders. */
  lemma {:induction false} ItemComesFromOrder(orders: seq<SaleOrder>, j: nat)
    requires j < |AllItems(orders)|
    ensures exists o :: o in orders && AllItems(orders)[j] in o.items
  {
    var n := |orders| - 1;
    var pre := AllItems(orders[..n]);
    if j < |pre| {
      ItemComesFromOrder(orders[..n], j);
      var o :| o in orders[..n] && pre[j] in o.items;
      assert o in orders;
    } else {
      assert AllItems(orders)[j] == orders[n].items[j - |pre|];
    }
  }
}

=== FILE: seqs.dfy ===
/** `Array.prototype.filter`, counting and summing, shared by every
    aggregate in the model. */
module Seqs {

  /** `s.filter(p)`: the elements satisfying `p`, in their original order. */
  function Filter<T(!new)>(s: seq<T>, p: T -> bool): (r: seq<T>)
    ensures |r| <= |s|
    ensures forall x :: x in r <==> x in s && p(x)
  {
    if |s| == 0 then []
    else
      var rest := Filter(s[1..], p);
      if p(s[0]) then [s[0]] + rest else rest
  }

  /** `s.findIndex(p)`, with `|s|` for "not found": the first position
      whose element satisfies `p`. */
  function FindFirst<T>(s: seq<T>, p: T -> bool): (i: nat)
    ensures i <= |s|
    ensures i < |s| ==> p(s[i])
    ensures forall k :: 0 <= k < i ==> !p(s[k])
  {
    if |s| == 0 then 0
    else if p(s[0]) then 0
    else 1 + FindFirst(s[1..], p)
  }

  /** Filtering keeps every copy of a kept element and none of the others. */
  lemma {:induction false} FilterMultiset<T(!new)>(s: seq<T>, p: T -> bool)
    ensures forall x :: multiset(Filter(s, p))[x] == if p(x) then multiset(s)[x] else 0
  {
    if |s| > 0 {
      FilterMultiset(s[1..], p);
      assert s == [s[0]] + s[1..];
    }
  }

  /** Filtering with a weaker condition first changes nothing. */
  lemma {:induction false} FilterTwice<T(!new)>(s: seq<T>, p: T -> bool, q: T -> bool)
    requires forall x :: p(x) ==> q(x)
    ensures Filter(Filter(s, q), p) == Filter(s, p)
  {
    if |s| > 0 {
      FilterTwice(s[1..], p, q);
      if q(s[0]) {
        assert Filter(s, q) == [s[0]] + Filter(s[1..], q);
        assert ([s[0]] + Filter(s[1..], q))[1..] == Filter(s[1..], q);
      }
    }
  }

  /** The elements for which `p` holds and those for which it does not
      together make up the whole sequence. */
  lemma {:induction false} FilterPartition<T(!new)>(s: seq<T>, p: T -> bool)
    ensures |Filter(s, p)| + |Filter(s, x => !p(x))| == |s|
  {
    if |s| > 0 {
      FilterPartition(s[1..], p);
    }
  }

  /** `s.filter(p).length`. */
  function Count<T(!new)>(s: seq<T>, p: T -> bool): (n: nat)
    ensures n == |Filter(s, p)|
    ensures n <= |s|
  {
    |Filter(s, p)|
  }

  /** `s.reduce((sum, x) => sum + f(x), 0)`. */
  function Sum<T>(s: seq<T>, f: T -> int): int {
    if |s| == 0 then 0 else f(s[0]) + Sum(s[1..], f)
  }

  lemma {:induction false} SumAppend<T>(a: seq<T>, b: seq<T>, f: T -> int)
    ensures Sum(a + b, f) == Sum(a, f) + Sum(b, f)
  {
    if |a| == 0 {
      assert a + b == b;
    } else {
      assert (a + b)[1..] == a[1..] + b;
      SumAppend(a[1..], b, f);
    }
  }

  /** A sum of non-negative terms is non-negative. */
  lemma {:induction false} SumNonNegative<T(!new)>(s: seq<T>, f: T -> int)
    requires forall x :: x in s ==> f(x) >= 0
    ensures Sum(s, f) >= 0
  {
    if |s| > 0 {
      assert forall x :: x in s[1..] ==> x in s;
      SumNonNegative(s[1..], f);
    }
  }

  /** When `p` holds exactly on the first `k` elements, filtering keeps
      exactly those. */
  lemma {:induction false} FilterPrefix<T(!new)>(s: seq<T>, p: T -> bool, k: nat)
    requires k <= |s|
    requires forall j :: 0 <= j < k ==> p(s[j])
    requires forall j :: k <= j < |s| ==> !p(s[j])
    ensures Filter(s, p) == s[..k]
  {
    if |s| > 0 {
      if k > 0 {
        FilterPrefix(s[1..], p, k - 1);
        assert s[..k] == [s[0]] + s[1..][..k - 1];
      } else {
        FilterPrefix(s[1..], p, 0);
      }
    }
  }

  /** Reordering a sequence does not change how many elements satisfy `p`. */
  lemma CountPermutation<T(!new)>(a: seq<T>, b: seq<T>, p: T -> bool)
    requires multiset(a) == multiset(b)
    ensures Count(a, p) == Count(b, p)
  {
    FilterMultiset(a, p);
    FilterMultiset(b, p);
    assert multiset(Filter(a, p)) == multiset(Filter(b, p));
    assert |multiset(Filter(a, p))| == |Filter(a, p)|;
    assert |multiset(Filter(b, p))| == |Filter(b, p)|;
  }

  /** Filtering distributes over concatenation. */
  lemma {:induction false} FilterAppend<T(!new)>(a: seq<T>, b: seq<T>, p: T -> bool)
    ensures Filter(a + b, p) == Filter(a, p) + Filter(b, p)
  {
    if |a| == 0 {
      assert a + b == b;
    } else {
      var ab := a + b;
      assert ab[0] == a[0];
      assert ab[1..] == a[1..] + b;
      FilterAppend(a[1..], b, p);
    }
  }

  /** Replacing one element changes the sum by the difference. */
  lemma {:induction false} SumUpdate<T>(s: seq<T>, i: nat, v: T, f: T -> int)
    requires i < |s|
    ensures Sum(s[i := v], f) == Sum(s, f) - f(s[i]) + f(v)
  {
    if i > 0 {
      assert s[i := v][1..] == s[1..][i - 1 := v];
      SumUpdate(s[1..], i - 1, v, f);
    } else {
      assert s[i := v][1..] == s[1..];
    }
  }

  /** A sum of terms all within `[lo, hi]` lies within `[|s| lo, |s| hi]`. */
  lemma {:induction false} SumBounds<T(!new)>(s: seq<T>, f: T -> int, lo: int, hi: int)
    requires forall x :: x in s ==> lo <= f(x) <= hi
    ensures |s| * lo <= Sum(s, f) <= |s| * hi
  {
    if |s| > 0 {
      var n := |s| - 1;
      assert s[0] in s;
      assert forall x :: x in s[1..] ==> x in s;
      SumBounds(s[1..], f, lo, hi);
      assert Sum(s, f) == f(s[0]) + Sum(s[1..], f);
      assert (n + 1) * lo == lo + n * lo && (n + 1) * hi == hi + n * hi;
    }
  }

  /** Splitting a filtered sum by a second condition. */
  lemma {:induction false} SumFilterSplit<T(!new)>(s: seq<T>, p: T -> bool, q: T -> bool, r: T -> bool, f: T -> int)
    requires forall x :: p(x) <==> q(x) || r(x)
    requires forall x :: !(q(x) && r(x))
    ensures Sum(Filter(s, p), f) == Sum(Filter(s, q), f) + Sum(Filter(s, r), f)
  {
    if |s| > 0 {
      SumFilterSplit(s[1..], p, q, r, f);
    }
  }

  /** Summing 1 per element counts the elements. */
  lemma {:induction false} SumOfOnes<T>(s: seq<T>)
    ensures Sum(s, (x: T) => 1) == |s|
  {
    if |s| > 0 {
      SumOfOnes(s[1..]);
    }
  }

  lemma FilterSingleton<T(!new)>(x: T, p: T -> bool)
    ensures Filter([x], p) == if p(x) then [x] else []
  {
    assert [x][1..] == [];
  }

  /** Nothing is kept when nothing satisfies `p`. */
  lemma {:induction false} FilterNone<T(!new)>(s: seq<T>, p: T -> bool)
    requires forall i :: 0 <= i < |s| ==> !p(s[i])
    ensures Filter(s, p) == []
  {
    if |s| > 0 {
      FilterNone(s[1..], p);
    }
  }

  /** Exactly one element is kept when exactly one satisfies `p`. */
  lemma FilterOnly<T(!new)>(s: seq<T>, k: nat, p: T -> bool)
    requires k < |s| && p(s[k])
    requires forall i :: 0 <= i < |s| && i != k ==> !p(s[i])
    ensures Filter(s, p) == [s[k]]
  {
    assert s == s[..k] + ([s[k]] + s[k + 1..]);
    FilterNone(s[..k], p);
    FilterNone(s[k + 1..], p);
    FilterAppend(s[..k], [s[k]] + s[k + 1..], p);
    FilterAppend([s[k]], s[k + 1..], p);
    FilterSingleton(s[k], p);
  }

  /** Replacing one element changes the count by what the old and the new
      element contribute. */
  lemma {:induction false} CountUpdate<T(!new)>(s: seq<T>, i: nat, y: T, p: T -> bool)
    requires i < |s|
    ensures Count(s[i := y], p) == Count(s, p) - (if p(s[i]) then 1 else 0) + (if p(y) then 1 else 0)
  {
    if i > 0 {
      assert s[i := y][1..] == s[1..][i - 1 := y];
      CountUpdate(s[1..], i - 1, y, p);
    } else {
      assert s[i := y][1..] == s[1..];
    }
  }

  /** Everything is kept when everything satisfies `p`. */
  lemma {:induction false} FilterAll<T(!new)>(s: seq<T>, p: T -> bool)
    requires forall i :: 0 <= i < |s| ==> p(s[i])
    ensures Filter(s, p) == s
  {
    if |s| > 0 {
      var rest := s[1..];
      assert forall i :: 0 <= i < |rest| ==> rest[i] == s[i + 1];
      FilterAll(rest, p);
      assert s == [s[0]] + rest;
    }
  }
}

=== FILE: settings.dfy ===
/** The settings page: the bounded counters and clamps it edits, the
    connection-speed choice, and the shallow merge that loads stored
    settings over the defaults. Only the fields these operations read or
    write are modelled. */
module Settings {
  import opened Wrappers
  import opened Text
  import Lifecycle
  import PrintHelper

  /** The `general` section, as far as the counters use it. */
  datatype General = General(storeAlarmEnabled: bool, volumeLevel: int, autoAcceptEnabled: bool, autoAcceptTime: int)

  /** The `printer` section, as far as the counters and printing use it. */
  datatype Printer = Printer(
    autoPrintEnabled: bool,
    selectedPrinter: string,
    connectionSpeed: int,
    orderReceiptCount: int,
    orderSheetCount: int)

  const DefaultGeneral := General(true, 3, false, 15)
  const DefaultPrinter := Printer(true, "", 9600, 1, 1)

  // ---------------------------------------------------------------------
  // Volume

  const MinVolume := 1
  const MaxVolume := 6

  /** `setVolumeLevel(level)`: the level clamped to 1..6. */
  function SetVolumeLevel(level: int): (v: int)
    ensures MinVolume <= v <= MaxVolume
    ensures MinVolume <= level <= MaxVolume ==> v == level
    ensures level < MinVolume ==> v == MinVolume
    ensures level > MaxVolume ==> v == MaxVolume
  {
    var low := if level < MinVolume then MinVolume else level;
    if low > MaxVolume then MaxVolume else low
  }

  /** Clamping is monotone and clamping twice is clamping once. */
  lemma VolumeClampLaws(a: int, b: int)
    ensures SetVolumeLevel(SetVolumeLevel(a)) == SetVolumeLevel(a)
    ensures a <= b ==> SetVolumeLevel(a) <= SetVolumeLevel(b)
  {
  }

  // ---------------------------------------------------------------------
  // Auto-accept time

  const MinAutoAcceptTime := 5
  const MaxAutoAcceptTime := 60
  const AutoAcceptStep := 5

  /** `parseInt(text) || 15`: the shown minutes, `None` when the text is not
      a number; zero and `NaN` both fall back to 15. */
  function ReadAutoTime(shown: Option<int>): (t: int)
    ensures shown.Some? && shown.value != 0 ==> t == shown.value
    ensures shown.None? || shown == Some(0) ==> t == Lifecycle.DefaultAutoAcceptTime
  {
    if shown.Some? && shown.value != 0 then shown.value else Lifecycle.DefaultAutoAcceptTime
  }

  /** The general section and the shown minutes after a step, and whether
      the step was refused with a warning. */
  datatype AutoStep = AutoStep(general: General, shown: Option<int>, warned: bool)

  /** `increaseAutoTime`: below 60 the time goes up by 5, shown and stored;
      otherwise a warning and no change. */
  function IncreaseAutoTime(g: General, shown: Option<int>): (r: AutoStep)
    ensures var t := ReadAutoTime(shown);
            && (r.warned <==> t >= MaxAutoAcceptTime)
            && (r.warned ==> r.general == g && r.shown == shown)
            && (!r.warned ==> r.general == g.(autoAcceptTime := t + AutoAcceptStep) && r.shown == Some(t + AutoAcceptStep))
  {
    var t := ReadAutoTime(shown);
    if t < MaxAutoAcceptTime then AutoStep(g.(autoAcceptTime := t + AutoAcceptStep), Some(t + AutoAcceptStep), false)
    else AutoStep(g, shown, true)
  }

  /** `decreaseAutoTime`: above 5 the time goes down by 5, shown and stored;
      otherwise a warning and no change. */
  function DecreaseAutoTime(g: General, shown: Option<int>): (r: AutoStep)
    ensures var t := ReadAutoTime(shown);
            && (r.warned <==> t <= MinAutoAcceptTime)
            && (r.warned ==> r.general == g && r.shown == shown)
            && (!r.warned ==> r.general == g.(autoAcceptTime := t - AutoAcceptStep) && r.shown == Some(t - AutoAcceptStep))
  {
    var t := ReadAutoTime(shown);
    if t > MinAutoAcceptTime then AutoStep(g.(autoAcceptTime := t - AutoAcceptStep), Some(t - AutoAcceptStep), false)
    else AutoStep(g, shown, true)
  }

  /** The values the buttons reach from the default: multiples of 5 from 5
      to 60. */
  predicate OnAutoGrid(t: int) {
    MinAutoAcceptTime <= t <= MaxAutoAcceptTime && t % AutoAcceptStep == 0
  }

  /** A shown time on the grid stays on the grid, shown and stored alike. */
  lemma AutoTimeStaysOnGrid(g: General, t: int)
    requires OnAutoGrid(t)
    ensures var up, down := IncreaseAutoTime(g, Some(t)), DecreaseAutoTime(g, Some(t));
            && OnAutoGrid(up.shown.value) && OnAutoGrid(down.shown.value)
            && (!up.warned ==> OnAutoGrid(up.general.autoAcceptTime))
            && (!down.warned ==> OnAutoGrid(down.general.autoAcceptTime))
  {
  }

  /** The upper guard tests `< 60` before adding 5, so a time that is not a
      multiple of 5 can step past 60: 58 becomes 63. */
  lemma AutoTimeOffGrid(g: General)
    ensures IncreaseAutoTime(g, Some(58)).shown == Some(63)
  {
  }

  /** Below the maximum, a step up followed by a step down restores the time. */
  lemma AutoTimeUpDown(g: General, t: int)
    requires MinAutoAcceptTime <= t < MaxAutoAcceptTime
    ensures var up := IncreaseAutoTime(g, Some(t));
            var down := DecreaseAutoTime(up.general, up.shown);
            down.shown == Some(t) && down.general == g.(autoAcceptTime := t)
  {
  }

  // ---------------------------------------------------------------------
  // Minute inputs

  /** `parseInt(input.value) || 0`. */
  function ReadMinutes(input: Option<int>): int {
    if input.Some? then input.value else 0
  }

  /** `increaseTime`: five minutes more, at most 60. */
  function IncreaseTime(input: Option<int>): (v: int)
    ensures v <= 60
    ensures v == ReadMinutes(input) + 5 || v == 60
    ensures ReadMinutes(input) <= 55 ==> v == ReadMinutes(input) + 5
  {
    var value := ReadMinutes(input);
    if value + 5 < 60 then value + 5 else 60
  }

  /** `decreaseTime`: five minutes less, at least 0. */
  function DecreaseTime(input: Option<int>): (v: int)
    ensures v >= 0
    ensures v == ReadMinutes(input) - 5 || v == 0
    ensures ReadMinutes(input) >= 5 ==> v == ReadMinutes(input) - 5
  {
    var value := ReadMinutes(input);
    if value - 5 > 0 then value - 5 else 0
  }

  /** Inputs in 0..60 stay in 0..60, and away from the ends the two
      buttons undo each other. */
  lemma TimeButtonsLaws(v: int)
    ensures 0 <= v <= 60 ==> 0 <= IncreaseTime(Some(v)) <= 60 && 0 <= DecreaseTime(Some(v)) <= 60
    ensures 0 <= v <= 55 ==> DecreaseTime(Some(IncreaseTime(Some(v)))) == v
    ensures 5 <= v ==> IncreaseTime(Some(DecreaseTime(Some(v)))) == if v > 60 then 60 else v
  {
  }

  // ---------------------------------------------------------------------
  // Print counts

  const MinPrintCount := 1
  const MaxPrintCount := 10

  /** The counter `increasePrintCount(type)` and `decreasePrintCount(type)`
      target; any other type does nothing. */
  datatype CountKind = OrderReceipt | OrderSheet | OtherCount

  predicate CountsInRange(p: Printer) {
    MinPrintCount <= p.orderReceiptCount <= MaxPrintCount && MinPrintCount <= p.orderSheetCount <= MaxPrintCount
  }

  function CountOf(p: Printer, kind: CountKind): int {
    match kind
    case OrderReceipt => p.orderReceiptCount
    case OrderSheet => p.orderSheetCount
    case OtherCount => 0
  }

  datatype CountStep = CountStep(printer: Printer, warned: bool)

  /** Only the two counters may differ. */
  predicate OnlyCountsDiffer(p: Printer, q: Printer) {
    q.(orderReceiptCount := p.orderReceiptCount, orderSheetCount := p.orderSheetCount) == p
  }

  /** `increasePrintCount(type)`: the targeted counter goes up by one below
      10, with a warning at 10. */
  function IncreasePrintCount(p: Printer, kind: CountKind): (r: CountStep)
    ensures OnlyCountsDiffer(p, r.printer)
    ensures kind != OrderReceipt ==> r.printer.orderReceiptCount == p.orderReceiptCount
    ensures kind != OrderSheet ==> r.printer.orderSheetCount == p.orderSheetCount
    ensures r.warned <==> kind != OtherCount && CountOf(p, kind) >= MaxPrintCount
    ensures kind != OtherCount && !r.warned ==> CountOf(r.printer, kind) == CountOf(p, kind) + 1
    ensures r.warned ==> r.printer == p
    ensures CountsInRange(p) ==> CountsInRange(r.printer)
  {
    match kind
    case OrderReceipt =>
      if p.orderReceiptCount < MaxPrintCount then CountStep(p.(orderReceiptCount := p.orderReceiptCount + 1), false)
      else CountStep(p, true)
    case OrderSheet =>
      if p.orderSheetCount < MaxPrintCount then CountStep(p.(orderSheetCount := p.orderSheetCount + 1), false)
      else CountStep(p, true)
    case OtherCount => CountStep(p, false)
  }

  /** `decreasePrintCount(type)`: the targeted counter goes down by one
      above 1, with a warning at 1. */
  function DecreasePrintCount(p: Printer, kind: CountKind): (r: CountStep)
    ensures OnlyCountsDiffer(p, r.printer)
    ensures kind != OrderReceipt ==> r.printer.orderReceiptCount == p.orderReceiptCount
    ensures kind != OrderSheet ==> r.printer.orderSheetCount == p.orderSheetCount
    ensures r.warned <==> kind != OtherCount && CountOf(p, kind) <= MinPrintCount
    ensures kind != OtherCount && !r.warned ==> CountOf(r.printer, kind) == CountOf(p, kind) - 1
    ensures r.warned ==> r.printer == p
    ensures CountsInRange(p) ==> CountsInRange(r.printer)
  {
    match kind
    case OrderReceipt =>
      if p.orderReceiptCount > MinPrintCount then CountStep(p.(orderReceiptCount := p.orderReceiptCount - 1), false)
      else CountStep(p, true)
    case OrderSheet =>
      if p.orderSheetCount > MinPrintCount then CountStep(p.(orderSheetCount := p.orderSheetCount - 1), false)
      else CountStep(p, true)
    case OtherCount => CountStep(p, false)
  }

  /** Within range and below the maximum, one more and one fewer copy
      restores the settings. */
  lemma PrintCountUpDown(p: Printer, kind: CountKind)
    requires kind != OtherCount ==> MinPrintCount <= CountOf(p, kind) < MaxPrintCount
    ensures DecreasePrintCount(IncreasePrintCount(p, kind).printer, kind).printer == p
  {
  }

  // ---------------------------------------------------------------------
  // Connection speed

  /** The checked speed option: `'default'` or a baud rate. */
  datatype SpeedChoice = DefaultSpeed | Baud(rate: nat)

  const CustomSpeedText := "사용자 설정"

  /** The printer section and the text shown in the speed field; `None`
      when nothing was checked and nothing happened. */
  datatype SpeedSaved = SpeedSaved(printer: Printer, shown: Option<string>)

  /** `saveSpeed`: a baud rate is stored and shown; `'default'` shows the
      custom-speed text and leaves the stored speed as it was. */
  function SaveSpeed(p: Printer, selected: Option<SpeedChoice>): (r: SpeedSaved)
    ensures selected.None? ==> r == SpeedSaved(p, None)
    ensures selected == Some(DefaultSpeed) ==> r.printer == p && r.shown == Some(CustomSpeedText)
    ensures selected.Some? && selected.value.Baud? ==>
              && r.printer == p.(connectionSpeed := selected.value.rate)
              && r.shown == Some(Decimal(selected.value.rate))
  {
    match selected
    case None => SpeedSaved(p, None)
    case Some(DefaultSpeed) => SpeedSaved(p, Some(CustomSpeedText))
    case Some(Baud(rate)) => SpeedSaved(p.(connectionSpeed := rate), Some(Decimal(rate)))
  }

  /** After a baud rate, choosing `'default'` keeps that rate. */
  lemma DefaultKeepsLastRate(p: Printer, rate: nat)
    ensures SaveSpeed(SaveSpeed(p, Some(Baud(rate))).printer, Some(DefaultSpeed)).printer.connectionSpeed == rate
  {
  }

  // ---------------------------------------------------------------------
  // Loading

  /** `settings = { ...settings, ...loaded }` when stored settings parse
      (`None` when nothing is stored or parsing fails): each stored section
      replaces the default section as a whole. */
  function LoadSettings<K, V>(current: map<K, V>, loaded: Option<map<K, V>>): (r: map<K, V>)
    ensures loaded.None? ==> r == current
    ensures loaded.Some? ==> r.Keys == current.Keys + loaded.value.Keys
    ensures loaded.Some? ==> forall k :: k in loaded.value ==> r[k] == loaded.value[k]
    ensures loaded.Some? ==> forall k :: k in current && k !in loaded.value ==> r[k] == current[k]
  {
    if loaded.None? then current else current + loaded.value
  }

  /** The merge is shallow: a stored section missing a field does not get
      the default's value for it back. */
  lemma LoadIsShallow<V>(current: map<string, map<string, V>>, loaded: map<string, map<string, V>>, section: string, field: string)
    requires section in current && field in current[section]
    requires section in loaded && field !in loaded[section]
    ensures var r := LoadSettings(current, Some(loaded));
            section in r && field !in r[section]
  {
  }

  /** Loading the same stored settings again changes nothing, and stored
      settings that hold every section come back exactly. */
  lemma LoadLaws<K, V>(current: map<K, V>, loaded: map<K, V>)
    ensures LoadSettings(LoadSettings(current, Some(loaded)), Some(loaded)) == LoadSettings(current, Some(loaded))
    ensures current.Keys <= loaded.Keys ==> LoadSettings(current, Some(loaded)) == loaded
  {
  }

  // ---------------------------------------------------------------------
  // The defaults elsewhere

  /** The defaults keep every counter in range and put the auto-accept time
      on its grid; order management falls back to the same auto-accept
      settings. */
  lemma DefaultsInRange()
    ensures CountsInRange(DefaultPrinter)
    ensures OnAutoGrid(DefaultGeneral.autoAcceptTime)
    ensures SetVolumeLevel(DefaultGeneral.volumeLevel) == DefaultGeneral.volumeLevel
    ensures Lifecycle.DefaultSettings == Lifecycle.GeneralSettings(DefaultGeneral.autoAcceptEnabled, DefaultGeneral.autoAcceptTime)
  {
  }

  /** With the default printer section stored, auto-printing is on but no
      printer is chosen, so nothing prints whatever the device would say. */
  lemma DefaultPrinterPrintsNothing(apiAvailable: bool, answer: PrintHelper.DeviceAnswer)
    ensures var stored := PrintHelper.PrinterSettings(DefaultPrinter.autoPrintEnabled, DefaultPrinter.selectedPrinter);
            PrintHelper.AutoPrintReceipt(Some(stored), apiAvailable, answer) == PrintHelper.NotPrinted(PrintHelper.NoPrinterSelected)
  {
    var stored := PrintHelper.PrinterSettings(DefaultPrinter.autoPrintEnabled, DefaultPrinter.selectedPrinter);
    PrintHelper.AutoPrintPrecedence(Some(stored), apiAvailable, answer, answer);
  }
}

=== FILE: sorting.dfy ===
/** The stable sort every `Array.prototype.sort(cmp)` call in the source
    performs. A comparator `cmp` is represented by `le(a, b) == (cmp(a, b) <= 0)`:
    "`a` may stay in front of `b`". Elements the comparator ties keep their
    original relative order, as ECMAScript 2019 requires of `sort`. */
module Sorting {
  import opened Seqs

  /** `le` totally preorders `T`: what a consistent comparator provides. */
  ghost predicate TotalPreorder<T(!new)>(le: (T, T) -> bool) {
    && (forall a, b :: le(a, b) || le(b, a))
    && (forall a, b, c :: le(a, b) && le(b, c) ==> le(a, c))
  }

  ghost predicate SortedBy<T>(s: seq<T>, le: (T, T) -> bool) {
    forall i, j :: 0 <= i < j < |s| ==> le(s[i], s[j])
  }

  /** Puts `x` in front of the first element it may precede. */
  function Insert<T>(x: T, s: seq<T>, le: (T, T) -> bool): (r: seq<T>)
    ensures |r| == |s| + 1
    ensures multiset(r) == multiset(s) + multiset{x}
  {
    if |s| == 0 then [x]
    else if le(x, s[0]) then [x] + s
    else
      assert s == [s[0]] + s[1..];
      [s[0]] + Insert(x, s[1..], le)
  }

  /** Stable insertion sort: the earlier of two tied elements is inserted
      last and lands in front. */
  function SortBy<T>(s: seq<T>, le: (T, T) -> bool): (r: seq<T>)
    ensures |r| == |s|
    ensures multiset(r) == multiset(s)
  {
    if |s| == 0 then []
    else
      assert s == [s[0]] + s[1..];
      Insert(s[0], SortBy(s[1..], le), le)
  }

  lemma {:induction false} InsertSorted<T(!new)>(x: T, s: seq<T>, le: (T, T) -> bool)
    requires TotalPreorder(le) && SortedBy(s, le)
    ensures SortedBy(Insert(x, s, le), le)
  {
    if |s| > 0 && !le(x, s[0]) {
      var rest := Insert(x, s[1..], le);
      InsertSorted(x, s[1..], le);
      assert le(s[0], x);
      forall e | e in rest
        ensures le(s[0], e)
      {
        assert e in multiset(rest);
        if e != x {
          assert e in multiset(s[1..]);
          var k :| 0 <= k < |s[1..]| && s[1..][k] == e;
          assert s[k + 1] == e;
        }
      }
      var r := [s[0]] + rest;
      forall i, j | 0 <= i < j < |r|
        ensures le(r[i], r[j])
      {
        if i == 0 {
          assert r[j] == rest[j - 1];
        } else {
          assert r[i] == rest[i - 1] && r[j] == rest[j - 1];
        }
      }
    }
  }

  /** `SortBy` orders its result by `le`. */
  lemma {:induction false} SortBySorted<T(!new)>(s: seq<T>, le: (T, T) -> bool)
    requires TotalPreorder(le)
    ensures SortedBy(SortBy(s, le), le)
  {
    if |s| > 0 {
      SortBySorted(s[1..], le);
      InsertSorted(s[0], SortBy(s[1..], le), le);
    }
  }

  /** The elements `le` ties with `c`: those it orders both ways. */
  function TiedWith<T>(le: (T, T) -> bool, c: T): T -> bool {
    (y: T) => le(c, y) && le(y, c)
  }

  /** Inserting `x` passes only elements `x` may not precede, none of them
      tied with `x`: within a tie class, `x` lands in front of the class
      members already present. */
  lemma {:induction false} InsertKeepsTies<T(!new)>(x: T, s: seq<T>, le: (T, T) -> bool, c: T)
    requires TotalPreorder(le)
    ensures Filter(Insert(x, s, le), TiedWith(le, c))
            == (if TiedWith(le, c)(x) then [x] else []) + Filter(s, TiedWith(le, c))
  {
    var p := TiedWith(le, c);
    if |s| > 0 && !le(x, s[0]) {
      InsertKeepsTies(x, s[1..], le, c);
      assert p(x) ==> !p(s[0]);
      var r := [s[0]] + Insert(x, s[1..], le);
      assert r[1..] == Insert(x, s[1..], le);
      assert Filter(r, p) == (if p(s[0]) then [s[0]] else []) + Filter(Insert(x, s[1..], le), p);
    } else if |s| > 0 {
      assert ([x] + s)[1..] == s;
    }
  }

  /** `SortBy` is stable: the elements tied with any `c` come out in the
      order they went in. */
  lemma {:induction false} SortByStable<T(!new)>(s: seq<T>, le: (T, T) -> bool, c: T)
    requires TotalPreorder(le)
    ensures Filter(SortBy(s, le), TiedWith(le, c)) == Filter(s, TiedWith(le, c))
  {
    if |s| > 0 {
      SortByStable(s[1..], le, c);
      InsertKeepsTies(s[0], SortBy(s[1..], le), le, c);
    }
  }

  /** Elements of a sorted sequence that come strictly before `s[p]` in the
      order all sit in front of position `p`. */
  lemma SortedPrefix<T(!new)>(s: seq<T>, le: (T, T) -> bool, p: nat, j: nat)
    requires TotalPreorder(le) && SortedBy(s, le)
    requires p < |s| && j < |s| && !le(s[p], s[j])
    ensures j < p
  {
  }
}

=== FILE: text.dfy ===
/** Character and string helpers shared by the whole model: decimal digits,
    zero-padded numbers, JavaScript's `<` on strings, `join('\n')` /
    `split('\n')`, `trim()` and `replace(/c/g, '')`.

    Strings are `seq<char>` of Unicode scalar values; JavaScript strings are
    UTF-16 code units. The two agree on every character the model feeds them
    (digits, ASCII punctuation, Hangul), which are all in the Basic
    Multilingual Plane. */
module Text {

  // ---------------------------------------------------------------------
  // Decimal digits

  /** The `\d` class of a JavaScript regular expression without the `u` flag. */
  predicate IsDigit(c: char) {
    '0' <= c <= '9'
  }

  predicate AllDigits(s: string) {
    forall i :: 0 <= i < |s| ==> IsDigit(s[i])
  }

  function DigitValue(c: char): nat
    requires IsDigit(c)
  {
    c as int - '0' as int
  }

  function DigitChar(d: nat): (c: char)
    requires d < 10
    ensures IsDigit(c) && DigitValue(c) == d
  {
    ('0' as int + d) as char
  }

  function Pow10(n: nat): (r: nat)
    ensures r >= 1
  {
    if n == 0 then 1 else 10 * Pow10(n - 1)
  }

  /** Numeric value of a digit string, most significant digit first
      (JavaScript's `Number(s)` / `parseInt(s)` on such a string). */
  function Value(s: string): nat
    requires AllDigits(s)
  {
    if |s| == 0 then 0 else DigitValue(s[0]) * Pow10(|s| - 1) + Value(s[1..])
  }

  lemma {:induction false} ValueBound(s: string)
    requires AllDigits(s)
    ensures Value(s) < Pow10(|s|)
  {
    if |s| > 0 {
      ValueBound(s[1..]);
      var p := Pow10(|s| - 1);
      var d := DigitValue(s[0]);
      assert d <= 9;
      assert d * p <= 9 * p by { MulLeft(d, 9, p); }
    }
  }

  lemma MulLeft(a: nat, b: nat, p: nat)
    requires a <= b
    ensures a * p <= b * p
  {
  }

  lemma {:induction false} ValueSnoc(s: string, c: char)
    requires AllDigits(s) && IsDigit(c)
    ensures AllDigits(s + [c])
    ensures Value(s + [c]) == Value(s) * 10 + DigitValue(c)
  {
    var t := s + [c];
    assert AllDigits(t);
    if |s| == 0 {
      assert t == [c];
    } else {
      assert t[1..] == s[1..] + [c];
      ValueSnoc(s[1..], c);
      calc {
        Value(t);
        DigitValue(s[0]) * Pow10(|s|) + Value(s[1..] + [c]);
        DigitValue(s[0]) * (10 * Pow10(|s| - 1)) + Value(s[1..]) * 10 + DigitValue(c);
        { MulAssoc(DigitValue(s[0]), Pow10(|s| - 1)); }
        (DigitValue(s[0]) * Pow10(|s| - 1) + Value(s[1..])) * 10 + DigitValue(c);
      }
    }
  }

  lemma MulAssoc(a: nat, p: nat)
    ensures a * (10 * p) == (a * p) * 10
  {
  }

  /** `n` written with exactly `w` decimal digits, zero-padded on the left
      (`String(n).padStart(w, '0')` for an `n` that fits in `w` digits). */
  function Fixed(n: nat, w: nat): (r: string)
    requires n < Pow10(w)
    ensures |r| == w && AllDigits(r) && Value(r) == n
  {
    if w == 0 then
      ""
    else
      var p := Fixed(n / 10, w - 1);
      ValueSnoc(p, DigitChar(n % 10));
      p + [DigitChar(n % 10)]
  }

  /** The two characters of a two-digit field, spelled out. */
  lemma FixedTwo(n: nat)
    requires n < 100
    ensures Pow10(2) == 100
    ensures Fixed(n, 2) == [DigitChar(n / 10), DigitChar(n % 10)]
  {
    assert Pow10(2) == 100;
    assert Fixed(n / 10, 1) == Fixed(n / 100, 0) + [DigitChar(n / 10 % 10)];
  }

  /** `String(n)` for a non-negative integer: shortest decimal form. */
  function Decimal(n: nat): (r: string)
    ensures |r| >= 1 && AllDigits(r) && Value(r) == n
    ensures r[0] != '0' || n == 0
  {
    if n < 10 then
      [DigitChar(n)]
    else
      var p := Decimal(n / 10);
      ValueSnoc(p, DigitChar(n % 10));
      p + [DigitChar(n % 10)]
  }

  /** A number with `k` significant digits is written with exactly `k` characters. */
  lemma {:induction false} DecimalLength(n: nat, k: nat)
    requires k >= 1 && (k == 1 || Pow10(k - 1) <= n) && n < Pow10(k)
    ensures |Decimal(n)| == k
  {
    if n >= 10 {
      assert k >= 2;
      DecimalLength(n / 10, k - 1);
    }
  }

  /** Every digit string is the decimal form of its value, once its length
      is fixed. */
  lemma {:induction false} DigitsDetermined(a: string, b: string)
    requires AllDigits(a) && AllDigits(b) && |a| == |b| && Value(a) == Value(b)
    ensures a == b
  {
    if a != b {
      LexTotal(a, b);
      if LexLess(a, b) { LexDigits(a, b); } else { LexDigits(b, a); }
    }
  }

  // ---------------------------------------------------------------------
  // JavaScript's `<` on strings

  /** `a < b` on JavaScript strings: lexicographic order on characters, a
      proper prefix coming first. */
  predicate LexLess(a: string, b: string)
    decreases |a|
  {
    if |a| == 0 then |b| > 0
    else if |b| == 0 then false
    else if a[0] != b[0] then a[0] < b[0]
    else LexLess(a[1..], b[1..])
  }

  /** `a <= b` on JavaScript strings. */
  predicate LexLe(a: string, b: string) {
    a == b || LexLess(a, b)
  }

  lemma {:induction false} LexIrreflexive(a: string)
    ensures !LexLess(a, a)
  {
    if |a| > 0 {
      LexIrreflexive(a[1..]);
    }
  }

  lemma {:induction false} LexTotal(a: string, b: string)
    ensures a == b || LexLess(a, b) || LexLess(b, a)
  {
    if |a| > 0 && |b| > 0 && a[0] == b[0] {
      LexTotal(a[1..], b[1..]);
      if a[1..] == b[1..] {
        assert a == [a[0]] + a[1..] && b == [b[0]] + b[1..];
      }
    }
  }

  lemma {:induction false} LexAsymmetric(a: string, b: string)
    ensures !(LexLess(a, b) && LexLess(b, a))
  {
    if |a| > 0 && |b| > 0 && a[0] == b[0] {
      LexAsymmetric(a[1..], b[1..]);
    }
  }

  lemma {:induction false} LexTransitive(a: string, b: string, c: string)
    requires LexLess(a, b) && LexLess(b, c)
    ensures LexLess(a, c)
  {
    if |a| > 0 && a[0] == b[0] && b[0] == c[0] {
      LexTransitive(a[1..], b[1..], c[1..]);
    }
  }

  /** Comparing two concatenations whose first parts have the same length
      compares the first parts, then the second. */
  lemma {:induction false} LexConcat(x: string, y: string, x': string, y': string)
    requires |x| == |x'|
    ensures LexLess(x + y, x' + y') <==> LexLess(x, x') || (x == x' && LexLess(y, y'))
  {
    if |x| == 0 {
      assert x + y == y && x' + y' == y';
    } else {
      assert (x + y)[1..] == x[1..] + y;
      assert (x' + y')[1..] == x'[1..] + y';
      LexConcat(x[1..], y, x'[1..], y');
      if x[0] == x'[0] && x[1..] == x'[1..] {
        assert x == [x[0]] + x[1..] && x' == [x'[0]] + x'[1..];
      }
    }
  }

  /** On digit strings of equal length, JavaScript's string order is numeric
      order. This is why zero-padded `HH:MM` and `YYYY-MM-DD` strings can be
      compared with `<`. */
  lemma {:induction false} LexDigits(a: string, b: string)
    requires AllDigits(a) && AllDigits(b) && |a| == |b|
    ensures LexLess(a, b) <==> Value(a) < Value(b)
  {
    if |a| > 0 {
      if a[0] == b[0] {
        LexDigits(a[1..], b[1..]);
      } else if DigitValue(a[0]) < DigitValue(b[0]) {
        LeadingDigitDecides(a, b);
      } else {
        LeadingDigitDecides(b, a);
      }
    }
  }

  /** A smaller leading digit makes a smaller number, whatever follows. */
  lemma LeadingDigitDecides(a: string, b: string)
    requires AllDigits(a) && AllDigits(b) && |a| == |b| > 0
    requires DigitValue(a[0]) < DigitValue(b[0])
    ensures Value(a) < Value(b)
  {
    ValueBound(a[1..]);
    SmallerLeadWins(DigitValue(a[0]), DigitValue(b[0]), Pow10(|a| - 1), Value(a[1..]), Value(b[1..]));
  }

  lemma SmallerLeadWins(da: nat, db: nat, p: nat, x: nat, y: nat)
    requires da < db && x < p
    ensures da * p + x < db * p + y
  {
    MulLeft(da + 1, db, p);
    assert (da + 1) * p == da * p + p;
  }

  // ---------------------------------------------------------------------
  // `join('\n')` and `split('\n')`

  /** `parts.join('\n')`. */
  function JoinLines(parts: seq<string>): string {
    if |parts| == 0 then ""
    else if |parts| == 1 then parts[0]
    else parts[0] + "\n" + JoinLines(parts[1..])
  }

  /** Index of the first `c` in `s`, or `|s|` when there is none. */
  function IndexOf(s: string, c: char): (i: nat)
    ensures i <= |s|
    ensures i < |s| ==> s[i] == c
    ensures forall k :: 0 <= k < i ==> s[k] != c
  {
    if |s| == 0 then 0
    else if s[0] == c then 0
    else 1 + IndexOf(s[1..], c)
  }

  /** `s.split('\n')`: the pieces between newlines, at least one. */
  function SplitLines(s: string): (r: seq<string>)
    ensures |r| >= 1
    decreases |s|
  {
    var i := IndexOf(s, '\n');
    if i == |s| then [s] else [s[..i]] + SplitLines(s[i + 1..])
  }

  /** Splitting a joined list gives the list back, provided it is non-empty
      and no part already contains a newline. */
  lemma {:induction false} SplitJoinLines(parts: seq<string>)
    requires |parts| >= 1
    requires forall k :: 0 <= k < |parts| ==> '\n' !in parts[k]
    ensures SplitLines(JoinLines(parts)) == parts
  {
    var p := parts[0];
    if |parts| == 1 {
      assert IndexOf(p, '\n') == |p|;
    } else {
      var rest := JoinLines(parts[1..]);
      var s := p + "\n" + rest;
      assert s[|p|] == '\n';
      assert forall k :: 0 <= k < |p| ==> s[k] == p[k];
      assert IndexOf(s, '\n') == |p|;
      assert s[..|p|] == p;
      assert s[|p| + 1..] == rest;
      SplitJoinLines(parts[1..]);
      assert [p] + parts[1..] == parts;
    }
  }

  // ---------------------------------------------------------------------
  // `trim()` and `replace(/c/g, '')`

  /** ECMAScript WhiteSpace and LineTerminator code points: what `trim()` removes. */
  predicate IsJsWhitespace(c: char) {
    || c == '\t' || c == '\n' || c == '\U{000B}' || c == '\U{000C}' || c == '\r'
    || c == ' ' || c == '\U{00A0}' || c == '\U{1680}'
    || ('\U{2000}' <= c <= '\U{200A}')
    || c == '\U{2028}' || c == '\U{2029}' || c == '\U{202F}' || c == '\U{205F}'
    || c == '\U{3000}' || c == '\U{FEFF}'
  }

  predicate AllWhitespace(s: string) {
    forall i :: 0 <= i < |s| ==> IsJsWhitespace(s[i])
  }

  function TrimStart(s: string): (r: string)
    ensures |r| <= |s| && r == s[|s| - |r|..]
    ensures AllWhitespace(s[..|s| - |r|])
    ensures |r| > 0 ==> !IsJsWhitespace(r[0])
  {
    if |s| == 0 || !IsJsWhitespace(s[0]) then s
    else
      var r := TrimStart(s[1..]);
      assert s[1..][..|s| - 1 - |r|] == s[1..|s| - |r|];
      r
  }

  function TrimEnd(s: string): (r: string)
    ensures |r| <= |s| && r == s[..|r|]
    ensures AllWhitespace(s[|r|..])
    ensures |r| > 0 ==> !IsJsWhitespace(r[|r| - 1])
  {
    if |s| == 0 || !IsJsWhitespace(s[|s| - 1]) then s
    else
      var r := TrimEnd(s[..|s| - 1]);
      assert s[..|s| - 1][|r|..] == s[|r|..|s| - 1];
      r
  }

  /** `s.trim()`: `s` without leading and trailing whitespace. */
  function Trim(s: string): (r: string)
    ensures |r| <= |s|
    ensures |r| == 0 <==> AllWhitespace(s)
    ensures |r| > 0 ==> !IsJsWhitespace(r[0]) && !IsJsWhitespace(r[|r| - 1])
  {
    var a := TrimStart(s);
    var r := TrimEnd(a);
    var cut := |s| - |a|;
    if |r| == 0 then
      assert |a| == 0 by {
        assert a[|r|..] == a;
      }
      assert AllWhitespace(s) by {
        forall i | 0 <= i < |s|
          ensures IsJsWhitespace(s[i])
        {
          assert s[..cut][i] == s[i];
        }
      }
      r
    else
      assert r[0] == a[0] == s[cut];
      r
  }

  /** `s.replace(/c/g, '')`: `s` with every `c` deleted, order kept. */
  function RemoveAll(s: string, c: char): (r: string)
    ensures c !in r
    ensures |r| <= |s|
    ensures c !in s ==> r == s
    ensures forall x :: x != c ==> multiset(r)[x] == multiset(s)[x]
  {
    if |s| == 0 then ""
    else
      assert s == [s[0]] + s[1..];
      if s[0] == c then RemoveAll(s[1..], c) else [s[0]] + RemoveAll(s[1..], c)
  }

  /** Deleting from a concatenation deletes from each part. */
  lemma {:induction false} RemoveAllAppend(a: string, b: string, c: char)
    ensures RemoveAll(a + b, c) == RemoveAll(a, c) + RemoveAll(b, c)
  {
    if |a| == 0 {
      assert a + b == b;
    } else {
      assert (a + b)[0] == a[0];
      assert (a + b)[1..] == a[1..] + b;
      RemoveAllAppend(a[1..], b, c);
    }
  }
}

=== FILE: utils.dfy ===
/** Shared helpers of the renderer: day names, the zero-base growth rate,
    `HH:MM` comparison, the 30-minute time grid, the "open now" predicate
    and the holiday predicate. */
module Utils {
  import opened Text
  import opened Wrappers
  import opened Calendar
  import Seqs

  // ---------------------------------------------------------------------
  // Day names and growth rate

  /** One-letter Korean day names, Sunday first. */
  const DayNames: seq<string> := ["일", "월", "화", "수", "목", "금", "토"]

  /** `getDayName`: `undefined` (here `None`) outside 0..6. */
  function DayName(dayOfWeek: int): (r: Option<string>)
    ensures r.Some? <==> 0 <= dayOfWeek < 7
    ensures r.Some? ==> |r.value| == 1 && r.value in DayNames
    ensures r.Some? ==> r.value == DayNames[dayOfWeek]
  {
    if 0 <= dayOfWeek < 7 then Some(DayNames[dayOfWeek]) else None
  }

  /** Different weekdays have different names. */
  lemma DayNameInjective(a: int, b: int)
    requires 0 <= a < 7 && 0 <= b < 7
    ensures DayName(a) == DayName(b) <==> a == b
  {
  }

  /** `calculateGrowthRate(current, 0)`: growth from nothing is reported as
      100 % when anything was sold and as 0 % otherwise. */
  function ZeroBaseGrowthRate(current: int): (r: int)
    ensures r == 0 || r == 100
    ensures r == 100 <==> current > 0
  {
    if current > 0 then 100 else 0
  }

  // ---------------------------------------------------------------------
  // Comparing clock times

  /** `isTimeAfter`: `h1 * 60 + m1 > h2 * 60 + m2`; false when either time
      is not of the `H:M` digit shape. */
  predicate IsTimeAfter(time1: string, time2: string) {
    match (ParseHHMM(time1), ParseHHMM(time2))
    case (Some(a), Some(b)) => a > b
    case _ => false
  }

  lemma IsTimeAfterIrreflexive(t: string)
    ensures !IsTimeAfter(t, t)
  {
  }

  lemma IsTimeAfterTransitive(a: string, b: string, c: string)
    requires IsTimeAfter(a, b) && IsTimeAfter(b, c)
    ensures IsTimeAfter(a, c)
  {
  }

  /** On well-formed `HH:MM` strings, `isTimeAfter` is the reverse of the
      string comparison `<` the rest of the source uses. */
  lemma IsTimeAfterFormatted(a: Minute, b: Minute)
    ensures IsTimeAfter(FormatHHMM(a), FormatHHMM(b)) <==> a > b
    ensures IsTimeAfter(FormatHHMM(a), FormatHHMM(b)) <==> LexLess(FormatHHMM(b), FormatHHMM(a))
  {
    ParseFormatHHMM(a);
    ParseFormatHHMM(b);
    HHMMOrder(b, a);
  }

  /** A string that is the `HH:MM` form of a time of day. */
  predicate Canonical(x: string) {
    match ParseHHMM(x)
    case Some(t) => t < 1440 && FormatHHMM(t) == x
    case None => false
  }

  /** The time of day a canonical `HH:MM` string stands for. */
  function MinuteOf(x: string): (t: Minute)
    requires Canonical(x)
    ensures FormatHHMM(t) == x
  {
    ParseHHMM(x).value
  }

  /** Every formatted time is canonical and stands for itself. */
  lemma FormattedIsCanonical(t: Minute)
    ensures Canonical(FormatHHMM(t)) && MinuteOf(FormatHHMM(t)) == t
  {
    ParseFormatHHMM(t);
  }

  /** String order on canonical times is the order of the times. */
  lemma CanonicalOrder(x: string, y: string)
    requires Canonical(x) && Canonical(y)
    ensures LexLess(x, y) <==> MinuteOf(x) < MinuteOf(y)
  {
    HHMMOrder(MinuteOf(x), MinuteOf(y));
  }

  // ---------------------------------------------------------------------
  // The 30-minute time grid

  /** `generateTimeOptions`: every half hour of the day, `"00:00"` to
      `"23:30"`, in increasing order. */
  method GenerateTimeOptions() returns (times: seq<string>)
    ensures |times| == 48
    ensures forall i :: 0 <= i < |times| ==> times[i] == FormatHHMM(30 * i)
    ensures times[0] == "00:00" && times[47] == "23:30"
    ensures forall i, j :: 0 <= i < j < |times| ==> LexLess(times[i], times[j])
  {
    times := [];
    var hour := 0;
    while hour < 24
      invariant 0 <= hour <= 24
      invariant 30 * |times| == 60 * hour
      invariant forall i :: 0 <= i < |times| ==> times[i] == FormatHHMM(30 * i)
    {
      var minute := 0;
      while minute < 60
        invariant minute == 0 || minute == 30 || minute == 60
        invariant 30 * |times| == 60 * hour + minute
        invariant forall i :: 0 <= i < |times| ==> times[i] == FormatHHMM(30 * i)
      {
        GridEntry(hour, minute);
        var entry := Fixed(hour, 2) + ":" + Fixed(minute, 2);
        assert entry == FormatHHMM(30 * |times|);
        times := times + [entry];
        minute := minute + 30;
      }
      hour := hour + 1;
    }
    GridEnds();
    GridIncreasing(times);
  }

  /** The entry for `hour:minute` is the formatted time `60 * hour + minute`. */
  lemma GridEntry(hour: nat, minute: nat)
    requires hour < 24 && (minute == 0 || minute == 30)
    ensures Pow10(2) == 100
    ensures Fixed(hour, 2) + ":" + Fixed(minute, 2) == FormatHHMM(60 * hour + minute)
  {
    assert Pow10(2) == 100;
    var t := 60 * hour + minute;
    assert t / 60 == hour && t % 60 == minute;
  }

  lemma GridEnds()
    ensures FormatHHMM(0) == "00:00" && FormatHHMM(1410) == "23:30"
  {
    HHMMText(0, 0);
    HHMMText(23, 30);
  }

  lemma GridIncreasing(times: seq<string>)
    requires |times| == 48
    requires forall i :: 0 <= i < |times| ==> times[i] == FormatHHMM(30 * i)
    ensures forall i, j :: 0 <= i < j < |times| ==> LexLess(times[i], times[j])
  {
    forall i, j | 0 <= i < j < |times|
      ensures LexLess(times[i], times[j])
    {
      HHMMOrder(30 * i, 30 * j);
    }
  }

  // ---------------------------------------------------------------------
  // Opening hours

  /** One weekday's opening hours (`operationHours` entries): `day` is a
      `getDay()` number, times are `HH:MM` strings. */
  datatype DaySchedule = DaySchedule(day: int, enabled: bool, startTime: string, endTime: string)

  /** The daily break (`breakTime`). */
  datatype BreakTime = BreakTime(enabled: bool, startTime: string, endTime: string)

  /** Index of the first schedule for `day` (`find`), `|hours|` when there is none. */
  function FindDay(hours: seq<DaySchedule>, day: int): (i: nat)
    ensures i <= |hours|
    ensures i < |hours| ==> hours[i].day == day
    ensures forall k :: 0 <= k < i ==> hours[k].day != day
  {
    Seqs.FindFirst(hours, (h: DaySchedule) => h.day == day)
  }

  /** `isOpenNow` on `today` at time `now`: the weekday's schedule must exist
      and be enabled, `now` must lie in the inclusive window and outside the
      half-open break, all compared as `HH:MM` strings. */
  function IsOpenNow(hours: seq<DaySchedule>, breakTime: Option<BreakTime>, today: CivilDate, now: Minute): (r: bool)
    requires ValidDate(today)
    ensures FindDay(hours, Weekday(today)) == |hours| ==> !r
    ensures r ==> hours[FindDay(hours, Weekday(today))].enabled
  {
    var current := FormatHHMM(now);
    var i := FindDay(hours, Weekday(today));
    if i == |hours| || !hours[i].enabled then false
    else if LexLess(current, hours[i].startTime) || LexLess(hours[i].endTime, current) then false
    else if breakTime.Some? && breakTime.value.enabled
            && !LexLess(current, breakTime.value.startTime) && LexLess(current, breakTime.value.endTime) then false
    else true
  }

  /** With well-formed times, `isOpenNow` holds exactly when today's schedule
      is enabled, `start <= now <= end`, and `now` is not in the enabled
      break `[breakStart, breakEnd)`, comparing minutes. */
  lemma IsOpenNowMinutes(hours: seq<DaySchedule>, breakTime: Option<BreakTime>, today: CivilDate, now: Minute)
    requires ValidDate(today)
    requires forall d :: d in hours ==> Canonical(d.startTime) && Canonical(d.endTime)
    requires breakTime.Some? ==> Canonical(breakTime.value.startTime) && Canonical(breakTime.value.endTime)
    ensures var i := FindDay(hours, Weekday(today));
            IsOpenNow(hours, breakTime, today, now) <==>
              && i < |hours|
              && hours[i].enabled
              && MinuteOf(hours[i].startTime) <= now <= MinuteOf(hours[i].endTime)
              && !(breakTime.Some? && breakTime.value.enabled
                   && MinuteOf(breakTime.value.startTime) <= now < MinuteOf(breakTime.value.endTime))
  {
    var i := FindDay(hours, Weekday(today));
    var current := FormatHHMM(now);
    FormattedIsCanonical(now);
    if i < |hours| {
      assert hours[i] in hours;
      CanonicalOrder(current, hours[i].startTime);
      CanonicalOrder(hours[i].endTime, current);
    }
    if breakTime.Some? {
      CanonicalOrder(current, breakTime.value.startTime);
      CanonicalOrder(current, breakTime.value.endTime);
    }
  }

  // ---------------------------------------------------------------------
  // Holidays

  datatype HolidayKind = Weekly | Specific

  /** A regular holiday: a weekday, every week or only in the `week`-th week
      of the month. `week` is `None` for the source's `null`. */
  datatype RegularHoliday = RegularHoliday(dayOfWeek: int, kind: HolidayKind, week: Option<int>)

  /** A temporary closure from `startDate` to `endDate`, both inclusive. */
  datatype TempHoliday = TempHoliday(startDate: CivilDate, endDate: CivilDate)

  /** `!holiday.week`: no week chosen. */
  predicate NoWeek(week: Option<int>) {
    week.None? || week.value == 0
  }

  /** Whether a regular holiday falls on `date`. */
  predicate RegularMatches(h: RegularHoliday, date: CivilDate)
    requires ValidDate(date)
  {
    h.dayOfWeek == Weekday(date)
    && (h.kind == Weekly || NoWeek(h.week) || h.week == Some(WeekOfMonth(date)))
  }

  /** Whether a temporary closure covers `date` (midnight of the first day to
      the last millisecond of the last day). */
  predicate TempCovers(h: TempHoliday, date: CivilDate) {
    DateLe(h.startDate, date) && DateLe(date, h.endDate)
  }

  /** The first loop of `isHoliday`. */
  function AnyRegular(hs: seq<RegularHoliday>, date: CivilDate): (r: bool)
    requires ValidDate(date)
    ensures r <==> exists i :: 0 <= i < |hs| && RegularMatches(hs[i], date)
  {
    if |hs| == 0 then false
    else if RegularMatches(hs[0], date) then true
    else
      var r := AnyRegular(hs[1..], date);
      assert forall i :: 1 <= i < |hs| ==> hs[i] == hs[1..][i - 1];
      r
  }

  /** The second loop of `isHoliday`. */
  function AnyTemporary(hs: seq<TempHoliday>, date: CivilDate): (r: bool)
    ensures r <==> exists i :: 0 <= i < |hs| && TempCovers(hs[i], date)
  {
    if |hs| == 0 then false
    else if TempCovers(hs[0], date) then true
    else
      var r := AnyTemporary(hs[1..], date);
      assert forall i :: 1 <= i < |hs| ==> hs[i] == hs[1..][i - 1];
      r
  }

  /** `isHoliday`: a matching regular holiday or a covering closure. */
  function IsHoliday(date: CivilDate, regular: seq<RegularHoliday>, temporary: seq<TempHoliday>): (r: bool)
    requires ValidDate(date)
    ensures r <==> ((exists i :: 0 <= i < |regular| && RegularMatches(regular[i], date))
                    || (exists j :: 0 <= j < |temporary| && TempCovers(temporary[j], date)))
  {
    AnyRegular(regular, date) || AnyTemporary(temporary, date)
  }

  /** A weekly holiday (or one without a week) closes every date on its weekday. */
  lemma WeeklyHolidayEveryWeek(date: CivilDate, regular: seq<RegularHoliday>, temporary: seq<TempHoliday>, i: nat)
    requires ValidDate(date) && i < |regular|
    requires regular[i].kind == Weekly || NoWeek(regular[i].week)
    ensures regular[i].dayOfWeek == Weekday(date) ==> IsHoliday(date, regular, temporary)
  {
  }

  /** A specific-week holiday matches a date exactly when the weekday agrees
      and the date lies in that week of the month, days `7w-6 .. 7w`. */
  lemma SpecificWeekHoliday(h: RegularHoliday, date: CivilDate)
    requires ValidDate(date) && h.kind == Specific && h.week.Some? && h.week.value != 0
    ensures RegularMatches(h, date) <==>
              h.dayOfWeek == Weekday(date) && 7 * h.week.value - 6 <= date.day <= 7 * h.week.value
  {
    var w := WeekOfMonth(date);
    if 7 * h.week.value - 6 <= date.day <= 7 * h.week.value {
      assert h.week.value == w;
    }
  }

  /** A closure covers its first and last day, and nothing outside them. */
  lemma TempHolidayInclusive(h: TempHoliday, date: CivilDate)
    requires DateLe(h.startDate, h.endDate)
    ensures TempCovers(h, h.startDate) && TempCovers(h, h.endDate)
    ensures DateLess(date, h.startDate) || DateLess(h.endDate, date) ==> !TempCovers(h, date)
  {
  }
}

=== FILE: wrappers.dfy ===
/** Failure-compatible wrapper used wherever the JavaScript source returns
    `undefined`, `null` or "nothing selected". */
module Wrappers {

  datatype Option<+T> = None | Some(value: T) {

    predicate IsFailure() {
      None?
    }

    function PropagateFailure<U>(): Option<U>
      requires None?
    {
      None
    }

    function Extract(): T
      requires Some?
    {
      value
    }

    /** The value, or `default` when there is none (JavaScript's `x || default`
        for a field that is either present or absent). */
    function GetOr(default: T): T {
      match this
      case Some(v) => v
      case None => default
    }
  }
}
